=== FILE: README.md ===
# Dodo core in Dafny

A model of the hardware logic of Dodo, a Game Boy / Game Boy Color
emulator, with proofs about it. Each component of the emulator is one Dafny
module holding immutable state records and pure transition functions. Loops
(the timer, the HDMA block copy, the PPU dot loop) appear as methods with
invariants or as recursive functions.

| module | file | models |
|---|---|---|
| `Bits` | bits.dfy | bytes and words as bounded integers; AND/OR/XOR, shifts and single bits as arithmetic |
| `Wrappers` | wrappers.dfy | `Option` |
| `CpuRegister` | cpu_register.dfy | a 16-bit register pair with its high and low bytes |
| `Alu` | cpu_alu.dfy | the flag register and every ALU family: ADD/ADC, SUB/SBC/CP, AND/OR/XOR, INC/DEC, DAA, CPL, ADD HL, ADD SP+e8, rotates and shifts, SWAP, BIT/SET/RES |
| `Cpu` | cpu.dfy | the register file, the opcode datatype with its decoder and encoder, stack operations, jumps, calls, returns, RST, interrupt service and HALT, and `step` over a memory of 0x10000 bytes |
| `Timer` | timer.dfy | DIV/TIMA/TMA/TAC, the tick accumulators and the overflow reload |
| `SquareChannel` | square_channel.dfy | the duty timer, the length counter, the envelope, the sweep and the register writes of one square channel |
| `Apu` | apu.dfy | the frame sequencer and the register dispatch to the two square channels |
| `SaveFile` | savefile.dfy | the save-file name and the restored RAM image |
| `Mbc0`, `Mbc1`, `Mbc3`, `Mbc5` | mbc0.dfy … mbc5.dfy | each bank controller's registers, address translation and RAM; the MBC3 real-time clock with the wall clock passed in |
| `Mbc` | mbc.dfy | the window dispatch of the controller base class |
| `Ppu` | ppu.dfy | the dot accumulator, LY and the mode state machine, the interrupt mask `tick` returns, the register file with STAT and the CGB palettes, and the pixel and palette decode |
| `Bus` | bus.dfy | address decoding, IE/IF, the joypad register, OAM DMA, the HDMA register and mode state machine, the speed switch, and `tick` |
| `Gameboy` | gameboy.dfy | cartridge header classification, the MBC factory, loading a cartridge, and `step` |

Values are `u8`, `u16` and `u64` subset types of `int`. Registers, memory
bytes, addresses and the two APU dividers keep their C++ width, and where a
`uint8_t` or `uint16_t` of theirs overflows the wrap-around is written out as
`% 0x100` or `% 0x1_0000`. Counters the C++ declares as `int` (the timer
accumulators, include/timer.h:25) or whose declaration the draft headers
leave out (the PPU's dot counter, window start line and window line) are
unbounded integers, and `Ppu.Valid` states the dot counter's range. The
APU's small counters are `uint8_t` fields that never come near their width:
- the envelope period and timer (include/apu/square_channel.h:45) and the
  sweep shift, period and timer only ever hold a 3-bit field of a register
  write or count down from one, so the model gives them the type
  `SquareChannel.Count3` (0-7). The draft header declares no sweep fields
  (include/apu/square_channel.h:38).
- the envelope volume and reload value (include/apu/square_channel.h:47)
  are `u8`, and `SquareChannel.Valid` keeps them at most 15.
- the frame-sequencer step (include/apu/apu.h:29) is reduced mod 8 at each
  step, and `Apu.Valid` keeps it below 8.

The PPU's `vram_bank` is kept as an unbounded `nat` (see "## Left out").

Where the emulator's documentation and its code disagree, the model follows
the code:
- OAM DMA copies 0x9F bytes, one short of the 160-byte OAM (src/bus.cpp:242).
- MBC0 copies 0x8000 bytes out of the image without a size check, so an MBC0
  cartridge needs a 0x8000-byte image, not just a 0x150-byte header
  (src/mbc/mbc0.cpp:5-8).
- A bus read of OAM gives 0: the value is fetched and dropped, and the read falls
  through to the final `return 0` (src/bus.cpp:75-76, 85).
- Bus writes to 0x4000-0x7FFF reach no component, so the MBC bank-high
  registers are unreachable through the bus (src/bus.cpp:88-109).
- The banked-WRAM index for bank 7 lies past the 0x8000-byte array. This is
  a precondition of `Bus.Read` and `Bus.Write` (src/bus.cpp:71-73).
- HDMA writes the same source byte to the same destination 16 times per
  block (src/bus.cpp:218-220).
- The STAT write and the STAT read put the mode-0 and mode-2 interrupt
  enables at different bits, so no STAT round trip holds
  (src/ppu.cpp:64-106).
- The CPU's `ADD HL,rr`, the timer, the square channel and the MBC3 clock
  have the defects listed under "## Findings". Each is modelled as written
  and also corrected, and the rest of the model uses the corrected version:
  `Cpu.Exec` (and so `Cpu.Step` and `Gameboy.Step`) runs `Alu.AddHl`,
  `Bus.LowIoWrite` runs `Timer.Write`, `Apu.Write` runs
  `SquareChannel.WriteFreqLo`, and `Mbc.Write` runs `Mbc3.WriteRam`.
- src/gameboy.cpp passes `(data, ram_size)` to the controller constructors.
  include/mbc/mbc1.h:15, include/mbc/mbc3.h:12 and include/mbc/mbc5.h:12
  declare them as taking the file name and the cartridge type; the model
  follows these headers and also passes the file name. MBC0 is different:
  include/mbc/mbc0.h declares no constructor, and src/mbc/mbc0.cpp:5 takes
  only `data`, although src/gameboy.cpp:61 passes `(data, ram_size)`. The
  model's `Mbc0.Init` takes only the image, as src/mbc/mbc0.cpp does.
- include/cpu.h, include/ppu.h, include/apu/apu.h,
  include/apu/square_channel.h and include/gameboy.h are drafts that
  disagree with the .cpp files; include/apu/apu.h, for one, declares neither
  the `sample_divider` nor the `sample_buffer` that src/apu/apu.cpp:35-41
  uses. State and
  method names come from the .cpp files. Two facts are taken from the drafts
  because no other file states them: the PPU mode numbering (HBlank 0,
  VBlank 1, OAM 2, Transfer 3, include/ppu.h) and the square channel's field
  widths (include/apu/square_channel.h).

## Model

| member | source | states |
|---|---|---|
| CpuRegister.Get | include/cpu_register.h:8 | the pair's value has the high byte as its upper 8 bits and the low byte as its lower 8 |
| CpuRegister.Set | include/cpu_register.h:9-12 | reading the pair back after `set(v)` gives `v` |
| CpuRegister.SetHi | include/cpu_register.h:17-18 | only the high byte changes, to the value written; the pair reads `v * 256 + lo` |
| CpuRegister.SetLo | include/cpu_register.h:14-15 | only the low byte changes, to the value written; the pair reads `hi * 256 + v` |
| CpuRegister.SetOfGet | include/cpu_register.h:8-12 | storing the value a pair already holds leaves both bytes unchanged |
| Timer.Init | include/timer.h:10-16 | the constructor zeroes the divider, counter, modulo, tick accumulator, enable bit and clock select; `counter_divider`, which the constructor leaves uninitialised, keeps whatever value it is given |
| Timer.ClockStep | include/timer.h:6 | the ticks per counter increment are always one of 16, 64, 256 or 1024, so they are never 0 and the tick loop always ends |
| Timer.Tick | src/timer.cpp:3-27 | the divider rises (mod 256) once per 256 accumulated ticks and the leftover stays below 256; a disabled timer keeps its counter and raises nothing; an enabled one makes one wrapping, modulo-reloading increment per whole clock step, keeps the leftover below one step, and reports an overflow |
| Timer.CountUpWithoutOverflow | src/timer.cpp:16-23 | increments that do not reach 256 just add to the counter and raise nothing |
| Timer.CountUpOverflow | src/timer.cpp:17-20 | the increment that wraps the counter reloads it from the modulo and raises the interrupt |
| Timer.CountUpKeepsInterrupt | src/timer.cpp:18-20 | once an increment has overflowed, the tick reports the interrupt however many increments follow |
| Timer.Read | src/timer.cpp:29-41 | DIV, TIMA and TMA read their registers; TAC reads the enable bit above the clock select; every other address reads 0 |
| Timer.WriteAsWritten | src/timer.cpp:43-55 | the missing `break`s make DIV also load TIMA, TMA and TAC, TIMA also load TMA and TAC, and TMA also load TAC; the clock select and both accumulators never change |
| Timer.Write | src/timer.cpp:43-55 | the corrected write: a TAC write sets the enable from bit 2 and selects the clock step from bits 0-1 as `kClockStep` orders them; addresses outside 0xFF04-0xFF07 change nothing; neither accumulator changes |
| Timer.DivWriteFallsThrough | src/timer.cpp:44-53 | after a DIV write, DIV reads 0, TIMA and TMA read the data, and the enable bit is bit 2 of the data |
| Timer.TacWriteKeepsClockSelect | src/timer.cpp:51-53 | reading TAC back after a TAC write gives bit 2 of the data above the clock select the timer had before |
| Timer.ClockStepAlways1024 | include/timer.h:16 | the timer starts on the 1024-tick clock, and no write selects another one |
| Timer.TacWriteDiscrepancy | src/timer.cpp:51-53 | on a fresh timer, writing 0x05 to TAC reads back 0x04 as written, and 0x05 with the corrected write |
| Timer.WriteReadBack | src/timer.cpp:43-55 | with the corrected write, TIMA and TMA read back the data, DIV reads 0 and TAC reads the data's low three bits, and the other timer registers read as before |
| SquareChannel.Init | include/apu/square_channel.h:15-22 | a new channel is disabled, its DAC off, with duty step, length and volume 0, and has the sweep unit exactly when asked to |
| SquareChannel.TickTimer | src/apu/square_channel.cpp:3-10 | at 0 the timer reloads from the frequency and the duty step advances mod 8; otherwise the timer counts down and nothing else changes; the duty step stays below 8 |
| SquareChannel.TickLength | src/apu/square_channel.cpp:12-20 | an enabled, running length counter drops by one and the channel goes off exactly when it reaches 0; otherwise nothing changes |
| SquareChannel.TickEnvelope | src/apu/square_channel.cpp:22-39 | a disabled or period-0 envelope changes nothing; a running timer counts down; at 0 the timer reloads and the volume steps one way or the other unless that would leave 0..15, in which case the envelope stops and the volume stays; only the envelope changes |
| SquareChannel.EnvelopeStep | src/apu/square_channel.cpp:25-35 | the step with an expired timer: the byte-wrapped volume plus or minus one is kept when it is at most 15, otherwise the envelope is disabled |
| SquareChannel.EnvelopeStopsAtEnds | src/apu/square_channel.cpp:28-35 | rising from 15 or falling from 0 disables the envelope and keeps the volume |
| SquareChannel.CalculateSweep | src/apu/square_channel.cpp:114-132 | a target frequency above 2047 disables the channel; otherwise a write-back stores the target as frequency and shadow frequency and re-runs the overflow check on it, and without write-back nothing changes; the check never enables a channel |
| SquareChannel.TickSweep | src/apu/square_channel.cpp:41-50 | a channel without a running sweep is unchanged; a running sweep timer above 0 counts down and changes nothing else; at 0 it reloads from the period and the channel stays on exactly when it was on and the target frequency is at most 2047; only the enable bit and the sweep unit ever change |
| SquareChannel.GetVolume | src/apu/square_channel.cpp:52-56 | the output is 0 when the channel or its DAC is off, the envelope volume when the current duty bit is high and 0 when it is low, and at most 15 |
| SquareChannel.WriteSweep | src/apu/square_channel.cpp:58-62 | shift, direction and period are bits 0-2, bit 3 and bits 4-6 of the data, and together they reassemble its low 7 bits; nothing else changes |
| SquareChannel.WriteDutyLength | src/apu/square_channel.cpp:64-67 | the length is 64 minus the data's low 6 bits, so within 1..64, and the duty pattern is the one selected by bits 6-7 |
| SquareChannel.WriteEnvelope | src/apu/square_channel.cpp:69-82 | reload volume, direction and period come from bits 4-7, 3 and 0-2; the current volume, timer and envelope enable are kept; the DAC is on iff bits 3-7 are not all 0; a DAC turned off disables the channel and one turned on leaves it as it was; nothing outside the envelope, DAC and enable bit changes |
| SquareChannel.WriteFreqLoAsWritten | src/apu/square_channel.cpp:84-87 | the frequency becomes 0xFF00 plus the complement of the data, losing the bits the mask kept |
| SquareChannel.WriteFreqLo | src/apu/square_channel.cpp:84-87 | the low 8 frequency bits become the complement of the data and bits 8-10 are kept |
| SquareChannel.FreqLoAsWrittenLeavesRange | src/apu/square_channel.cpp:84-87 | every as-written NRx3 write leaves the frequency above 2047; the corrected write keeps it within 11 bits |
| SquareChannel.FreqLoAsWrittenSilencesSweep | src/apu/square_channel.cpp:86 | with the as-written NRx3 write, triggering square 1 with an upward sweep of shift 1-4 always disables it |
| SquareChannel.WriteTrigFreqHi | src/apu/square_channel.cpp:89-96 | frequency bits 8-10 become the complement of data bits 0-2 with the low byte kept, and length enable is bit 6; with bit 7 the channel is then triggered, its timer reloading from the new frequency |
| SquareChannel.FreqHi | src/apu/square_channel.cpp:90-91 | the low byte of the frequency is kept and the high part is 7 minus the data's low 3 bits |
| SquareChannel.FrequencyComplement | src/apu/square_channel.cpp:84-91 | NRx3 then NRx4 give a timer period `frequency + 1` of 2048 minus the 11-bit value written |
| SquareChannel.Trigger | src/apu/square_channel.cpp:98-112 | a length of 0 reloads to 64, the envelope restarts enabled at its reload volume and period, and the timer reloads from the frequency; without a sweep unit the channel comes on exactly as its DAC is; with one, the sweep timer reloads, the shadow takes the frequency, a non-zero shift writes back an in-range target, and the channel comes on exactly when its DAC is on and, for a non-zero shift, both overflow checks pass |
| SquareChannel.StartSweep | src/apu/square_channel.cpp:106-111 | the shadow frequency is loaded, the sweep timer reloads from the period, and the sweep runs iff it has a period or a shift; a non-zero shift writes back an in-range target and disables the channel when the first or the second target exceeds 2047; only the frequency, sweep and enable bit change |
| SquareChannel.TimerPeriod | src/apu/square_channel.cpp:3-10 | from a timer at 0, `frequency + 1` timer ticks advance the duty step by exactly one |
| Apu.Init | include/apu/apu.h:12-17 | the APU starts in range with every divider and the sequencer step at 0, and only square 1 has a sweep unit, the one channel whose sweep the frame sequencer ticks (src/apu/apu.cpp:28-30) |
| Apu.FrameStep | src/apu/apu.cpp:14-32 | one frame-sequencer step advances the step mod 8, keeps the dividers, and keeps every channel in range |
| Apu.OddStepChangesNothingElse | src/apu/apu.cpp:16-30 | steps 1, 3 and 5 clock no length, envelope or sweep |
| Apu.Square2FrequencyFixed | src/apu/apu.cpp:28-30 | no frame step changes square 2's frequency, because only square 1 is swept |
| Apu.FrameStepLength | src/apu/apu.cpp:16-20 | a frame step clocks the length counter exactly on even steps |
| Apu.FrameSteps | src/apu/apu.cpp:13-33 | repeated frame steps leave both dividers alone, and `m` of them advance an in-range sequencer step by `m` mod 8 |
| Apu.FrameStepsValid | src/apu/apu.cpp:13-33 | frame steps keep the APU in range |
| Apu.LengthClocks | src/apu/apu.cpp:16-20 | starting from step 0, the first `m <= 8` frame steps clock the length counter `(m + 1) / 2` times |
| Apu.FourLengthClocksPerCycle | src/apu/apu.cpp:13-33 | a full eight-step cycle from step 0 clocks the length counter four times and returns to step 0 |
| Apu.Tick | src/apu/apu.cpp:3-33 | the byte-wide timer divider and the 16-bit frame divider first wrap the added ticks, then keep their remainder mod 32 and mod 512; the result is the channel-timer ticks first, one per 32 wrapped ticks, then one frame step per 512 wrapped ticks |
| Apu.TimerTicksValid | src/apu/apu.cpp:5-10 | channel-timer ticks keep a channel in range and keep its sweep unit |
| Apu.TickValid | src/apu/apu.cpp:3-33 | a tick keeps the APU in range and the sequencer advances one step per 512 ticks of the wrapped frame divider |
| Apu.TickWrapsTimerDivider | src/apu/apu.cpp:4-6 | 256 ticks from zero dividers wrap the byte-wide timer divider back to 0, so no channel-timer tick happens and only the frame divider moves |
| Apu.NoReadBack | src/apu/apu.cpp:45-113 | whatever is written to a sound register, reading it back gives 0 |
| Apu.Write | src/apu/apu.cpp:50-113 | with the corrected NRx3 write: 0xFF10-0xFF14 go to square 1's NR10-NR14 and 0xFF16-0xFF19 to square 2's NR21-NR24; every other address changes nothing; writes keep the APU in range |
| SaveFile.LastDot | include/mbc/mbc.h:36 | the position found holds a '.' and no '.' follows it; no position means the name has no '.' |
| SaveFile.SaveFileName | include/mbc/mbc.h:35-37 | the save name ends in ".sav" after a prefix of the file name that stops at its last '.', or is the whole name when it has none |
| SaveFile.SaveFileNameWithoutDot | include/mbc/mbc.h:36 | a name without a '.' simply gains ".sav" |
| SaveFile.SaveFileNameReplacesExtension | include/mbc/mbc.h:36 | the extension after the last '.' is replaced by "sav" |
| SaveFile.Zeros | include/mbc/mbc1.h:29 | `resize(n, 0)` on an empty vector gives `n` zero bytes |
| SaveFile.Restore | src/mbc/mbc1.cpp:49-66 | the restored RAM has exactly the reserved size: the save file's bytes as far as they go, then zeros |
| Mbc0.Init | src/mbc/mbc0.cpp:5-8 | the first 0x8000 bytes of the image become the ROM, unchecked, so the image must hold them; the RAM is 0x2000 zero bytes |
| Mbc0.WriteRam | include/mbc/mbc0.h:19 | a RAM write keeps the ROM and the array sizes |
| Mbc0.RamWriteRead | include/mbc/mbc0.h:15-19 | a RAM write is read back at its address, and every other RAM address is unchanged |
| Mbc0.InitWindows | include/mbc/mbc0.h:13-15 | a fresh cartridge shows the image's first 16 KiB in the low window and the next 16 KiB in the high window, and its RAM reads 0 |
| Mbc0.RomIsReadOnly | include/mbc/mbc0.h:13-19 | no write to either ROM window or to RAM changes what the ROM windows read |
| Mbc1.Init | include/mbc/mbc1.h:15-31 | the controller starts with low bank 1, high bank 0, mode 0 and RAM disabled; only type 0x03 has a save file, named from the ROM file, with RAM restored from it; every other type gets `ram_size` zero bytes |
| Mbc1.RomBank | src/mbc/mbc1.cpp:16 | the OR of the shifted high bank and the 5-bit low bank is `32 * hi + lo` |
| Mbc1.ReadRomHi | src/mbc/mbc1.cpp:15-18 | the high window reads the selected bank `32 * hi + lo`, wrapped to the ROM's size |
| Mbc1.WriteRomLo | src/mbc/mbc1.cpp:26-33 | below 0x2000 only the RAM enable changes, to whether the low nibble is 0xA; above, only the low bank changes, to the data's low 5 bits with 0 read as 1, so never 0 |
| Mbc1.WriteRomHi | src/mbc/mbc1.cpp:35-41 | below offset 0x2000 only the high bank changes, to the data's low 2 bits; above, only the banking mode, to bit 0 |
| Mbc1.WriteRam | src/mbc/mbc1.cpp:43-47 | a write to disabled RAM changes nothing; otherwise only RAM contents change |
| Mbc1.RamWriteRead | src/mbc/mbc1.cpp:20-47 | with RAM enabled, a byte written is read back at the same address |
| Mbc1.DisabledRam | src/mbc/mbc1.cpp:21-44 | disabled RAM reads 0xFF and ignores writes |
| Mbc1.RomHiNeverBankZero | src/mbc/mbc1.cpp:29-32 | writing a low bank of 0 selects bank 1, so the high window never shows bank 0 |
| Mbc1.BankSwitchSelects | src/mbc/mbc1.cpp:15-41 | after writing `hi` to the high register and `lo` to the low one, the high window reads bank `32 * hi + lo` |
| Mbc1.RomLoIgnoresBanking | src/mbc/mbc1.cpp:8-41 | no register write changes what the low window reads: it always shows bank 0 |
| Mbc1.RamEnableGates | src/mbc/mbc1.cpp:20-29 | after a write below 0x2000, RAM reads the selected bank exactly when the low nibble was 0xA, and 0xFF otherwise |
| Mbc1.RamBankSelects | src/mbc/mbc1.cpp:20-41 | with `hi` in the high register, enabled RAM reads bank `hi` in mode 1 and bank 0 in mode 0, wrapped to the RAM's size |
| Mbc5.Init | include/mbc/mbc5.h:12-23 | the controller starts with low bank 1, high bit clear, RAM bank 0 and RAM disabled; exactly types 0x1B and 0x1E have a save file, with RAM restored from it; the others get `ram_size` zero bytes |
| Mbc5.RomBank | src/mbc/mbc5.cpp:8 | the 9-bit bank number is `256 * hi + lo` |
| Mbc5.ReadRomHi | src/mbc/mbc5.cpp:7-10 | the high window reads bank `256 * hi + lo`, wrapped to the ROM's size |
| Mbc5.ReadRam | src/mbc/mbc5.cpp:12-15 | disabled RAM reads 0xFF; enabled RAM reads the selected bank, wrapped to the RAM's size |
| Mbc5.WriteRam | src/mbc/mbc5.cpp:33-36 | a write to disabled RAM changes nothing; otherwise only RAM contents change |
| Mbc5.RamWriteRead | src/mbc/mbc5.cpp:12-36 | with RAM enabled, a byte written is read back at the same address |
| Mbc5.DisabledRam | src/mbc/mbc5.cpp:13-34 | disabled RAM reads 0xFF and ignores writes |
| Mbc5.BankZeroAllowed | src/mbc/mbc5.cpp:7-21 | writing 0 to the low bank register makes the high window show bank 0 |
| Mbc5.BankSwitchSelects | src/mbc/mbc5.cpp:7-25 | after writing `hi` at 0x3000 and `lo` at 0x2000, the high window reads bank `256 * (hi & 1) + lo`, wrapped to the ROM's size |
| Mbc5.RomLoIgnoresBanking | src/mbc/mbc5.cpp:5-31 | no register write changes what the low window reads |
| Mbc5.RamEnableGates | src/mbc/mbc5.cpp:12-20 | after a write below 0x2000, RAM reads the selected bank exactly when the low nibble was 0xA, and 0xFF otherwise |
| Mbc5.RamBankSelects | src/mbc/mbc5.cpp:12-31 | writing `b` below offset 0x2000 makes enabled RAM read bank `b & 0x0F`; writes above change no RAM read |
| Mbc.Read | include/mbc/mbc.h:13-22 | addresses outside the three windows read 0; in each window every controller reads what its handler promises: the fixed ROM for MBC0, bank 0 in the low window for MBC1, MBC3 and MBC5, the selected bank (wrapped for MBC1 and MBC5, unwrapped for MBC3) in the high window, and RAM gated by the enable bit with 0xFF (MBC1, MBC5) or 0 (MBC3) when closed |
| Mbc.Write | include/mbc/mbc.h:24-32 | a write outside the three windows changes nothing; no write changes a controller's kind or its ROM; the MBC3 RAM window goes to the corrected register write |
| Mbc.RamWriteRead | include/mbc/mbc.h:18-30 | for every controller, a byte written to enabled cartridge RAM is read back at the same address |
| Mbc3.BatteryOf | include/mbc/mbc3.h:21-25 | exactly 0x0F, 0x10 and 0x13 have a battery; RAM is restored for exactly 0x10 and 0x13 and the clock for exactly 0x0F and 0x10 |
| Mbc3.Init | include/mbc/mbc3.h:12-31 | the controller starts with bank 1, select 0, a zero clock with base 0, and RAM, clock and latch off; battery types get a save file named from the ROM file; types 0x10 and 0x13 restore `ram_size` bytes of RAM from it, while 0x0F only reserves room and keeps an empty RAM; the others get `ram_size` zero bytes and no save file |
| Mbc3.WriteRomLo | src/mbc/mbc3.cpp:22-28 | below 0x2000 only the RAM/clock enable changes, to whether the low nibble is 0xA; above, only the bank changes, to `data & 0x7F`, with 0 read as 1, so bank 0 is selected exactly by 0x80 |
| Mbc3.BankSwitchSelects | src/mbc/mbc3.cpp:8-27 | after a bank write of `data`, the high window reads bank `data & 0x7F`, or bank 1 for 0, without wrapping |
| Mbc3.RomLoIgnoresBanking | src/mbc/mbc3.cpp:6-56 | no register write changes what the low window reads |
| Mbc3.SelectRoutesReads | src/mbc/mbc3.cpp:12-32 | with RAM and clock enabled, a select of 0-3 makes RAM reads come from that bank, 8-12 from clock register `select - 8`, and anything else read 0 |
| Mbc3.DisabledReadsZero | src/mbc/mbc3.cpp:13-24 | after an enable write whose low nibble is not 0xA, the RAM window reads 0 whatever is selected |
| Mbc3.Days | src/mbc/mbc3.cpp:77 | the 9-bit day counter is below 512 |
| Mbc3.ComputeRtcBase | src/mbc/mbc3.cpp:68-80 | the base plus the time the registers show is `now`, mod 2^64 |
| Mbc3.Latch | src/mbc/mbc3.cpp:41-53 | latched seconds, minutes and hours are in range; bits 1-6 of the control byte are kept; bit 7 is set iff it was set or 512 days have passed, and only then the base is recomputed from the new registers |
| Mbc3.ClockRegisters | src/mbc/mbc3.cpp:44-49 | the registers are seconds mod 60, minutes mod 60, hours mod 24 and days mod 256 of the elapsed time |
| Mbc3.LatchControl | src/mbc/mbc3.cpp:49-51 | bit 0 of the control byte takes day bit 8, bits 1-6 are kept, and bit 7 is set iff it was set or the day count reached 512 |
| Mbc3.DayCarry | src/mbc/mbc3.cpp:47-50 | the day counter overflows exactly when a whole 512-day period has passed |
| Mbc3.WriteRomHi | src/mbc/mbc3.cpp:30-56 | below offset 0x2000 only the select changes; above, the latch bit follows data bit 0, and the clock latches exactly on a 0-to-1 edge while the halt bit is clear |
| Mbc3.LatchNeedsRisingEdge | src/mbc/mbc3.cpp:34-36 | with the latch bit already high, no write latches the clock again |
| Mbc3.HaltedClockDoesNotLatch | src/mbc/mbc3.cpp:36 | a halted clock never latches |
| Mbc3.LatchShowsElapsed | src/mbc/mbc3.cpp:41-53 | the latched registers spell the seconds since the base, mod 512 days |
| Mbc3.ClockFields | src/mbc/mbc3.cpp:44-49 | the clock fields of a second count add up to its value mod 512 days |
| Mbc3.SetThenLatch | src/mbc/mbc3.cpp:41-80 | a clock whose base is recomputed at `now` and latched `t` seconds later shows its old time plus `t`, mod 512 days |
| Mbc3.ElapsedSinceSet | src/mbc/mbc3.cpp:41-79 | after the base is set so that it plus `s` is `now`, the elapsed time `t` seconds later is `s + t` |
| Mbc3.SetThenLatchAtOnce | src/mbc/mbc3.cpp:41-80 | in-range clock registers come back unchanged when the base is recomputed and the clock latched at the same instant |
| Mbc3.FieldsUnique | src/mbc/mbc3.cpp:74-78 | in-range clock registers are determined by the time they show |
| Mbc3.RtcBelowPeriod | src/mbc/mbc3.cpp:44-49 | registers in range show fewer seconds than the 512-day period |
| Mbc3.WriteRamAsWritten | src/mbc/mbc3.cpp:58-66 | as written: a disabled controller or selects 4-7 change nothing, and a clock select stores the data into register `data - 8` and recomputes the base |
| Mbc3.WriteRam | src/mbc/mbc3.cpp:58-66 | corrected: RAM selects store into that bank; clock selects 8-12 store into register `select - 8`; every clock select recomputes the base; a disabled controller or selects 4-7 change nothing |
| Mbc3.RamWriteRead | src/mbc/mbc3.cpp:12-62 | a byte written with a RAM bank selected is read back |
| Mbc3.RtcWriteRead | src/mbc/mbc3.cpp:16-64 | with the corrected write, a clock register written is read back |
| Mbc3.RtcWriteAsWrittenMisses | src/mbc/mbc3.cpp:62-63 | as written, selecting the seconds register and writing 10 stores into the hours register, and the seconds read back unchanged |
| Ppu.ModeBits | src/ppu.cpp:69 | the mode fills STAT bits 0-1 |
| Ppu.NextLine | src/ppu.cpp:16-32 | a line step takes 456 dots off the counter and advances LY by one, wrapping at 154 |
| Ppu.LineIrq | src/ppu.cpp:20-28 | the interrupts raised on reaching a line stay within the VBlank and STAT masks |
| Ppu.Lines | src/ppu.cpp:16-33 | the inner loop leaves fewer than 456 dots pending and raises only VBlank and STAT |
| Ppu.UpdateMode | src/ppu.cpp:35-54 | on a visible line the mode becomes OAM search below 80 dots, Transfer below 252 and HBlank after; on VBlank lines nothing changes; LY and dots are kept |
| Ppu.StayingDrawsNothing | src/ppu.cpp:38-52 | when the mode already matches the dot count, the mode update draws nothing and raises nothing |
| Ppu.Chunk | src/ppu.cpp:11-54 | one pass of the outer loop raises only VBlank and STAT |
| Ppu.ChunkLen | src/ppu.cpp:11 | each pass adds at most 80 dots and no more than remain |
| Ppu.Chunks | src/ppu.cpp:10-55 | the whole loop raises only VBlank and STAT |
| Ppu.DrawWindowLine | src/ppu.cpp:225-295 | drawing a line changes only the window's first line and its line counter |
| Ppu.NextLineValid | src/ppu.cpp:16-32 | a line step keeps LY below 154, the dots below 456 and VBlank mode past line 143, and keeps the position in the frame |
| Ppu.LinesValid | src/ppu.cpp:16-33 | after a chunk of at most 80 dots the inner loop restores the timing invariant and keeps the position in the frame modulo a frame |
| Ppu.ChunkValid | src/ppu.cpp:11-54 | one chunk keeps the timing invariant, advances the frame position by the chunk, and leaves a visible line in the mode its dot count selects |
| Ppu.ChunksValid | src/ppu.cpp:10-55 | `tick` keeps LY in 0..153, the dots below 456, VBlank past line 143, and a visible line in the mode its dots select |
| Ppu.ChunksAdvance | src/ppu.cpp:10-55 | the frame position advances by exactly the dots ticked, modulo 456 x 154: one line per 456 dots |
| Ppu.Tick | src/ppu.cpp:6-58 | with LCDC bit 7 clear `tick` returns 0 and changes nothing; the mask only ever holds the VBlank and STAT bits; VRAM, its bank and OAM are never touched; with the LCD on the timing invariant is kept and the frame position advances by the dots ticked, modulo a frame |
| Ppu.LineCompareRaisesStat | src/ppu.cpp:20-22 | reaching line LYC with the compare interrupt on sets the STAT bit of the result |
| Ppu.EnterVBlank | src/ppu.cpp:24-32 | entering line 144 from a visible line sets VBlank mode and the VBlank bit, the STAT bit too if mode-1 interrupts are on, and restarts the window at line -1 with counter 0 |
| Ppu.StatByte | src/ppu.cpp:64-69 | STAT reads the LYC enable at bit 6, the mode-2, mode-1 and mode-0 enables at bits 5, 4 and 3, the LY=LYC flag at bit 2 and the mode in bits 0-1 |
| Ppu.Read | src/ppu.cpp:60-95 | LCDC, SCY, SCX, LY, LYC, BGP, OBP0, OBP1, WY and WX read their fields, STAT its composed byte, the palette data ports the entry at their index; DMA, the index ports and every other address read 0 |
| Ppu.Write | src/ppu.cpp:97-152 | LCDC, SCY, SCX, LYC, BGP, OBP0, OBP1, WY and WX store the byte and change nothing else; the STAT write changes only the four enables, taking mode 0 from bit 5 and mode 2 from bit 3; LY, DMA and every unhandled address change nothing; index ports set index and auto-increment; data ports store at the index and advance it mod 0x40 when auto-increment is on |
| Ppu.StatWriteReadSwaps | src/ppu.cpp:64-106 | reading STAT back after a write swaps the mode-0 and mode-2 enables (bits 3 and 5) and keeps the LYC and mode-1 enables in place |
| Ppu.RegisterWriteRead | src/ppu.cpp:60-131 | LCDC, SCY, SCX, LYC, BGP, OBP0, OBP1, WY and WX read back the byte written; a write to LY is ignored and LY keeps reading the current line |
| Ppu.PaletteStep | src/ppu.cpp:137-141 | one auto-incrementing data-port write stores at the index and moves it on by one mod 0x40 |
| Ppu.PaletteRun | src/ppu.cpp:133-141 | a run of up to 0x40 auto-incrementing writes fills consecutive entries from the index, wrapping at 0x40, leaves the other entries alone and moves the index on by the run's length |
| Ppu.WriteVram | src/bus.cpp:91-92 | a VRAM write in the selected bank is read back and changes nothing else |
| Ppu.WriteOam | src/bus.cpp:100-101 | an OAM write stores the byte at `addr - 0xFE00` and changes nothing else |
| Ppu.ColourIndex | src/ppu.cpp:214-216 | the colour number is the high plane's bit above the low plane's bit |
| Ppu.Shade | src/ppu.cpp:217 | the shade for colour `ci` is palette bit `2ci + 1` above palette bit `2ci` |
| Ppu.BgPixel | src/ppu.cpp:214-218 | the DMG shade of pixel `x` uses the planes' bit `7 - x` as the colour number and the palette's field for it |
| Ppu.ShadeOfPackedPalette | src/ppu.cpp:217 | a palette packed from four shades gives each shade back for its colour |
| Ppu.ObjPixel | src/ppu.cpp:353-357 | a sprite pixel is transparent exactly when both plane bits are clear; x-flip reads bit `x` instead of `7 - x` |
| Ppu.CgbColour | src/ppu.cpp:360-362 | a CGB colour is the little-endian word at `8 * palette + 2 * colour` of palette RAM |
| Bus.Read | src/bus.cpp:63-86 | with no cartridge the cartridge windows read 0; echo RAM, OAM (whose fetched value is dropped) and the unusable area read 0 |
| Bus.Write | src/bus.cpp:88-109 | a write never inserts or removes the cartridge |
| Bus.Read16 | include/bus.h:37-40 | the word is little-endian: 256 times the byte at the next address (wrapping at 0xFFFF) plus the byte at the address |
| Bus.IoRead | src/bus.cpp:111-152 | 0xFF4D reads the speed in bit 7 beside the prepare flag in bit 0; 0xFF55 reads the active flag in bit 7 beside the remaining length; sound registers and wave RAM read 0 |
| Bus.StartHdma | src/bus.cpp:184-196 | only the HDMA length, addresses and mode change; the length is bits 0-6 of the byte; a clear bit 7 cancels a running transfer or starts a general one, a set bit 7 starts an HBlank transfer |
| Bus.IoWrite | src/bus.cpp:154-202 | no IO write touches the cartridge, work RAM, high RAM, IE or the CGB flag |
| Bus.LowIoWrite | src/bus.cpp:156-169 | a write below 0xFF40 changes at most the joypad latches, the serial bytes, the timer and IF |
| Bus.HighIoWrite | src/bus.cpp:172-201 | a write at or above 0xFF40 other than 0xFF46 leaves the cartridge, work RAM, high RAM, IE and the CGB flag alone |
| Bus.ClearInterrupt | include/bus.h:50 | clearing an interrupt changes IF only |
| Bus.PressedButtonsRead | include/bus.h:57-61 | the button masks the host passes (four buttons each) read back through 0xFF00: bits 5 and 4 hold the select latches and the low nibble the or of the masks of the selected groups |
| Bus.SwitchSpeed | src/bus.cpp:234-239 | the speed toggles exactly when a switch was prepared, the prepare flag ends clear, and nothing else changes |
| Bus.OamDma | src/bus.cpp:241-245 | OAM byte j becomes the bus byte at the source plus j for j below 0x9F, the last OAM byte keeps its value, and only OAM changes |
| Bus.OamDmaFrom | src/bus.cpp:242-244 | from iteration i on, the bytes i to 0x9E are copied and the bytes before i and from 0x9F on keep their values |
| Bus.ReadIgnoresOam | src/bus.cpp:75-85 | replacing OAM changes neither which addresses are readable nor any byte read, so the DMA copy reads the original bytes |
| Bus.ReadAfterVramWrite | src/bus.cpp:67-68 | after a VRAM write every readable address stays readable and reads either its old byte or the byte written |
| Bus.CopyBlock | src/bus.cpp:218-220 | sixteen writes of the source byte to the same destination leave the bus as one write does |
| Bus.TransferBlock | src/bus.cpp:217-230 | one block writes the source byte to the destination, advances both addresses by 0x10, counts the length down, and after the block where it was 0 resets it to 0x7F and stops HDMA; nothing outside VRAM and the DMA registers changes |
| Bus.NextBlock | src/bus.cpp:217-230 | the same block step on a bus whose current block is ready |
| Bus.HdmaTransferLines | src/bus.cpp:216-232 | n blocks take 8n cycles, leave both addresses n blocks on, count the length down by n while it lasts, stop HDMA once it runs out with the length reset to 0x7F, and change nothing outside VRAM and the DMA registers |
| Bus.DmaFrameTrans | src/bus.cpp:216-232 | what DMA leaves alone over two steps it leaves alone over both |
| Bus.HdmaStepOk | src/bus.cpp:217-222 | every block of a transfer whose blocks are all valid finds its source readable and its destination in VRAM when its turn comes |
| Bus.ProgressDma | src/bus.cpp:204-214 | no HDMA, or HBlank HDMA outside HBlank, costs nothing and changes nothing; general HDMA runs all len+1 blocks for 8 cycles each and ends stopped; HBlank HDMA in HBlank moves one block for 8 cycles; ticks are always a multiple of 8 |
| Bus.Tick | src/bus.cpp:7-20 | the PPU gets the CPU cycles divided by the speed plus the DMA cycles and the timer the CPU cycles plus the DMA cycles times the speed; the divider advances by those CPU ticks; a timer overflow sets IF bit 2; IF bits are only ever set and bits 3-7 keep their values; memory, IE, the VRAM bank and OAM are unchanged |
| Bus.TickDevices | src/bus.cpp:13-17 | the timer and the PPU advance by their ticks, their interrupts are or-ed into IF, and nothing else changes |
| Bus.RaiseInterrupts | src/bus.cpp:14-17 | or-ing the timer flag into bit 2 and the PPU's two bits into IF keeps every set bit, sets bit 2 on a timer overflow and leaves bits 3-7 alone |
| Bus.ResetLcdStart | src/bus.cpp:28-29 | LCD control becomes 0x91 and the four STAT interrupt enables are cleared; the timer is untouched |
| Bus.ResetTimer | src/bus.cpp:30-32 | counter, modulo and control become 0, so the counter is stopped; the PPU is untouched |
| Bus.ResetSound | src/bus.cpp:33-51 | the sound-register writes of reset leave the bus unchanged, since the bus drops sound writes |
| Bus.ResetLcd | src/bus.cpp:52-60 | LCD control, scroll, LY compare, window position and the DMG palettes take their power-up values and the STAT enables and the timer are untouched |
| Bus.Reset | src/bus.cpp:22-61 | the CGB flag reaches the bus and the PPU; LCD, STAT, timer and palette registers take their power-up values; cartridge, work RAM, high RAM and IE are untouched |
| Bus.WramWriteRead | src/bus.cpp:69-73 | a byte written to work RAM reads back at the same address, through the bank index for the switchable half |
| Bus.WramWriteOther | src/bus.cpp:69-70 | a write to fixed work RAM leaves every other fixed work-RAM byte as it was |
| Bus.HramWriteRead | src/bus.cpp:80-84 | high RAM and IE read back what was written, and a write to 0xFFFF changes IE only |
| Bus.Wram16WriteRead | include/bus.h:37-44 | read16 of what write16 stored in fixed work RAM is the word written |
| Bus.WritesDropped | src/bus.cpp:88-109 | writes to the upper ROM window, echo RAM and 0xFEA0-0xFEFF change nothing |
| Bus.CartRouting | src/bus.cpp:64-65 | cartridge-window reads and writes below 0x4000 or to cartridge RAM go to the controller with the full address |
| Bus.WramBankInRange | src/bus.cpp:71-73 | a switchable-WRAM address stays inside the 0x8000 bytes exactly when bank 7 is not selected in CGB mode |
| Bus.WramBankRegister | src/bus.cpp:199-200 | 0xFF70 keeps the low three bits of the byte written and reads them back |
| Bus.JoypadRead | src/bus.cpp:115-121 | the joypad byte holds the select latches in bits 5 and 4 and the or of the pressed masks of the selected groups below |
| Bus.JoypadWrite | src/bus.cpp:156-158 | a write to 0xFF00 sets the two latches from bits 5 and 4 and changes nothing else |
| Bus.JoypadLatchRoundTrip | src/bus.cpp:115-158 | the latches written to 0xFF00 read back in bits 5 and 4 |
| Bus.TriggeredInterruptsBits | include/bus.h:49 | an interrupt is triggered exactly when it is both enabled and requested |
| Bus.ClearInterruptBits | include/bus.h:50 | clearing interrupt n clears bit n of IF, keeps its other bits and leaves IE alone |
| Bus.HdmaRegisterMasks | src/bus.cpp:180-183 | a staging register reads back under its mask, masking twice is masking once, the registers stay masked, and nothing else changes |
| Bus.HdmaStartAddresses | src/bus.cpp:186-187 | the source is the big-endian word of registers 0-1; with masked registers the destination is 0x8000 plus the word of registers 2-3, 16-byte aligned and inside VRAM |
| Bus.SpeedSwitchRoundTrip | src/bus.cpp:174-175 | the prepare bit written to 0xFF4D reads back beside the speed, and the next switch toggles the speed by it and clears it |
| Bus.SpeedSwitchTwice | src/bus.cpp:234-239 | preparing and switching twice restores the speed, and switching without a new prepare changes nothing |
| Alu.FlagByte | src/cpu.cpp:98-101 | the F byte has a zero low nibble and its top bit is the Z flag |
| Alu.FlagsOfFlagByte | src/cpu.cpp:98-101 | flags written into the F byte read back unchanged |
| Alu.FlagByteOfFlags | src/cpu.cpp:98-101 | an F byte read as flags and written back loses exactly its low nibble, as `set_af` masks it with 0xF0 |
| Alu.Signed | src/cpu.cpp:556 | the signed reading of a byte lies in -128..127 and agrees with the byte modulo 256 |
| Alu.Add | src/cpu.cpp:431-445 | ADD/ADC give the sum modulo 256 with the carry added only for ADC with C set; Z on a zero result, N clear, H on a carry out of bit 3, C on a carry out of bit 7 |
| Alu.Sub | src/cpu.cpp:447-463 | SUB/SBC give the difference modulo 256 and CP keeps A; Z when A equals the subtrahend, N set, H on a borrow from bit 4, C on a borrow |
| Alu.Logic | src/cpu.cpp:465-477 | every result bit is the operation on the operand bits; Z exactly when no bit survives; N and C clear; H set for AND only |
| Alu.Step8 | src/cpu.cpp:479-494 | INC adds and DEC subtracts one modulo 256; Z on zero, N for DEC, H on a carry into or borrow from bit 4, C untouched |
| Alu.Daa | src/cpu.cpp:497-516 | DAA adds (or after a subtraction subtracts) a correction of 0x06 when H is set or, after an addition, the low nibble exceeds 9, plus 0x60 when C is set or, after an addition, A exceeds 0x99, wrapping to a byte; it keeps N, clears H, sets Z on a zero result and sets C exactly when the 0x60 correction applied |
| Alu.Cpl | src/cpu.cpp:518-527 | CPL gives 0xFF minus A, sets N and H and keeps Z and C |
| Alu.Step16 | src/cpu.cpp:529-536 | register-pair INC and DEC wrap modulo 0x10000 |
| Alu.AddHl | src/cpu.cpp:538-549 | ADD HL,rr gives the sum modulo 0x10000, keeps Z, clears N, sets H on a carry out of bit 11 and C on a carry out of bit 15 |
| Alu.AddHlAsWritten | src/cpu.cpp:546 | the half-carry as the source computes it: a carry out of bit 10, with the same sum |
| Alu.AddHlHalfCarryDiscrepancy | src/cpu.cpp:546 | 0x0800+0x0800 carries out of bit 11 yet the source clears H; 0x0400+0x0400 does not, yet the source sets it |
| Alu.AddSigned | src/cpu.cpp:551-564 | ADD SP,e8 moves SP by the signed offset modulo 0x10000; Z and N clear; H and C from the low nibble and the low byte |
| Alu.Rlc | src/cpu.cpp:566-578 | RLC doubles A with bit 7 moved to bit 0 and into C; Z only for the CB form with a zero result; N and H clear |
| Alu.Rl | src/cpu.cpp:580-593 | RL doubles A with the old carry in bit 0 and bit 7 into C; Z only for the CB form with a zero result |
| Alu.Rrc | src/cpu.cpp:595-607 | RRC halves A with bit 0 moved to bit 7 and into C; Z only for the CB form with a zero result |
| Alu.Rr | src/cpu.cpp:609-622 | RR halves A with the old carry in bit 7 and bit 0 into C; Z only for the CB form with a zero result |
| Alu.Sla | src/cpu.cpp:624-636 | SLA doubles modulo 256 with bit 7 into C |
| Alu.Swap | src/cpu.cpp:638-650 | SWAP exchanges the two nibbles; Z on zero, other flags clear |
| Alu.Sra | src/cpu.cpp:652-665 | SRA halves the signed value rounding down, with bit 0 into C |
| Alu.Srl | src/cpu.cpp:667-679 | SRL halves the unsigned value, with bit 0 into C and bit 7 clear |
| Alu.SetRes | src/cpu.cpp:691-698 | SET/RES force bit n and keep every other bit |
| Alu.TestBit | src/cpu.cpp:681-689 | BIT n sets Z exactly when bit n is clear, clears N, sets H and keeps C |
| Alu.DaaAfterAdd | src/cpu.cpp:497-516 | ADD or ADC of two BCD bytes followed by DAA gives the BCD of the decimal sum modulo 100, with C set exactly when the sum reached 100 |
| Alu.DaaAfterSub | src/cpu.cpp:497-516 | SUB or SBC of two BCD bytes followed by DAA gives the BCD of the decimal difference modulo 100, with C set exactly on a borrow |
| Alu.ToBcdIsBcd | src/cpu.cpp:497-516 | the packed BCD of a number below 100 is a BCD byte with that value |
| Alu.BcdValueRoundTrip | src/cpu.cpp:497-516 | a BCD byte is the packed BCD of its decimal value |
| Alu.SubUndoesAdd | src/cpu.cpp:431-463 | SUB undoes ADD |
| Alu.CompareKeepsA | src/cpu.cpp:447-463 | CP reports exactly SUB's flags and keeps A |
| Alu.StepInverse | src/cpu.cpp:479-494 | DEC undoes INC and INC undoes DEC |
| Alu.RotateInverse | src/cpu.cpp:566-607 | RRC undoes RLC and RLC undoes RRC |
| Alu.RotateThroughCarryInverse | src/cpu.cpp:580-622 | RL and RR undo each other, the carry included |
| Alu.ShiftRoundTrip | src/cpu.cpp:624-679 | SRL after SLA loses only bit 7; SLA after SRL loses only bit 0 |
| Alu.SwapInvolution | src/cpu.cpp:638-650 | SWAP twice is the identity |
| Alu.CplInvolution | src/cpu.cpp:518-527 | CPL twice is the identity |
| Alu.TestBitAfterSetRes | src/cpu.cpp:681-698 | BIT n reads back what SET n or RES n wrote |
| Cpu.Read16 | include/bus.h:37-40 | the word at an address has the byte there as its low half and the byte at the next address (wrapping) as its high half |
| Cpu.Write16 | include/bus.h:41-44 | the word written reads back, and no byte besides the two it covers changes |
| Cpu.SetAf | src/cpu.cpp:98-101 | setting AF stores the value with its low nibble cleared and touches no other register |
| Cpu.Reset | src/cpu.cpp:50-58 | AF is 0x11B0 on CGB and 0x01B0 otherwise, BC 0x0013, DE 0x00D8, HL 0x014D, PC 0x0100 and SP 0xFFFE; IME and HALT are untouched |
| Cpu.DecodeOfEncode | src/cpu.cpp:89-411 | every instruction of the opcode table sits at the opcode the encoding gives it |
| Cpu.EncodeOfDecode | src/cpu.cpp:89-411 | every defined opcode is the encoding of what it decodes to, and an opcode decodes to nothing exactly when the table leaves it empty or it is the 0xCB prefix |
| Cpu.EncodeOfDecodeLow | src/cpu.cpp:89-411 | the opcodes 0x00-0x3F are all defined and each is the encoding of what it decodes to |
| Cpu.EncodeOfDecodeHigh | src/cpu.cpp:89-411 | among 0xC0-0xFF, a defined opcode is the encoding of what it decodes to and the others are exactly the holes of the table |
| Cpu.DecodeCbRoundTrip | src/cpu.cpp:318-350 | decoding and encoding of the 0xCB table are inverse bijections on all 256 bytes |
| Cpu.EncodeOfDecodeCb | src/cpu.cpp:318-350 | every 0xCB-prefixed byte is the encoding of what it decodes to |
| Cpu.DecodeOfEncodeCb | src/cpu.cpp:318-350 | every 0xCB-prefixed instruction decodes back from its encoding |
| Cpu.PushWord | src/cpu.cpp:417-422 | PUSH lowers SP by two and stores the word there, changing no other register |
| Cpu.CallTo | src/cpu.cpp:727-737 | a taken CALL pushes the return address and jumps, changing no other register |
| Cpu.ReturnFrom | src/cpu.cpp:739-750 | a taken RET pops PC from the stack and raises SP by two, leaving memory alone |
| Cpu.LowestSetBit | src/cpu.cpp:73-74 | the scan stops at the first set bit at or above its start, or at 8 when there is none |
| Cpu.ChosenInterrupt | src/cpu.cpp:64-74 | the interrupt picked is enabled and requested, and no lower-numbered interrupt is both |
| Cpu.VectorAddress | src/cpu.cpp:83 | interrupt n jumps to 0x40 + 8n |
| Cpu.CheckForInterrupt | src/cpu.cpp:61-87 | with IME and HALT clear nothing is checked; an interrupt is serviced exactly when IME is set and the lowest pending one is at most 4, and is fatal exactly when it is above 4; servicing clears IME and HALT, lowers SP by two and pushes PC; otherwise memory is untouched and the CPU stays halted exactly when it was halted with nothing pending |
| Cpu.Step | src/cpu.cpp:13-47 | with IME set and an interrupt pending a step either ends the program or takes 4 machine cycles without a speed switch; a halted CPU with nothing pending idles for one cycle; a step ends the program on a bad interrupt exactly when IME is set and the lowest pending interrupt is above 4; a running CPU with nothing serviced (IME clear, or nothing both enabled and requested) takes the ordinary fetch-and-execute path |
| Cpu.FetchExecute | src/cpu.cpp:22-46 | with no serial transfer pending and a defined, non-CB opcode at PC, the ordinary path advances PC past the opcode, executes it, reports its table's cycle count and asks for a speed switch exactly on STOP |
| Cpu.StepOutcomes | src/cpu.cpp:13-47 | a step that ends the program on an opcode does so only for a hole of the table, never for the 0xCB prefix; with IME set and an interrupt pending, a step that goes on takes 4 machine cycles and leaves IME clear |
| Cpu.InterruptServiced | src/cpu.cpp:13-16 | with IME set and an interrupt pending, a step takes 4 machine cycles, clears IME and HALT, pushes PC, jumps to the vector of the lowest pending interrupt and clears just its IF bit |
| Cpu.ServicedStep | src/cpu.cpp:14-16 | a serviced interrupt is the whole step, at 4 machine cycles |
| Cpu.ClearedBits | include/bus.h:50 | clearing bit n of a byte keeps every other bit |
| Cpu.InterruptInvalid | src/cpu.cpp:75-78 | a lowest pending interrupt above 4 ends the program |
| Cpu.HaltWakesWithoutVectoring | src/cpu.cpp:61-69 | with IME clear, a pending interrupt ends HALT and the step goes on exactly as for a running CPU |
| Cpu.HaltedIdles | src/cpu.cpp:18-20 | a halted CPU with nothing pending idles for one machine cycle and changes nothing |
| Cpu.NothingServiced | src/cpu.cpp:13-46 | with the CPU running and no interrupt serviced (IME clear, or IE and IF sharing no bit), the step fetches, advances PC and executes the opcode at PC with its table's cycle count |
| Cpu.IllegalOpcodeCrashes | src/cpu.cpp:43-46 | an opcode the table leaves empty ends the program |
| Cpu.Wrap16Inverse | src/cpu.cpp:417-429 | lowering SP by two and raising it by two again restores it |
| Cpu.SetAfOfGetAf | src/cpu.cpp:95-101 | setting AF to the value it reads changes nothing, since the low nibble of F is always zero |
| Cpu.PushThenPop | src/cpu.cpp:417-429 | PUSH rr then POP rr restores every register, SP included |
| Cpu.ExecPush | src/cpu.cpp:417-422 | PUSH rr pushes the pair's value |
| Cpu.ExecPop | src/cpu.cpp:424-429 | POP rr sets the pair from the word at SP and raises SP by two |
| Cpu.PopAfLowNibble | src/cpu.cpp:98-101 | POP AF leaves the low nibble of F zero and keeps the rest of the popped word |
| Cpu.CallThenRet | src/cpu.cpp:727-750 | CALL then RET returns past the CALL's operand with SP as before |
| Cpu.RstTarget | src/cpu.cpp:752-754 | RST n pushes the address after it and jumps to 8n |
| Cpu.JrTarget | src/cpu.cpp:717-725 | JR adds the signed offset to the address after the offset byte when its condition holds, and otherwise skips the byte |
| Cpu.JpTarget | src/cpu.cpp:707-715 | JP jumps to the operand exactly when its condition holds, and otherwise skips the operand |
| Cpu.CompareKeepsA | src/cpu.cpp:447-463 | CP sets the flags SUB would and keeps A |
| Cpu.IncDec16KeepsFlags | src/cpu.cpp:529-536 | 16-bit INC and DEC touch no flag and move the pair by one, wrapping |
| Cpu.ExecControl | src/cpu.cpp:89-411 | only HALT sets the halted flag; DI clears IME, EI and RETI set it, and no other instruction touches either |
| Cpu.ExecCb | src/cpu.cpp:681-705 | once the prefix and the opcode are fetched, a 0xCB instruction keeps PC, SP, IME and HALT; BIT changes only F and keeps the carry; RES and SET keep F |
| Gameboy.MakeMbc | src/gameboy.cpp:57-108 | a controller is built exactly for the MBC0, MBC1, MBC3 and MBC5 type bytes, of the matching kind and holding the image; the thirteen known unsupported types give the unimplemented error and every other byte the invalid-type error |
| Gameboy.RamSizeOf | src/gameboy.cpp:40-41 | codes 0 and 1 give no RAM; the others give a whole number of 8 KiB banks, at most 128 KiB |
| Gameboy.LoadCartridge | src/gameboy.cpp:16-55 | an image shorter than 0x150 bytes fails with the size error; any failure leaves the console unchanged; the load succeeds exactly when the image is long enough and its type byte is supported, and then the controller is installed and the bus and the CPU are reset for the CGB mode of header byte 0x143 |
| Gameboy.LoadIsAtomic | include/gameboy.h:21-24 | a load that fails for a short image or an unsupported type reports an error and leaves the console as it was |
| Gameboy.TypeClasses | src/gameboy.cpp:59-106 | no type byte is both built and unimplemented, and the holes 0x04, 0x07, 0x0A and 0x0E are invalid |
| Gameboy.CgbFlagIsBit7 | src/gameboy.cpp:49 | the CGB flag is bit 7 of header byte 0x143, that is the byte being at least 0x80 |
| Gameboy.Step | src/gameboy.cpp:11-14 | a crashed CPU step ends the program with the console as it was; otherwise the CPU takes its new state and the bus ticks with four clock cycles per machine cycle, the PPU getting them halved when a STOP-triggered switch left double speed on; the cartridge and IE are untouched |
| Gameboy.Advance | src/gameboy.cpp:12-13 | the same, given what the CPU step did |
| Gameboy.SwitchKeepsDmaReady | src/bus.cpp:234-239 | a speed switch keeps every block of a pending HDMA transfer readable |

## Left out

- The cycle tables `opcodes_mcycles` and `cb_opcodes_mcycles` are not part of this model. `Cpu.Step` and `Gameboy.Step` take them as 256-entry parameters: the fixed costs 4 (interrupt) and 1 (halted) are stated, and an executed opcode reports its own entry, whatever the tables hold.
- The closure-building mechanics of `initOpcodeTables` are replaced by the `Cpu.Instr` datatype and its decoder.
- The serial debug output in `Cpu::step` is left out: the character it prints to stdout. The step still clears 0xFF02 when it reads 0x81, as the source does.
- The CPU runs over a flat memory of 0x10000 bytes (IE at 0xFFFF, IF at 0xFF0F). Bus routing is modelled on its own in `Bus`, so a CPU step is not composed with bus reads and writes.
- File I/O is left out: reading the ROM file, writing the save file and restoring the MBC3 clock file. The bytes of an existing save file are a parameter (`saved`), and a missing save file is the empty sequence.
- The wall clock that MBC3 reads is the parameter `now`.
- Mbc3.Latch and Mbc3.WriteRomHi: take one `now` per call. On a day-counter overflow the source reads the clock a second time inside `computeRtcBase` (src/mbc/mbc3.cpp:37, 50-52, 68-69), so a second boundary falling between those two reads is not modelled.
- Mbc3.Init: restores the RAM image as the other controllers do. The MBC3 `restoreSaveFile` body and its clock restore are not part of this model, and a battery cartridge without a RAM image (type 0x0F) starts with empty RAM, because its constructor only reserves space.
- Mbc3.ReadRam and Mbc3.WriteRam: require the selected RAM bank to lie inside the RAM (`RamInRange`), since the source indexes it with the bank number unchecked (src/mbc/mbc3.cpp:15, 61).
- The APU sample buffer, its float normalisation and `takeAudioBuffer` are left out. So are the channels other than the two square channels.
- The APU is not ticked by the bus, and the bus does not route sound registers to it, because src/bus.cpp does neither. Sound-register reads give 0 and writes are dropped, as in the source.
- Framebuffer compositing in `drawBgLine`, `drawWinLine` and `drawObj` is left out. Only the pixel and palette decode and the window-line counter that `drawWinLine` advances are modelled.
- The VRAM/OAM accessors, the VRAM bank accessors and `inHblank` are not part of this model. VRAM and OAM are plain byte sequences in the PPU state, and "in HBlank" means STAT mode 0.
- The interrupt masks `kIntMaskVBlank` and `kIntMaskStat` are not part of this model. They are taken as 1 and 2, the bits `Bus.Tick` ORs into IF.
- The flag bit positions are not part of this model. They are taken as Z 7, N 6, H 5, C 4, with the low nibble of F always 0.
- The bus constructor is left out. `Bus.Reset` states the register values that `reset` installs.
- Bus.Read: requires the banked-WRAM index to be inside the 0x8000-byte array, which bank 7 in CGB mode violates (src/bus.cpp:71-73). It also requires the VRAM bank to be 0 or 1 and the cartridge's own array bounds.
- Bus.Write: has the same preconditions as `Bus.Read` for the addresses it indexes.
- Bus.Write16: has no ensures of its own; `Bus.Wram16WriteRead` states its little-endian effect.
- Bus.ClearInterrupt: requires the bit number to be below 31, where the C++ shift is defined.
- Bus.HdmaTransferLines: requires every source block to be readable and every destination to lie in VRAM.
- Bus.ProgressDma: requires the pending HDMA blocks to be readable (`Bus.DmaReady`). In the HBlank branch it does not state the copied byte, only the register and mode effects.
- Bus.Tick: states the IF, speed and cycle arithmetic and which fields the device ticks may change, not each device's new state. `Bus.TickDevices` and the device lemmas state those.
- Gameboy.RamSizeOf: requires the RAM-size code to be at most 5, since the source indexes a six-entry table with it (src/gameboy.cpp:40-41).
- Gameboy.MakeMbc: requires an MBC0 image to hold at least 0x8000 bytes, since the MBC0 constructor copies that many unchecked.
- Gameboy.Step: a fault leaves the console state as it was, since the emulator exits on it. Like `Cpu.Exec`, it runs the corrected `ADD HL,rr`.
- Cpu.Exec: does not promise the as-written `ADD HL,rr` half carry; it runs the corrected `Alu.AddHl` (see "## Findings"), so its flag results differ from the source's for that instruction.
- Apu.Write: does not promise the as-written NRx3 write; it runs the corrected `SquareChannel.WriteFreqLo`, which keeps the frequency below 2048.
- Bus.LowIoWrite: does not promise the as-written timer write with its fall-through; it runs the corrected `Timer.Write`.
- Mbc.Write: does not promise the as-written MBC3 RTC write; it runs the corrected `Mbc3.WriteRam`.
- Mbc1.ReadRam and Mbc5.ReadRam: require enabled RAM to be non-empty, since the source reduces the address modulo its size (src/mbc/mbc1.cpp:23, src/mbc/mbc5.cpp:14).
- Mbc3.ReadRomHi: requires the banked address to be inside the ROM, since the source does not reduce it (src/mbc/mbc3.cpp:9).
- Mbc3.WriteRamAsWritten: requires an RTC-write byte to be between 8 and 12, since it indexes the five RTC registers with `data - 8`.
- Timer.Init: `counter_divider` is not in the constructor's initialiser list. It is a parameter, so every lemma holds for any starting value.
- Ppu.Write: the STAT write does not read back as written, because the read uses other bit positions; `Ppu.StatWriteReadSwaps` states exactly which bits move.
- The PPU's `vram_bank` is an unbounded `nat` in the state, and register reads give it back as a byte.
- The loading failure when the ROM file cannot be opened is left out with the rest of file I/O. Only the header checks on the bytes are modelled.
- The stale draft headers are not modelled.

## Findings

| source | as written | input that shows it | evidently intended | confidence | as-written member | corrected member |
|---|---|---|---|---|---|---|
| src/cpu.cpp:546 | `ADD HL,rr` takes the half carry from `(HL & 0x7FF) + (rr & 0x7FF) > 0x7FF`, a carry out of bit 10 | HL = 0x0800, rr = 0x0800: the low 12 bits carry out of bit 11, yet H comes out clear; HL = rr = 0x0400 sets H with no carry out of bit 11 | mask 0xFFF: H is the carry out of bit 11 | not executed | Alu.AddHlAsWritten | Alu.AddHl |
| src/apu/square_channel.cpp:86 | after `frequency &= 0x700`, `frequency \|= ~data` complements `data` as an `int`, so all of bits 8-15 are set as well as the low byte | any data: the stored frequency becomes 0xFF00 \| (~data & 0xFF), above 2047; a later trigger of square 1 with an upward sweep disables the channel at once | keep bits 8-10 and store the complemented data, masked to eight bits, as the low byte, as `writeTrigFreqHi` masks its part | not executed | SquareChannel.WriteFreqLoAsWritten | SquareChannel.WriteFreqLo |
| src/mbc/mbc3.cpp:63 | an RTC write indexes the clock registers with `data - 0x08` instead of `register_select - 0x08` | select 0x08 (seconds), data 10: as written the byte lands in the hours register and the seconds are unchanged | store into the register that `register_select` names | not executed | Mbc3.WriteRamAsWritten | Mbc3.WriteRam |
| src/timer.cpp:43-55 | the `switch` in `write` has no `break`, and the TAC case assigns the clock bits to the local `data` | TAC written with 0x05 reads back 0x04 on a fresh timer; DIV written with any byte also loads TIMA and TMA | each register written on its own, and a TAC write selecting the clock from bits 0-1 | not executed | Timer.WriteAsWritten | Timer.Write |

=== FILE: apu.dfy ===
/** The audio unit of src/apu/apu.cpp: two square channels driven by a
    channel-timer divider and the 512-tick frame sequencer. */
module Apu {
  import opened Bits
  import SquareChannel

  /** `kTimerDividerPeriod` and `kFrameDividerPeriod`. */
  const TimerDividerPeriod: nat := 32
  const FrameDividerPeriod: nat := 512

  /** The dividers hold the ticks not yet turned into a channel-timer tick
      or a frame-sequencer step; they are a `uint8_t` and a `uint16_t`, so
      adding the ticks wraps them. `frameSeqStep` counts 0..7. */
  datatype ApuState = ApuState(square1: SquareChannel.Channel, square2: SquareChannel.Channel,
                               timerDivider: u8, frameDivider: u16, frameSeqStep: nat)

  /** `timer_divider += ticks` and `frame_divider += ticks`, truncated to
      the registers' widths. */
  function AddTimerDivider(a: ApuState, ticks: nat): u8
  {
    (a.timerDivider + ticks) % 0x100
  }

  function AddFrameDivider(a: ApuState, ticks: nat): u16
  {
    (a.frameDivider + ticks) % 0x1_0000
  }

  predicate Valid(a: ApuState)
  {
    && SquareChannel.Valid(a.square1) && SquareChannel.Valid(a.square2)
    && a.square1.hasSweep && !a.square2.hasSweep
    && a.frameSeqStep < 8
  }

  /** Power-on: both channels and every divider zero; square 1 is the one
      with the sweep unit. */
  function Init(): (a: ApuState)
    ensures Valid(a)
    ensures a.timerDivider == 0 && a.frameDivider == 0 && a.frameSeqStep == 0
  {
    ApuState(SquareChannel.Init(true), SquareChannel.Init(false), 0, 0, 0)
  }

  /** One frame-sequencer step: lengths on even steps, envelopes on step 7,
      square 1's sweep on steps 2 and 6, then the step advances mod 8. */
  function FrameStep(a: ApuState): (r: ApuState)
    ensures r.frameSeqStep == (a.frameSeqStep + 1) % 8
    ensures r.timerDivider == a.timerDivider && r.frameDivider == a.frameDivider
    ensures Valid(a) ==> Valid(r)
  {
    var step := a.frameSeqStep;
    var s1 := if step % 2 == 0 then SquareChannel.TickLength(a.square1) else a.square1;
    var s2 := if step % 2 == 0 then SquareChannel.TickLength(a.square2) else a.square2;
    var s1 := if step == 7 then SquareChannel.TickEnvelope(s1) else s1;
    var s2 := if step == 7 then SquareChannel.TickEnvelope(s2) else s2;
    var s1 := if step == 2 || step == 6 then SquareChannel.TickSweep(s1) else s1;
    a.(square1 := s1, square2 := s2, frameSeqStep := (step + 1) % 8)
  }

  /** `m` consecutive frame-sequencer steps. */
  function FrameSteps(a: ApuState, m: nat): (r: ApuState)
    ensures r.timerDivider == a.timerDivider && r.frameDivider == a.frameDivider
    ensures a.frameSeqStep < 8 ==> r.frameSeqStep == (a.frameSeqStep + m) % 8
  {
    if m == 0 then a
    else
      ModSucc(a.frameSeqStep + m - 1);
      FrameStep(FrameSteps(a, m - 1))
  }

  /** `tick`: first every channel-timer tick the timer divider yields, then
      every frame-sequencer step the frame divider yields. */
  method Tick(a: ApuState, ticks: nat) returns (r: ApuState)
    ensures r.timerDivider == AddTimerDivider(a, ticks) % TimerDividerPeriod
    ensures r.frameDivider == AddFrameDivider(a, ticks) % FrameDividerPeriod
    ensures var k := AddTimerDivider(a, ticks) / TimerDividerPeriod;
            var m := AddFrameDivider(a, ticks) / FrameDividerPeriod;
            r == FrameSteps(a.(square1 := SquareChannel.TimerTicks(a.square1, k),
                               square2 := SquareChannel.TimerTicks(a.square2, k),
                               timerDivider := r.timerDivider), m).(frameDivider := r.frameDivider)
  {
    var td := AddTimerDivider(a, ticks);
    var s1, s2 := a.square1, a.square2;
    var k := 0;
    while td >= TimerDividerPeriod
      invariant td >= 0 && td + k * TimerDividerPeriod == AddTimerDivider(a, ticks)
      invariant s1 == SquareChannel.TimerTicks(a.square1, k)
      invariant s2 == SquareChannel.TimerTicks(a.square2, k)
    {
      td := td - TimerDividerPeriod;
      s1 := SquareChannel.TickTimer(s1);
      s2 := SquareChannel.TickTimer(s2);
      k := k + 1;
    }
    assert k == AddTimerDivider(a, ticks) / TimerDividerPeriod && td == AddTimerDivider(a, ticks) % TimerDividerPeriod;
    var start := a.(square1 := s1, square2 := s2, timerDivider := td);
    r := start;
    var fd := AddFrameDivider(a, ticks);
    var m := 0;
    while fd >= FrameDividerPeriod
      invariant fd >= 0 && fd + m * FrameDividerPeriod == AddFrameDivider(a, ticks)
      invariant r == FrameSteps(start, m)
    {
      fd := fd - FrameDividerPeriod;
      r := FrameStep(r);
      m := m + 1;
    }
    assert m == AddFrameDivider(a, ticks) / FrameDividerPeriod && fd == AddFrameDivider(a, ticks) % FrameDividerPeriod;
    r := r.(frameDivider := fd);
  }

  /** `read`: no sound register is readable yet; every address gives 0. */
  function Read(a: ApuState, addr: u16): (v: u8)
    ensures v == 0
  {
    0
  }

  /** `write`: NR10-NR14 go to square 1, NR21-NR24 to square 2; the wave,
      noise and control registers, and 0xFF15, are ignored. */
  function Write(a: ApuState, addr: u16, data: u8): (r: ApuState)
    ensures r.square1 == (if addr == 0xFF10 then SquareChannel.WriteSweep(a.square1, data)
                          else if addr == 0xFF11 then SquareChannel.WriteDutyLength(a.square1, data)
                          else if addr == 0xFF12 then SquareChannel.WriteEnvelope(a.square1, data)
                          else if addr == 0xFF13 then SquareChannel.WriteFreqLo(a.square1, data)
                          else if addr == 0xFF14 then SquareChannel.WriteTrigFreqHi(a.square1, data)
                          else a.square1)
    ensures r.square2 == (if addr == 0xFF16 then SquareChannel.WriteDutyLength(a.square2, data)
                          else if addr == 0xFF17 then SquareChannel.WriteEnvelope(a.square2, data)
                          else if addr == 0xFF18 then SquareChannel.WriteFreqLo(a.square2, data)
                          else if addr == 0xFF19 then SquareChannel.WriteTrigFreqHi(a.square2, data)
                          else a.square2)
    ensures r == a.(square1 := r.square1, square2 := r.square2)
    ensures Valid(a) ==> Valid(r)
  {
    match addr
    case 0xFF10 => a.(square1 := SquareChannel.WriteSweep(a.square1, data))
    case 0xFF11 => a.(square1 := SquareChannel.WriteDutyLength(a.square1, data))
    case 0xFF12 => a.(square1 := SquareChannel.WriteEnvelope(a.square1, data))
    case 0xFF13 => a.(square1 := SquareChannel.WriteFreqLo(a.square1, data))
    case 0xFF14 => a.(square1 := SquareChannel.WriteTrigFreqHi(a.square1, data))
    case 0xFF16 => a.(square2 := SquareChannel.WriteDutyLength(a.square2, data))
    case 0xFF17 => a.(square2 := SquareChannel.WriteEnvelope(a.square2, data))
    case 0xFF18 => a.(square2 := SquareChannel.WriteFreqLo(a.square2, data))
    case 0xFF19 => a.(square2 := SquareChannel.WriteTrigFreqHi(a.square2, data))
    case _ => a
  }

  // ---------------------------------------------------------------------
  // Lemmas

  lemma ModSucc(x: nat)
    ensures ((x % 8) + 1) % 8 == (x + 1) % 8
  {
  }

  /** Frame steps keep the APU in range. */
  lemma {:induction false} FrameStepsValid(a: ApuState, m: nat)
    requires Valid(a)
    ensures Valid(FrameSteps(a, m))
  {
    if m > 0 {
      FrameStepsValid(a, m - 1);
    }
  }

  /** Channel-timer ticks keep a channel in range. */
  lemma {:induction false} TimerTicksValid(ch: SquareChannel.Channel, k: nat)
    requires SquareChannel.Valid(ch)
    ensures SquareChannel.Valid(SquareChannel.TimerTicks(ch, k))
    ensures SquareChannel.TimerTicks(ch, k).hasSweep == ch.hasSweep
  {
    if k > 0 {
      TimerTicksValid(ch, k - 1);
    }
  }

  /** `tick` keeps the APU in range, and the sequencer advances once per
      512 ticks. */
  method TickValid(a: ApuState, ticks: nat) returns (r: ApuState)
    requires Valid(a)
    ensures Valid(r)
    ensures r.frameSeqStep == (a.frameSeqStep + AddFrameDivider(a, ticks) / FrameDividerPeriod) % 8
  {
    r := Tick(a, ticks);
    var k := AddTimerDivider(a, ticks) / TimerDividerPeriod;
    var m := AddFrameDivider(a, ticks) / FrameDividerPeriod;
    TimerTicksValid(a.square1, k);
    TimerTicksValid(a.square2, k);
    var start := a.(square1 := SquareChannel.TimerTicks(a.square1, k),
                    square2 := SquareChannel.TimerTicks(a.square2, k),
                    timerDivider := r.timerDivider);
    assert Valid(start);
    FrameStepsValid(start, m);
    var fs := FrameSteps(start, m);
    assert r == fs.(frameDivider := r.frameDivider);
    assert fs.frameSeqStep == (start.frameSeqStep + m) % 8;
  }

  /** The 8-bit timer divider wraps: 256 ticks from zero dividers run no
      channel-timer tick and no frame step; only the frame divider moves. */
  method TickWrapsTimerDivider(a: ApuState) returns (r: ApuState)
    requires a.timerDivider == 0 && a.frameDivider == 0
    ensures r == a.(frameDivider := 256)
  {
    r := Tick(a, 256);
    assert AddTimerDivider(a, 256) == 0 && AddFrameDivider(a, 256) == 256;
    assert SquareChannel.TimerTicks(a.square1, 0) == a.square1;
    assert SquareChannel.TimerTicks(a.square2, 0) == a.square2;
  }

  /** No sound register reads back what was written to it. */
  lemma NoReadBack(a: ApuState, addr: u16, data: u8)
    ensures Read(Write(a, addr, data), addr) == 0
  {
  }

  /** Odd steps clock nothing but the step counter. */
  lemma OddStepChangesNothingElse(a: ApuState)
    requires a.frameSeqStep in {1, 3, 5}
    ensures FrameStep(a) == a.(frameSeqStep := a.frameSeqStep + 1)
  {
  }

  /** Square 2 has no sweep: no frame step changes its frequency. */
  lemma Square2FrequencyFixed(a: ApuState)
    ensures FrameStep(a).square2.frequency == a.square2.frequency
  {
  }

  /** One frame step clocks square 2's length exactly on even steps. */
  lemma FrameStepLength(a: ApuState)
    requires a.square2.lengthEnable
    ensures FrameStep(a).square2.length ==
              if a.frameSeqStep % 2 == 0 && a.square2.length > 0 then a.square2.length - 1 else a.square2.length
    ensures FrameStep(a).square2.lengthEnable
  {
  }

  /** Within one cycle from step 0, the first `m` frame steps clock the
      length counter on steps 0, 2, 4 and 6. */
  lemma {:induction false} LengthClocks(a: ApuState, m: nat)
    requires m <= 8 && a.frameSeqStep == 0 && a.square2.lengthEnable && a.square2.length >= 4
    ensures FrameSteps(a, m).frameSeqStep == m % 8 && FrameSteps(a, m).square2.lengthEnable
    ensures FrameSteps(a, m).square2.length == a.square2.length - (m + 1) / 2
  {
    if m > 0 {
      var b := FrameSteps(a, m - 1);
      LengthClocks(a, m - 1);
      FrameStepLength(b);
      assert FrameSteps(a, m) == FrameStep(b);
      LengthArith(m, b.frameSeqStep, b.square2.length, a.square2.length);
    }
  }

  /** The counting behind `LengthClocks`: step `m - 1` clocks the length
      exactly when it is even. */
  lemma LengthArith(m: nat, step: nat, len: int, len0: nat)
    requires 0 < m <= 8 && step == (m - 1) % 8 && len == len0 - m / 2 && len0 >= 4
    ensures (step + 1) % 8 == m % 8
    ensures (if step % 2 == 0 && len > 0 then len - 1 else len) == len0 - (m + 1) / 2
  {
  }

  /** A full sequencer cycle of eight steps from step 0 clocks the length
      counter four times (256 Hz against the 512 Hz sequencer). */
  lemma FourLengthClocksPerCycle(a: ApuState)
    requires a.frameSeqStep == 0 && a.square2.lengthEnable && a.square2.length >= 4
    ensures FrameSteps(a, 8).square2.length == a.square2.length - 4
    ensures FrameSteps(a, 8).frameSeqStep == 0
  {
    LengthClocks(a, 8);
  }
}

=== FILE: bits.dfy ===
/** Fixed-width machine integers and the bit-level operations the hardware
    model is written in. Values are bounded naturals; a bitwise operation is
    defined bit by bit (least significant bit first) so that its meaning can
    be stated and proved with linear arithmetic only. */
module Bits {

  type u8 = x: int | 0 <= x < 0x100
  type u16 = x: int | 0 <= x < 0x1_0000
  type u64 = x: int | 0 <= x < 0x1_0000_0000_0000_0000

  function Pow2(n: nat): (r: nat)
    ensures r >= 1
  {
    if n == 0 then 1 else 2 * Pow2(n - 1)
  }

  /** Bit `i` of `x`, bit 0 being the least significant; `(x >> i) & 1` in C. */
  predicate Bit(x: nat, i: nat)
  {
    if i == 0 then x % 2 == 1 else Bit(x / 2, i - 1)
  }

  /** 0 or 1 for a flag, as C converts a `bool` to an integer. */
  function B2I(b: bool): (r: nat)
    ensures r < 2
  {
    if b then 1 else 0
  }

  datatype BitOp = AndOp | OrOp | XorOp

  predicate ApplyOp(op: BitOp, p: bool, q: bool)
  {
    match op
    case AndOp => p && q
    case OrOp => p || q
    case XorOp => p != q
  }

  /** The low `n` bits of `a op b`, combined bit by bit. */
  function Combine(op: BitOp, a: nat, b: nat, n: nat): (r: nat)
    ensures r < Pow2(n)
  {
    if n == 0 then 0
    else 2 * Combine(op, a / 2, b / 2, n - 1) + B2I(ApplyOp(op, a % 2 == 1, b % 2 == 1))
  }

  function And8(a: u8, b: u8): u8 { Combine(AndOp, a, b, 8) }
  function Or8(a: u8, b: u8): u8 { Combine(OrOp, a, b, 8) }
  function Xor8(a: u8, b: u8): u8 { Combine(XorOp, a, b, 8) }

  /** `x` with bit `i` forced to `v`, the other bits of `x` kept. */
  function WithBit(x: nat, i: nat, v: bool): (r: nat)
  {
    if i == 0 then x - x % 2 + B2I(v) else 2 * WithBit(x / 2, i - 1, v) + x % 2
  }

  /** `x & ~(1 << i)` on a byte. */
  function ClearBit8(x: u8, i: nat): u8
    requires i < 8
  {
    WithBitBound(x, i, false, 8);
    WithBit(x, i, false)
  }

  /** `x | (1 << i)` on a byte. */
  function SetBit8(x: u8, i: nat): u8
    requires i < 8
  {
    WithBitBound(x, i, true, 8);
    WithBit(x, i, true)
  }

  /** `x >> n`, one bit at a time. */
  function Shr(x: nat, n: nat): (r: nat)
    ensures r <= x
  {
    if n == 0 then x else Shr(x / 2, n - 1)
  }

  /** The 2-bit field number `k` of `x`: `(x >> 2k) & 3`. */
  function Field2(x: nat, k: nat): (r: nat)
    ensures r < 4
  {
    if k == 0 then x % 4 else Field2(x / 4, k - 1)
  }

  // ---------------------------------------------------------------------
  // Lemmas

  lemma {:induction false} BitOfSmall(x: nat, i: nat)
    requires x < Pow2(i)
    ensures !Bit(x, i)
  {
    if i > 0 {
      BitOfSmall(x / 2, i - 1);
    }
  }

  /** Bit `i` of `a op b` is `op` applied to bit `i` of `a` and of `b`. */
  lemma {:induction false} CombineBit(op: BitOp, a: nat, b: nat, n: nat, i: nat)
    requires i < n
    ensures Bit(Combine(op, a, b, n), i) == ApplyOp(op, Bit(a, i), Bit(b, i))
  {
    var r := Combine(op, a, b, n);
    if i > 0 {
      assert r / 2 == Combine(op, a / 2, b / 2, n - 1);
      CombineBit(op, a / 2, b / 2, n - 1, i - 1);
    }
  }

  /** Two `n`-bit numbers that agree on every bit are equal. */
  lemma {:induction false} BitsDetermine(x: nat, y: nat, n: nat)
    requires x < Pow2(n) && y < Pow2(n)
    requires forall i :: 0 <= i < n ==> Bit(x, i) == Bit(y, i)
    ensures x == y
  {
    if n > 0 {
      assert Bit(x, 0) == Bit(y, 0);
      forall i | 0 <= i < n - 1
        ensures Bit(x / 2, i) == Bit(y / 2, i)
      {
        assert Bit(x, i + 1) == Bit(y, i + 1);
      }
      BitsDetermine(x / 2, y / 2, n - 1);
    }
  }

  /** An `n`-bit number none of whose bits is set is zero. */
  lemma {:induction false} NoBitIsZero(x: nat, n: nat)
    requires x < Pow2(n)
    requires forall i :: 0 <= i < n ==> !Bit(x, i)
    ensures x == 0
  {
    forall i | 0 <= i < n
      ensures Bit(x, i) == Bit(0, i)
    {
      ZeroHasNoBit(i);
    }
    BitsDetermine(x, 0, n);
  }

  lemma {:induction false} ZeroHasNoBit(i: nat)
    ensures !Bit(0, i)
  {
    if i > 0 {
      ZeroHasNoBit(i - 1);
    }
  }

  lemma {:induction false} WithBitBound(x: nat, i: nat, v: bool, n: nat)
    requires x < Pow2(n) && i < n
    ensures WithBit(x, i, v) < Pow2(n)
  {
    var p := Pow2(n - 1);
    assert Pow2(n) == 2 * p;
    if i > 0 {
      assert x / 2 < p;
      WithBitBound(x / 2, i - 1, v, n - 1);
      var w := WithBit(x / 2, i - 1, v);
      assert WithBit(x, i, v) == 2 * w + x % 2;
      assert w + 1 <= p;
    } else {
      assert x - x % 2 <= 2 * p - 2;
    }
  }

  /** Bit `j` of `WithBit(x, i, v)` is `v` at `i` and bit `j` of `x` elsewhere. */
  lemma {:induction false} WithBitBit(x: nat, i: nat, v: bool, j: nat)
    ensures Bit(WithBit(x, i, v), j) == if j == i then v else Bit(x, j)
  {
    var r := WithBit(x, i, v);
    if i == 0 {
      if j > 0 {
        assert r / 2 == x / 2;
      }
    } else {
      if j > 0 {
        assert r / 2 == WithBit(x / 2, i - 1, v);
        WithBitBit(x / 2, i - 1, v, j - 1);
      }
    }
  }

  /** Setting a bit to the value it already has changes nothing. */
  lemma {:induction false} WithBitSame(x: nat, i: nat)
    ensures WithBit(x, i, Bit(x, i)) == x
  {
    if i > 0 {
      WithBitSame(x / 2, i - 1);
    }
  }

  /** `x | y` is `x + y` when the two have no bit in common. */
  lemma {:induction false} OrDisjointIsSum(x: nat, y: nat, n: nat)
    requires x + y < Pow2(n)
    requires forall i :: 0 <= i < n ==> !(Bit(x, i) && Bit(y, i))
    ensures Combine(OrOp, x, y, n) == x + y
  {
    if n > 0 {
      assert !(Bit(x, 0) && Bit(y, 0));
      forall i | 0 <= i < n - 1
        ensures !(Bit(x / 2, i) && Bit(y / 2, i))
      {
        assert !(Bit(x, i + 1) && Bit(y, i + 1));
      }
      OrDisjointIsSum(x / 2, y / 2, n - 1);
    }
  }

  /** Bit `i` of `hi * 2^k + lo` for `lo < 2^k`: a low bit of `lo` or a bit of `hi`. */
  lemma {:induction false} BitOfConcat(hi: nat, lo: nat, k: nat, i: nat)
    requires lo < Pow2(k)
    ensures Bit(hi * Pow2(k) + lo, i) == if i < k then Bit(lo, i) else Bit(hi, i - k)
  {
    if k > 0 {
      var m := hi * Pow2(k - 1);
      var x := hi * Pow2(k) + lo;
      ShiftStep(hi, k);
      Halve(m + lo / 2, lo % 2);
      assert x / 2 == m + lo / 2 && x % 2 == lo % 2;
      if i > 0 {
        assert lo / 2 < Pow2(k - 1);
        BitOfConcat(hi, lo / 2, k - 1, i - 1);
        assert Bit(x, i) == Bit(m + lo / 2, i - 1);
        assert Bit(lo, i) == Bit(lo / 2, i - 1);
      }
    } else {
      assert hi * Pow2(k) + lo == hi;
    }
  }

  /** One more bit of shift doubles the product. */
  lemma ShiftStep(hi: nat, k: nat)
    requires k > 0
    ensures hi * Pow2(k) == 2 * (hi * Pow2(k - 1))
  {
  }

  /** Halving `2 * q + r` gives back `q` with remainder `r`. */
  lemma Halve(q: nat, r: nat)
    requires r < 2
    ensures (2 * q + r) / 2 == q && (2 * q + r) % 2 == r
  {
  }

  /** Field `k` is bit `2k + 1` above bit `2k`. */
  lemma {:induction false} Field2Bits(x: nat, k: nat)
    ensures Field2(x, k) == 2 * B2I(Bit(x, 2 * k + 1)) + B2I(Bit(x, 2 * k))
  {
    if k == 0 {
      assert Bit(x, 1) == Bit(x / 2, 0);
      assert x % 4 == 2 * ((x / 2) % 2) + x % 2;
    } else {
      Field2Bits(x / 4, k - 1);
      assert x / 2 / 2 == x / 4;
      assert Bit(x, 2 * k) == Bit(x / 2, 2 * k - 1) == Bit(x / 4, 2 * (k - 1));
      assert Bit(x, 2 * k + 1) == Bit(x / 2, 2 * k) == Bit(x / 4, 2 * (k - 1) + 1);
    }
  }

  /** A byte built from four 2-bit fields gives each field back. */
  lemma PackFields(f0: nat, f1: nat, f2: nat, f3: nat)
    requires f0 < 4 && f1 < 4 && f2 < 4 && f3 < 4
    ensures Field2(f0 + 4 * f1 + 16 * f2 + 64 * f3, 0) == f0
    ensures Field2(f0 + 4 * f1 + 16 * f2 + 64 * f3, 1) == f1
    ensures Field2(f0 + 4 * f1 + 16 * f2 + 64 * f3, 2) == f2
    ensures Field2(f0 + 4 * f1 + 16 * f2 + 64 * f3, 3) == f3
  {
    var x := f0 + 4 * f1 + 16 * f2 + 64 * f3;
    assert x / 4 == f1 + 4 * f2 + 16 * f3;
    assert x / 16 == f2 + 4 * f3;
    assert x / 64 == f3;
    assert x / 4 / 4 == x / 16;
    assert x / 16 / 4 == x / 64;
    assert Field2(x, 2) == Field2(x / 4, 1) == Field2(x / 16, 0);
    assert Field2(x, 3) == Field2(x / 4, 2) == Field2(x / 16, 1) == Field2(x / 64, 0);
  }

  /** Or-ing a number below `2^k` into the single bit `2^k` is addition. */
  lemma {:induction false} OrHighBit(v: nat, k: nat, n: nat)
    requires v < Pow2(k) && k < n
    ensures Combine(OrOp, Pow2(k), v, n) == Pow2(k) + v
  {
    if k == 0 {
      CombineZeros(OrOp, n - 1);
    } else {
      assert Pow2(k) / 2 == Pow2(k - 1) && Pow2(k) % 2 == 0;
      OrHighBit(v / 2, k - 1, n - 1);
    }
  }

  /** Combining two numbers below `2^k` gives a number below `2^k`: no
      bitwise operation sets a bit neither operand has. */
  lemma {:induction false} CombineBelow(op: BitOp, a: nat, b: nat, k: nat, n: nat)
    requires a < Pow2(k) && b < Pow2(k)
    ensures Combine(op, a, b, n) < Pow2(k)
  {
    if n > 0 {
      if k == 0 {
        CombineZeros(op, n);
      } else {
        CombineBelow(op, a / 2, b / 2, k - 1, n - 1);
      }
    }
  }

  lemma {:induction false} CombineZeros(op: BitOp, n: nat)
    ensures Combine(op, 0, 0, n) == 0
  {
    if n > 0 {
      CombineZeros(op, n - 1);
    }
  }

  /** Or-ing zero into an `n`-bit number changes nothing. */
  lemma {:induction false} OrZero(x: nat, n: nat)
    requires x < Pow2(n)
    ensures Combine(OrOp, x, 0, n) == x
  {
    if n > 0 {
      OrZero(x / 2, n - 1);
    }
  }

  /** `(hi << k) | lo` is `hi * 2^k + lo` when `lo` fits in `k` bits. */
  lemma {:induction false} OrShifted(hi: nat, lo: nat, k: nat, n: nat)
    requires lo < Pow2(k) && hi * Pow2(k) + lo < Pow2(n)
    ensures Combine(OrOp, hi * Pow2(k), lo, n) == hi * Pow2(k) + lo
  {
    if k == 0 {
      OrZero(hi, n);
    } else if n > 0 {
      var h := hi * Pow2(k - 1);
      ShiftStep(hi, k);
      Halve(h, 0);
      assert lo / 2 < Pow2(k - 1);
      assert h + lo / 2 < Pow2(n - 1);
      OrShifted(hi, lo / 2, k - 1, n - 1);
      assert Combine(OrOp, 2 * h, lo, n) == 2 * Combine(OrOp, h, lo / 2, n - 1) + lo % 2;
    }
  }

  /** Or is associative, so `a | b | c` may be regrouped. */
  lemma {:induction false} OrAssoc(a: nat, b: nat, c: nat, n: nat)
    ensures Combine(OrOp, Combine(OrOp, a, b, n), c, n) == Combine(OrOp, a, Combine(OrOp, b, c, n), n)
  {
    if n > 0 {
      var ab := Combine(OrOp, a, b, n);
      var bc := Combine(OrOp, b, c, n);
      assert ab / 2 == Combine(OrOp, a / 2, b / 2, n - 1) && ab % 2 == B2I(a % 2 == 1 || b % 2 == 1);
      assert bc / 2 == Combine(OrOp, b / 2, c / 2, n - 1) && bc % 2 == B2I(b % 2 == 1 || c % 2 == 1);
      OrAssoc(a / 2, b / 2, c / 2, n - 1);
    }
  }

  /** Shifting right by `n` divides by at most `2^n`. */
  lemma {:induction false} ShrAtLeast(x: nat, n: nat, lo: nat)
    requires x >= lo * Pow2(n)
    ensures Shr(x, n) >= lo
  {
    if n > 0 {
      ShiftStep(lo, n);
      ShrAtLeast(x / 2, n - 1, lo);
    }
  }

  /** A number below `2^k` has no bit at or above `k`. */
  lemma {:induction false} BitsAboveWidth(x: nat, k: nat, i: nat)
    requires x < Pow2(k) && k <= i
    ensures !Bit(x, i)
  {
    if k == 0 {
      ZeroHasNoBit(i);
    } else {
      BitsAboveWidth(x / 2, k - 1, i - 1);
    }
  }
}

=== FILE: bus.dfy ===
/** The memory bus of src/bus.cpp and include/bus.h: the decoding of the
    16-bit address space, the IO registers the bus owns itself (joypad,
    serial, IF and IE, speed switch, WRAM bank, HDMA), OAM DMA and HDMA, and
    the fan-out of CPU cycles to the timer and the PPU. */
module Bus {
  import opened Bits
  import opened Wrappers
  import Ppu
  import Timer
  import Mbc

  const WramSize: nat := 0x8000
  const HramSize: nat := 0x80

  /** Bit offsets of the interrupts in IE and IF. */
  const IntOffVBlank: nat := 0
  const IntOffStat: nat := 1
  const IntOffTimer: nat := 2
  const IntOffSerial: nat := 3
  const IntOffJoypad: nat := 4

  /** `oamdma` copies this many bytes, one short of the 0xA0-byte OAM. */
  const OamDmaLength: nat := 0x9F

  type Wram = s: seq<u8> | |s| == 0x8000 witness seq(0x8000, _ => 0)
  type Hram = s: seq<u8> | |s| == 0x80 witness seq(0x80, _ => 0)
  type SerialRegs = s: seq<u8> | |s| == 2 witness [0, 0]
  type HdmaRegs = s: seq<u8> | |s| == 4 witness [0, 0, 0, 0]

  datatype HdmaMode = HdmaNone | HdmaGeneral | HdmaHBlank

  /** The bus and the devices it owns. `hdmaRegs` are the four staging
      registers 0xFF51-0xFF54; `hdmaSrc`, `hdmaDst` and `hdmaLen` describe the
      transfer in progress. A missing cartridge is `None`. */
  datatype BusState = BusState(
    wram: Wram, hram: Hram, serial: SerialRegs,
    mbc: Option<Mbc.Cartridge>,
    ppu: Ppu.PpuState, timer: Timer.TimerState,
    intEnable: u8, intRequest: u8,
    doubleSpeed: bool, prepareSpeedSwitch: bool, cgbMode: bool,
    wramBank: u8,
    hdmaMode: HdmaMode, hdmaRegs: HdmaRegs, hdmaLen: u8, hdmaSrc: u16, hdmaDst: u16,
    selectAction: bool, selectDir: bool, actionPressed: u8, dirPressed: u8)

  /** `a + k` as a `uint16_t` argument receives it. */
  function Offset(a: u16, k: nat): u16
  {
    (a + k) % 0x1_0000
  }

  // ---------------------------------------------------------------------
  // Address decoding

  /** The cartridge windows `read` sends to the MBC; `write` sends only the
      part below 0x4000 and the RAM window. */
  predicate InCart(addr: u16) { addr < 0x8000 || 0xA000 <= addr < 0xC000 }
  predicate InCartWrite(addr: u16) { addr < 0x4000 || 0xA000 <= addr < 0xC000 }
  predicate InVram(addr: u16) { 0x8000 <= addr < 0xA000 }
  predicate InBankedWram(addr: u16) { 0xD000 <= addr < 0xE000 }

  /** The array index of a switchable-WRAM address: `0x1000 * bank` past
      the start of the array plus the offset from 0xC000, the bank being
      0 outside CGB mode. */
  function WramIndex(b: BusState, addr: u16): nat
    requires InBankedWram(addr)
  {
    0x1000 * (if b.cgbMode then b.wramBank else 0) + (addr - 0xC000)
  }

  /** What `read` needs to stay inside its arrays: the cartridge's own
      conditions, a VRAM bank of 0 or 1, and a switchable-WRAM index inside
      the 0x8000 bytes. */
  predicate ReadOk(b: BusState, addr: u16)
  {
    && (InCart(addr) && b.mbc.Some? ==> Mbc.ReadOk(b.mbc.value, addr))
    && (InVram(addr) ==> b.ppu.vramBank < 2)
    && (InBankedWram(addr) ==> WramIndex(b, addr) < WramSize)
  }

  /** `read`. Echo RAM and OAM read 0: the OAM value is fetched and dropped. */
  function Read(b: BusState, addr: u16): (v: u8)
    requires ReadOk(b, addr)
    ensures InCart(addr) && b.mbc.None? ==> v == 0
    ensures 0xE000 <= addr < 0xFF00 ==> v == 0
  {
    if InCart(addr) then
      if b.mbc.Some? then Mbc.Read(b.mbc.value, addr) else 0
    else if InVram(addr) then Ppu.ReadVram(b.ppu, addr)
    else if 0xC000 <= addr < 0xD000 then b.wram[addr - 0xC000]
    else if InBankedWram(addr) then b.wram[WramIndex(b, addr)]
    else if 0xE000 <= addr < 0xFE00 then 0
    else if 0xFE00 <= addr < 0xFEA0 then 0
    else if 0xFF00 <= addr < 0xFF80 then IoRead(b, addr)
    else if 0xFF80 <= addr < 0xFFFF then b.hram[addr - 0xFF80]
    else if addr == 0xFFFF then b.intEnable
    else 0
  }

  /** What `write` needs: the cartridge's conditions on the windows it
      reaches, the switchable-WRAM index in range, and for a write to
      0xFF46 every byte of the OAM DMA source readable. */
  predicate WriteOk(b: BusState, addr: u16, data: u8)
  {
    && (InCartWrite(addr) && b.mbc.Some? ==> Mbc.WriteOk(b.mbc.value, addr))
    && (InVram(addr) ==> b.ppu.vramBank < 2)
    && (InBankedWram(addr) ==> WramIndex(b, addr) < WramSize)
    && (addr == 0xFF46 ==> DmaOk(b, data * 0x100))
  }

  /** `write`; `now` is the wall clock an MBC3 reads. Writes to
      0x4000-0x7FFF, to echo RAM and to 0xFEA0-0xFEFF reach nothing. */
  function Write(b: BusState, addr: u16, data: u8, now: u64): (r: BusState)
    requires WriteOk(b, addr, data)
    ensures r.mbc.Some? <==> b.mbc.Some?
  {
    if InCartWrite(addr) then
      if b.mbc.Some? then b.(mbc := Some(Mbc.Write(b.mbc.value, addr, data, now))) else b
    else if InVram(addr) then b.(ppu := Ppu.WriteVram(b.ppu, addr, data))
    else if 0xC000 <= addr < 0xD000 then b.(wram := b.wram[addr - 0xC000 := data])
    else if InBankedWram(addr) then b.(wram := b.wram[WramIndex(b, addr) := data])
    else if 0xE000 <= addr < 0xFE00 then b
    else if 0xFE00 <= addr < 0xFEA0 then b.(ppu := Ppu.WriteOam(b.ppu, addr, data))
    else if 0xFF00 <= addr < 0xFF80 then IoWrite(b, addr, data)
    else if 0xFF80 <= addr < 0xFFFF then b.(hram := b.hram[addr - 0xFF80 := data])
    else if addr == 0xFFFF then b.(intEnable := data)
    else b
  }

  /** `read16`: little-endian, the high byte from the next address. */
  function Read16(b: BusState, addr: u16): (v: u16)
    requires ReadOk(b, addr) && ReadOk(b, Offset(addr, 1))
    ensures v == 256 * Read(b, Offset(addr, 1)) + Read(b, addr)
  {
    var lo := Read(b, addr);
    var hi := Read(b, Offset(addr, 1));
    assert Pow2(8) == 256 && Pow2(16) == 0x1_0000;
    OrShifted(hi, lo, 8, 16);
    Combine(OrOp, hi * 256, lo, 16)
  }

  /** `write16`: the low byte first, then the high byte at the next address. */
  function Write16(b: BusState, addr: u16, data: u16, now: u64): (r: BusState)
    requires WriteOk(b, addr, data % 256)
    requires WriteOk(Write(b, addr, data % 256, now), Offset(addr, 1), data / 256)
  {
    Write(Write(b, addr, data % 256, now), Offset(addr, 1), data / 256, now)
  }

  // ---------------------------------------------------------------------
  // IO registers

  /** The joypad byte: the two select latches in bits 5 and 4, or-ed with
      the pressed masks of the groups whose latch is 0. */
  function Joypad(b: BusState): u8
  {
    var actions := if b.selectAction then 0 else b.actionPressed;
    var dirs := if b.selectDir then 0 else b.dirPressed;
    Or8(Or8(Or8(B2I(b.selectAction) * 32, B2I(b.selectDir) * 16), actions), dirs)
  }

  /** `ioRead`. Sound, wave RAM, 0xFF50 and unlisted registers read 0. */
  function IoRead(b: BusState, addr: u16): (v: u8)
    ensures addr == 0xFF4D ==> v == 128 * B2I(b.doubleSpeed) + B2I(b.prepareSpeedSwitch)
    ensures addr == 0xFF55 && b.hdmaLen < 0x80 ==> v == 128 * B2I(b.hdmaMode != HdmaNone) + b.hdmaLen
    ensures 0xFF10 <= addr <= 0xFF26 || 0xFF30 <= addr <= 0xFF3F ==> v == 0
  {
    assert Pow2(7) == 128 && Pow2(8) == 256;
    if addr == 0xFF00 then Joypad(b)
    else if addr == 0xFF01 || addr == 0xFF02 then b.serial[addr - 0xFF01]
    else if 0xFF04 <= addr <= 0xFF07 then Timer.Read(b.timer, addr)
    else if addr == 0xFF0F then b.intRequest
    else if 0xFF10 <= addr <= 0xFF26 then 0
    else if 0xFF30 <= addr <= 0xFF3F then 0
    else if 0xFF40 <= addr <= 0xFF4B then Ppu.Read(b.ppu, addr)
    else if addr == 0xFF4D then
      OrShifted(B2I(b.doubleSpeed), B2I(b.prepareSpeedSwitch), 7, 8);
      Combine(OrOp, B2I(b.doubleSpeed) * 128, B2I(b.prepareSpeedSwitch), 8)
    else if addr == 0xFF4F then b.ppu.vramBank % 0x100
    else if addr == 0xFF50 then 0
    else if 0xFF51 <= addr <= 0xFF54 then b.hdmaRegs[addr - 0xFF51]
    else if addr == 0xFF55 then
      var active := B2I(b.hdmaMode != HdmaNone);
      if b.hdmaLen < 0x80 then
        OrShifted(active, b.hdmaLen, 7, 8);
        Combine(OrOp, active * 128, b.hdmaLen, 8)
      else Combine(OrOp, active * 128, b.hdmaLen, 8)
    else if 0xFF68 <= addr <= 0xFF6B then Ppu.Read(b.ppu, addr)
    else if addr == 0xFF70 then b.wramBank
    else 0
  }

  /** The staging-register masks: all of the source's high byte, bits 4-7
      of its low byte, bits 0-4 of the destination's high byte and bits 4-7
      of its low byte (`& {0xFF, 0xF0, 0x1F, 0xF0}`). */
  function MaskHdmaReg(k: nat, data: u8): u8
    requires k < 4
  {
    if k == 0 then data
    else if k == 2 then data % 0x20
    else data / 16 * 16
  }

  /** The staging registers as their masks leave them. */
  predicate HdmaRegsMasked(b: BusState)
  {
    b.hdmaRegs[1] % 16 == 0 && b.hdmaRegs[2] < 0x20 && b.hdmaRegs[3] % 16 == 0
  }

  /** A write to 0xFF55: the length from bits 0-6, the source and the
      destination (in VRAM) from the staging registers, and the mode: a
      transfer in progress is cancelled by a clear bit 7, otherwise bit 7
      chooses an HBlank transfer over a general one. */
  function StartHdma(b: BusState, data: u8): (r: BusState)
    ensures r == b.(hdmaLen := r.hdmaLen, hdmaSrc := r.hdmaSrc, hdmaDst := r.hdmaDst, hdmaMode := r.hdmaMode)
    ensures r.hdmaLen == data % 0x80
    ensures b.hdmaMode != HdmaNone && data < 0x80 ==> r.hdmaMode == HdmaNone
    ensures b.hdmaMode == HdmaNone && data < 0x80 ==> r.hdmaMode == HdmaGeneral
    ensures data >= 0x80 ==> r.hdmaMode == HdmaHBlank
  {
    assert Pow2(8) == 256 && Pow2(16) == 0x1_0000;
    var bit7 := data / 0x80 == 1;
    var src := Combine(OrOp, (b.hdmaRegs[0] as int) * 256, b.hdmaRegs[1], 16);
    var dst := Combine(OrOp, Combine(OrOp, 0x8000, (b.hdmaRegs[2] as int) * 256, 16), b.hdmaRegs[3], 16);
    var mode := if b.hdmaMode != HdmaNone && !bit7 then HdmaNone
                else if bit7 then HdmaHBlank else HdmaGeneral;
    b.(hdmaLen := data % 0x80, hdmaSrc := src, hdmaDst := dst, hdmaMode := mode)
  }

  /** `ioWrite`. A write to 0xFF46 starts OAM DMA from `data * 0x100` and
      is decoded before the PPU's 0xFF40-0xFF4B range; sound and wave RAM
      writes are ignored. */
  function IoWrite(b: BusState, addr: u16, data: u8): (r: BusState)
    requires addr == 0xFF46 ==> DmaOk(b, data * 0x100)
    ensures r.mbc == b.mbc && r.wram == b.wram && r.hram == b.hram && r.intEnable == b.intEnable
    ensures r.cgbMode == b.cgbMode
  {
    if addr < 0xFF40 then LowIoWrite(b, addr, data)
    else if addr == 0xFF46 then OamDma(b, data * 0x100)
    else HighIoWrite(b, addr, data)
  }

  /** The registers below 0xFF40: joypad, serial, timer, IF, sound. */
  function LowIoWrite(b: BusState, addr: u16, data: u8): (r: BusState)
    requires addr < 0xFF40
    ensures r == b.(selectAction := r.selectAction, selectDir := r.selectDir, serial := r.serial,
                    timer := r.timer, intRequest := r.intRequest)
  {
    if addr == 0xFF00 then b.(selectAction := data / 32 % 2 == 1, selectDir := data / 16 % 2 == 1)
    else if addr == 0xFF01 || addr == 0xFF02 then b.(serial := b.serial[addr - 0xFF01 := data])
    else if 0xFF04 <= addr <= 0xFF07 then b.(timer := Timer.Write(b.timer, addr, data))
    else if addr == 0xFF0F then b.(intRequest := data)
    else if 0xFF10 <= addr <= 0xFF26 then b
    else if 0xFF30 <= addr <= 0xFF3F then b
    else b
  }

  /** The registers from 0xFF40 on, 0xFF46 aside: PPU, speed switch, VRAM
      bank, HDMA, WRAM bank. */
  function HighIoWrite(b: BusState, addr: u16, data: u8): (r: BusState)
    requires addr >= 0xFF40 && addr != 0xFF46
    ensures r.mbc == b.mbc && r.wram == b.wram && r.hram == b.hram && r.intEnable == b.intEnable
    ensures r.cgbMode == b.cgbMode
  {
    if 0xFF40 <= addr <= 0xFF4B then b.(ppu := Ppu.Write(b.ppu, addr, data))
    else if addr == 0xFF4D then b.(prepareSpeedSwitch := data % 2 == 1)
    else if addr == 0xFF4F then b.(ppu := b.ppu.(vramBank := data % 2))
    else if addr == 0xFF50 then b
    else if 0xFF51 <= addr <= 0xFF54 then
      b.(hdmaRegs := b.hdmaRegs[addr - 0xFF51 := MaskHdmaReg(addr - 0xFF51, data)])
    else if addr == 0xFF55 then StartHdma(b, data)
    else if 0xFF68 <= addr <= 0xFF6B then b.(ppu := Ppu.Write(b.ppu, addr, data))
    else if addr == 0xFF70 then b.(wramBank := data % 8)
    else b
  }

  /** `get_triggered_interrupts`: the interrupts both enabled and requested. */
  function TriggeredInterrupts(b: BusState): u8
  {
    And8(b.intEnable, b.intRequest)
  }

  /** `clear_interrupt`: `IF &= ~(1 << n)`. A bit number past 7 leaves the
      byte alone; the shift needs `n` below 31. */
  function ClearInterrupt(b: BusState, n: nat): (r: BusState)
    requires n < 31
    ensures r == b.(intRequest := r.intRequest)
  {
    if n < 8 then b.(intRequest := ClearBit8(b.intRequest, n)) else b
  }

  /** `setButtonsPressed`: the two pressed masks, as the host passes them. */
  function SetButtonsPressed(b: BusState, actions: u8, dirs: u8): (r: BusState)
    ensures r == b.(actionPressed := actions, dirPressed := dirs)
  {
    b.(actionPressed := actions, dirPressed := dirs)
  }

  /** `switchSpeed`: a prepared switch toggles the speed and is consumed. */
  function SwitchSpeed(b: BusState): (r: BusState)
    ensures !r.prepareSpeedSwitch
    ensures r.doubleSpeed == (b.doubleSpeed != b.prepareSpeedSwitch)
    ensures r == b.(doubleSpeed := r.doubleSpeed, prepareSpeedSwitch := r.prepareSpeedSwitch)
  {
    if b.prepareSpeedSwitch then b.(doubleSpeed := !b.doubleSpeed, prepareSpeedSwitch := false) else b
  }

  // ---------------------------------------------------------------------
  // OAM DMA

  /** Every byte an OAM DMA from `src` reads is readable. */
  predicate DmaOk(b: BusState, src: u16)
  {
    forall j :: 0 <= j < OamDmaLength ==> ReadOk(b, Offset(src, j))
  }

  /** `oamdma`: OAM byte `i` gets the bus byte at `src + i`, for the first
      0x9F bytes; the last OAM byte keeps its value. */
  function OamDma(b: BusState, src: u16): (r: BusState)
    requires DmaOk(b, src)
    ensures r == b.(ppu := b.ppu.(oam := r.ppu.oam))
    ensures forall j :: 0 <= j < OamDmaLength ==> r.ppu.oam[j] == Read(b, Offset(src, j))
    ensures r.ppu.oam[OamDmaLength] == b.ppu.oam[OamDmaLength]
  {
    OamDmaFrom(b, src, 0)
  }

  /** The loop of `oamdma` from iteration `i` on. */
  function OamDmaFrom(b: BusState, src: u16, i: nat): (r: BusState)
    requires i <= OamDmaLength
    requires forall j :: i <= j < OamDmaLength ==> ReadOk(b, Offset(src, j))
    ensures r == b.(ppu := b.ppu.(oam := r.ppu.oam))
    ensures forall j :: i <= j < OamDmaLength ==> r.ppu.oam[j] == Read(b, Offset(src, j))
    ensures forall j :: 0 <= j < i || OamDmaLength <= j < 0xA0 ==> r.ppu.oam[j] == b.ppu.oam[j]
    decreases OamDmaLength - i
  {
    if i == OamDmaLength then b
    else
      var p1 := Ppu.WriteOam(b.ppu, 0xFE00 + i, Read(b, Offset(src, i)));
      ReadIgnoresOam(b, p1.oam);
      OamDmaFrom(b.(ppu := p1), src, i + 1)
  }

  /** No read depends on OAM: OAM itself reads 0 on the bus. */
  lemma ReadIgnoresOam(b: BusState, oam: Ppu.Oam)
    ensures forall a: u16 :: ReadOk(b.(ppu := b.ppu.(oam := oam)), a) == ReadOk(b, a)
    ensures forall a: u16 | ReadOk(b, a) :: Read(b.(ppu := b.ppu.(oam := oam)), a) == Read(b, a)
  {
    forall a: u16 | ReadOk(b, a)
      ensures Read(b.(ppu := b.ppu.(oam := oam)), a) == Read(b, a)
    {
      ReadIgnoresOamAt(b, oam, a);
    }
  }

  lemma ReadIgnoresOamAt(b: BusState, oam: Ppu.Oam, a: u16)
    requires ReadOk(b, a)
    ensures Read(b.(ppu := b.ppu.(oam := oam)), a) == Read(b, a)
  {
    var b1 := b.(ppu := b.ppu.(oam := oam));
    if 0xFF00 <= a < 0xFF80 {
      assert Ppu.Read(b1.ppu, a) == Ppu.Read(b.ppu, a);
      IoReadFrame(b, b1, a);
    }
  }

  /** `ioRead` sees the PPU only through its registers and VRAM bank. */
  lemma IoReadFrame(b: BusState, b1: BusState, a: u16)
    requires b1 == b.(ppu := b1.ppu) && b1.ppu.vramBank == b.ppu.vramBank
    requires Ppu.Read(b1.ppu, a) == Ppu.Read(b.ppu, a)
    ensures IoRead(b1, a) == IoRead(b, a)
  {
  }
  // ---------------------------------------------------------------------
  // HDMA

  /** The address of block `k` of a transfer starting at `a`: the start
      advanced by 0x10 `k` times, as `hdmaTransferLines` advances it. */
  function BlockAddr(a: u16, k: nat): u16
  {
    if k == 0 then a else Offset(BlockAddr(a, k - 1), 0x10)
  }

  /** What `n` blocks of HDMA need: each block's source readable and its
      destination inside VRAM, with a VRAM bank of 0 or 1. */
  predicate HdmaOk(b: BusState, n: int)
  {
    && b.ppu.vramBank < 2
    && forall k: nat :: k < n ==> BlockReadable(b, k)
  }

  /** Block `k`'s source is readable and its destination is in VRAM. */
  predicate BlockReadable(b: BusState, k: nat)
  {
    ReadOk(b, BlockAddr(b.hdmaSrc, k)) && InVram(BlockAddr(b.hdmaDst, k))
  }

  /** What copying the block at the current addresses needs. */
  predicate BlockReady(b: BusState)
  {
    b.ppu.vramBank < 2 && ReadOk(b, b.hdmaSrc) && InVram(b.hdmaDst)
  }

  /** Whether an address is readable depends only on the cartridge, the
      VRAM bank and the WRAM bank. */
  lemma ReadOkFrame(b: BusState, r: BusState, a: u16)
    requires r.mbc == b.mbc && r.ppu.vramBank == b.ppu.vramBank
    requires r.cgbMode == b.cgbMode && r.wramBank == b.wramBank
    requires ReadOk(b, a)
    ensures ReadOk(r, a)
  {
  }

  /** A VRAM write leaves every other bus byte as it was. */
  lemma ReadAfterVramWrite(b: BusState, dst: u16, data: u8, a: u16)
    requires InVram(dst) && b.ppu.vramBank < 2 && ReadOk(b, a)
    ensures var b1 := b.(ppu := Ppu.WriteVram(b.ppu, dst, data));
      && ReadOk(b1, a)
      && (Read(b1, a) == Read(b, a) || Read(b1, a) == data)
  {
    var b1 := b.(ppu := Ppu.WriteVram(b.ppu, dst, data));
    if 0xFF00 <= a < 0xFF80 {
      assert Ppu.Read(b1.ppu, a) == Ppu.Read(b.ppu, a);
      IoReadFrame(b, b1, a);
    }
  }

  /** The inner loop of `hdmaTransferLines`: sixteen times, the byte at
      the source is read and written to the destination. */
  method CopyBlock(b: BusState) returns (r: BusState)
    requires b.ppu.vramBank < 2 && ReadOk(b, b.hdmaSrc) && InVram(b.hdmaDst)
    ensures r == b.(ppu := Ppu.WriteVram(b.ppu, b.hdmaDst, Read(b, b.hdmaSrc)))
  {
    var v := Read(b, b.hdmaSrc);
    var once := b.(ppu := Ppu.WriteVram(b.ppu, b.hdmaDst, v));
    ReadAfterVramWrite(b, b.hdmaDst, v, b.hdmaSrc);
    r := b;
    var j := 0;
    while j < 0x10
      invariant 0 <= j <= 0x10
      invariant j == 0 ==> r == b
      invariant j > 0 ==> r == once
    {
      r := r.(ppu := Ppu.WriteVram(r.ppu, r.hdmaDst, Read(r, r.hdmaSrc)));
      j := j + 1;
    }
  }

  /** What a DMA transfer may change: VRAM and its own registers. */
  predicate DmaFrame(b: BusState, r: BusState)
  {
    && r.wram == b.wram && r.hram == b.hram && r.serial == b.serial && r.mbc == b.mbc
    && r.timer == b.timer && r.intEnable == b.intEnable && r.intRequest == b.intRequest
    && r.doubleSpeed == b.doubleSpeed && r.prepareSpeedSwitch == b.prepareSpeedSwitch
    && r.cgbMode == b.cgbMode && r.wramBank == b.wramBank && r.hdmaRegs == b.hdmaRegs
    && r.selectAction == b.selectAction && r.selectDir == b.selectDir
    && r.actionPressed == b.actionPressed && r.dirPressed == b.dirPressed
    && r.ppu.vramBank == b.ppu.vramBank && r.ppu.oam == b.ppu.oam && r.ppu.mode == b.ppu.mode
  }

  lemma DmaFrameTrans(a: BusState, b: BusState, c: BusState)
    requires DmaFrame(a, b) && DmaFrame(b, c)
    ensures DmaFrame(a, c)
  {
  }

  /** One pass of the outer loop of `hdmaTransferLines`: a block copied,
      both addresses advanced by 0x10, the length counted down, and after
      the block where it was 0 the length reset to 0x7F and HDMA stopped. */
  method TransferBlock(b: BusState) returns (r: BusState, v: u8)
    requires b.ppu.vramBank < 2 && ReadOk(b, b.hdmaSrc) && InVram(b.hdmaDst)
    ensures v == Read(b, b.hdmaSrc)
    ensures r.ppu == Ppu.WriteVram(b.ppu, b.hdmaDst, v)
    ensures r.hdmaSrc == Offset(b.hdmaSrc, 0x10) && r.hdmaDst == Offset(b.hdmaDst, 0x10)
    ensures b.hdmaLen == 0 ==> r.hdmaLen == 0x7F && r.hdmaMode == HdmaNone
    ensures b.hdmaLen != 0 ==> r.hdmaLen == b.hdmaLen - 1 && r.hdmaMode == b.hdmaMode
    ensures DmaFrame(b, r)
  {
    v := Read(b, b.hdmaSrc);
    r := CopyBlock(b);
    r := r.(hdmaSrc := Offset(r.hdmaSrc, 0x10), hdmaDst := Offset(r.hdmaDst, 0x10));
    if r.hdmaLen == 0 {
      r := r.(hdmaLen := 0x7F, hdmaMode := HdmaNone);
    } else {
      r := r.(hdmaLen := r.hdmaLen - 1);
    }
  }

  /** `TransferBlock` with the copied byte left unnamed, for the loop of
      `HdmaTransferLines`, which needs only where the block went. */
  method NextBlock(b: BusState) returns (r: BusState)
    requires BlockReady(b)
    ensures r.hdmaSrc == Offset(b.hdmaSrc, 0x10) && r.hdmaDst == Offset(b.hdmaDst, 0x10)
    ensures b.hdmaLen == 0 ==> r.hdmaLen == 0x7F && r.hdmaMode == HdmaNone
    ensures b.hdmaLen != 0 ==> r.hdmaLen == b.hdmaLen - 1 && r.hdmaMode == b.hdmaMode
    ensures DmaFrame(b, r)
  {
    var v;
    r, v := TransferBlock(b);
  }

  /** Block `i` of a transfer `HdmaOk` allows can be copied. */
  lemma HdmaStepOk(b: BusState, n: int, r: BusState, i: nat)
    requires HdmaOk(b, n) && i < n && DmaFrame(b, r)
    requires r.hdmaSrc == BlockAddr(b.hdmaSrc, i) && r.hdmaDst == BlockAddr(b.hdmaDst, i)
    ensures BlockReady(r)
  {
    assert BlockReadable(b, i);
    ReadOkFrame(b, r, r.hdmaSrc);
  }

  /** `hdmaTransferLines`: `n` blocks of 16 bytes, source and destination
      advancing by 0x10 (wrapping at 16 bits) after each; the length counts
      down and, after the block where it was 0, is reset to 0x7F and the
      transfer ends. Takes 8 cycles per block. */
  method HdmaTransferLines(b: BusState, n: int) returns (r: BusState, cycles: int)
    requires HdmaOk(b, n)
    ensures cycles == 8 * n
    ensures DmaFrame(b, r)
    ensures n >= 0 ==> r.hdmaSrc == BlockAddr(b.hdmaSrc, n) && r.hdmaDst == BlockAddr(b.hdmaDst, n)
    ensures 0 <= n <= b.hdmaLen ==> r.hdmaLen == b.hdmaLen - n && r.hdmaMode == b.hdmaMode
    ensures n > b.hdmaLen ==> r.hdmaMode == HdmaNone
    ensures n == b.hdmaLen + 1 ==> r.hdmaLen == 0x7F
  {
    r := b;
    var i := 0;
    while i < n
      invariant 0 <= i && (i == 0 || i <= n)
      invariant DmaFrame(b, r)
      invariant r.hdmaSrc == BlockAddr(b.hdmaSrc, i) && r.hdmaDst == BlockAddr(b.hdmaDst, i)
      invariant i <= b.hdmaLen ==> r.hdmaLen == b.hdmaLen - i && r.hdmaMode == b.hdmaMode
      invariant i > b.hdmaLen ==> r.hdmaMode == HdmaNone
      invariant i == b.hdmaLen + 1 ==> r.hdmaLen == 0x7F
    {
      HdmaStepOk(b, n, r, i);
      var r0 := r;
      r := NextBlock(r);
      DmaFrameTrans(b, r0, r);
      i := i + 1;
    }
    cycles := 8 * n;
  }

  /** `inHblank`: the PPU is in mode 0. */
  predicate InHblank(b: BusState)
  {
    b.ppu.mode == Ppu.HBlank
  }

  /** What the transfer `progressDma` runs now needs. */
  predicate DmaReady(b: BusState)
  {
    match b.hdmaMode
    case HdmaNone => true
    case HdmaGeneral => HdmaOk(b, b.hdmaLen + 1)
    case HdmaHBlank => InHblank(b) ==> BlockReady(b)
  }

  /** `progressDma`: a general transfer runs to the end at once; an HBlank
      transfer moves one block, `hdmaTransferLines(1)`, whenever the bus
      ticks during HBlank. */
  method ProgressDma(b: BusState) returns (r: BusState, ticks: int)
    requires DmaReady(b)
    ensures ticks >= 0 && ticks % 8 == 0
    ensures b.hdmaMode == HdmaNone || (b.hdmaMode == HdmaHBlank && !InHblank(b)) ==> r == b && ticks == 0
    ensures b.hdmaMode == HdmaGeneral ==>
              ticks == 8 * (b.hdmaLen + 1) && r.hdmaMode == HdmaNone && r.hdmaLen == 0x7F
    ensures b.hdmaMode == HdmaHBlank && InHblank(b) ==>
              && ticks == 8
              && r.hdmaSrc == Offset(b.hdmaSrc, 0x10) && r.hdmaDst == Offset(b.hdmaDst, 0x10)
              && (if b.hdmaLen == 0 then r.hdmaMode == HdmaNone && r.hdmaLen == 0x7F
                  else r.hdmaMode == HdmaHBlank && r.hdmaLen == b.hdmaLen - 1)
    ensures DmaFrame(b, r)
  {
    match b.hdmaMode
    case HdmaGeneral =>
      r, ticks := HdmaTransferLines(b, b.hdmaLen + 1);
    case HdmaHBlank =>
      if InHblank(b) {
        var v;
        r, v := TransferBlock(b);
        ticks := 8;
      } else {
        r, ticks := b, 0;
      }
    case HdmaNone =>
      r, ticks := b, 0;
  }

  // ---------------------------------------------------------------------
  // Tick and reset

  /** `tick`: DMA first, then the timer with CPU ticks and the PPU with PPU
      ticks (half the CPU cycles in double speed), DMA cycles added to both;
      the interrupts they raise are or-ed into IF. */
  method Tick(b: BusState, cycles: nat) returns (r: BusState, dmaTicks: int, ppuTicks: int, cpuTicks: nat)
    requires DmaReady(b)
    ensures var mult := if b.doubleSpeed then 2 else 1;
      ppuTicks == cycles / mult + dmaTicks && cpuTicks == cycles + dmaTicks * mult
    ensures b.hdmaMode == HdmaNone ==> dmaTicks == 0 && r.ppu == Ppu.Tick(b.ppu, ppuTicks).0
    ensures b.hdmaMode == HdmaGeneral ==> dmaTicks == 8 * (b.hdmaLen + 1) && r.hdmaMode == HdmaNone
    ensures r.timer.cpuTickDivider == (b.timer.cpuTickDivider + cpuTicks) % 256
    ensures r.timer.divider == (b.timer.divider + (b.timer.cpuTickDivider + cpuTicks) / 256) % 256
    ensures b.timer.enable &&
            Timer.CountUp(b.timer.counter, b.timer.modulo,
                          Timer.Whole(b.timer.counterDivider + cpuTicks, Timer.ClockStep(b.timer))).1
            ==> Bit(r.intRequest, IntOffTimer)
    ensures forall i :: 0 <= i < 8 && Bit(b.intRequest, i) ==> Bit(r.intRequest, i)
    ensures forall i :: IntOffTimer < i < 8 ==> Bit(r.intRequest, i) == Bit(b.intRequest, i)
    ensures r.intEnable == b.intEnable && r.wram == b.wram && r.hram == b.hram && r.mbc == b.mbc
    ensures r.ppu.vramBank == b.ppu.vramBank && r.ppu.oam == b.ppu.oam
  {
    var mult := if b.doubleSpeed then 2 else 1;
    var b1, dma := ProgressDma(b);
    dmaTicks := dma;
    ppuTicks := cycles / mult + dma;
    cpuTicks := cycles + dma * mult;
    r := TickDevices(b1, ppuTicks, cpuTicks);
  }

  /** The second half of `tick`: the timer and the PPU advance and their
      interrupts are or-ed into IF; nothing else changes. */
  method TickDevices(b: BusState, ppuTicks: int, cpuTicks: nat) returns (r: BusState)
    ensures r == b.(timer := r.timer, ppu := r.ppu, intRequest := r.intRequest)
    ensures r.ppu == Ppu.Tick(b.ppu, ppuTicks).0
    ensures r.timer.cpuTickDivider == (b.timer.cpuTickDivider + cpuTicks) % 256
    ensures r.timer.divider == (b.timer.divider + (b.timer.cpuTickDivider + cpuTicks) / 256) % 256
    ensures b.timer.enable &&
            Timer.CountUp(b.timer.counter, b.timer.modulo,
                          Timer.Whole(b.timer.counterDivider + cpuTicks, Timer.ClockStep(b.timer))).1
            ==> Bit(r.intRequest, IntOffTimer)
    ensures forall i :: 0 <= i < 8 && Bit(b.intRequest, i) ==> Bit(r.intRequest, i)
    ensures forall i :: IntOffTimer < i < 8 ==> Bit(r.intRequest, i) == Bit(b.intRequest, i)
    ensures r.ppu.vramBank == b.ppu.vramBank && r.ppu.oam == b.ppu.oam
  {
    var t, timerIrq := Timer.Tick(b.timer, cpuTicks);
    var (p, ppuIrq) := Ppu.Tick(b.ppu, ppuTicks);
    r := b.(timer := t, ppu := p, intRequest := Or8(Or8(b.intRequest, B2I(timerIrq) * 4), ppuIrq));
    RaiseInterrupts(b.intRequest, timerIrq, ppuIrq);
  }

  /** Or-ing the timer flag into bit 2 and the PPU's two bits into IF keeps
      every bit already set, sets bit 2 on a timer overflow, and leaves bits
      3-7 alone. */
  lemma RaiseInterrupts(flags: u8, timerIrq: bool, ppuIrq: u8)
    requires ppuIrq < 4
    ensures var r := Or8(Or8(flags, B2I(timerIrq) * 4), ppuIrq);
      && (timerIrq ==> Bit(r, IntOffTimer))
      && (forall i :: 0 <= i < 8 && Bit(flags, i) ==> Bit(r, i))
      && (forall i :: IntOffTimer < i < 8 ==> Bit(r, i) == Bit(flags, i))
  {
    var if1 := Or8(flags, B2I(timerIrq) * 4);
    var r := Or8(if1, ppuIrq);
    CombineBit(OrOp, flags, B2I(timerIrq) * 4, 8, 2);
    CombineBit(OrOp, if1, ppuIrq, 8, 2);
    if timerIrq {
      assert Bit(4, 2) by { assert 4 / 2 / 2 == 1; }
    }
    forall i | 0 <= i < 8
      ensures Bit(flags, i) ==> Bit(r, i)
      ensures IntOffTimer < i ==> Bit(r, i) == Bit(flags, i)
    {
      CombineBit(OrOp, flags, B2I(timerIrq) * 4, 8, i);
      CombineBit(OrOp, if1, ppuIrq, 8, i);
      if IntOffTimer < i {
        BitsAboveWidth(B2I(timerIrq) * 4, 3, i);
        BitsAboveWidth(ppuIrq, 2, i);
      }
    }
  }

  /** The first writes of `reset`: LCD control 0x91 and LCD status 0x81,
      which clears the four STAT interrupt enables. */
  function ResetLcdStart(b: BusState): (r: BusState)
    ensures r.ppu.control == 0x91
    ensures !r.ppu.compareInterrupt && !r.ppu.mode0Interrupt && !r.ppu.mode1Interrupt && !r.ppu.mode2Interrupt
    ensures r.ppu.cgbMode == b.ppu.cgbMode && r.timer == b.timer
  {
    IoWrite(IoWrite(b, 0xFF40, 0x91), 0xFF41, 0x81)
  }

  /** The timer writes of `reset`: counter, modulo and control all 0, which
      stops the counter. */
  function ResetTimer(b: BusState): (r: BusState)
    ensures r.timer.counter == 0 && r.timer.modulo == 0 && !r.timer.enable
    ensures r.ppu == b.ppu
  {
    assert !Bit(0, 2) by { ZeroHasNoBit(2); }
    IoWrite(IoWrite(IoWrite(b, 0xFF05, 0), 0xFF06, 0), 0xFF07, 0)
  }

  /** The sound writes of `reset`, in five runs. The bus drops writes to
      the sound registers, so they change nothing. */
  function ResetSound(b: BusState): (r: BusState)
    ensures r == b
  {
    ResetSound5(ResetSound4(ResetSound3(ResetSound2(ResetSound1(b)))))
  }

  function ResetSound1(b: BusState): (r: BusState)
    ensures r == b
  {
    IoWrite(IoWrite(IoWrite(IoWrite(b, 0xFF10, 0x80), 0xFF11, 0xBF), 0xFF12, 0xF3), 0xFF14, 0xBF)
  }

  function ResetSound2(b: BusState): (r: BusState)
    ensures r == b
  {
    IoWrite(IoWrite(IoWrite(IoWrite(b, 0xFF16, 0x3F), 0xFF16, 0x3F), 0xFF17, 0), 0xFF19, 0xBF)
  }

  function ResetSound3(b: BusState): (r: BusState)
    ensures r == b
  {
    IoWrite(IoWrite(IoWrite(IoWrite(b, 0xFF1A, 0x7F), 0xFF1B, 0xFF), 0xFF1C, 0x9F), 0xFF1E, 0xFF)
  }

  function ResetSound4(b: BusState): (r: BusState)
    ensures r == b
  {
    IoWrite(IoWrite(IoWrite(IoWrite(b, 0xFF20, 0xFF), 0xFF21, 0), 0xFF22, 0), 0xFF23, 0xBF)
  }

  function ResetSound5(b: BusState): (r: BusState)
    ensures r == b
  {
    IoWrite(IoWrite(IoWrite(b, 0xFF24, 0x77), 0xFF25, 0xF3), 0xFF26, 0xF1)
  }

  /** The last writes of `reset`: LCD control again, scroll, LY compare,
      the three DMG palettes and the window position. */
  function ResetLcd(b: BusState): (r: BusState)
    ensures r.ppu.control == 0x91 && r.ppu.scrollY == 0 && r.ppu.scrollX == 0 && r.ppu.lyCompare == 0
    ensures r.ppu.bgPalette == 0xFC && r.ppu.objPalette0 == 0xFF && r.ppu.objPalette1 == 0xFF
    ensures r.ppu.windowY == 0 && r.ppu.windowX == 0
    ensures r.timer == b.timer && r.ppu.cgbMode == b.ppu.cgbMode
    ensures r.ppu.compareInterrupt == b.ppu.compareInterrupt && r.ppu.mode0Interrupt == b.ppu.mode0Interrupt
    ensures r.ppu.mode1Interrupt == b.ppu.mode1Interrupt && r.ppu.mode2Interrupt == b.ppu.mode2Interrupt
  {
    var b1 := IoWrite(IoWrite(IoWrite(b, 0xFF40, 0x91), 0xFF42, 0), 0xFF43, 0);
    var b2 := IoWrite(IoWrite(IoWrite(b1, 0xFF45, 0), 0xFF47, 0xFC), 0xFF48, 0xFF);
    IoWrite(IoWrite(IoWrite(b2, 0xFF49, 0xFF), 0xFF4A, 0), 0xFF4B, 0)
  }

  /** `reset`: the CGB flag to the bus and the PPU, then the power-up values
      of the LCD, timer and palette registers, in the order the source
      writes them. */
  function Reset(b: BusState, cgb: bool): (r: BusState)
    ensures r.cgbMode == cgb && r.ppu.cgbMode == cgb
    ensures r.ppu.control == 0x91 && r.ppu.scrollY == 0 && r.ppu.scrollX == 0 && r.ppu.lyCompare == 0
    ensures r.ppu.bgPalette == 0xFC && r.ppu.objPalette0 == 0xFF && r.ppu.objPalette1 == 0xFF
    ensures r.ppu.windowY == 0 && r.ppu.windowX == 0
    ensures !r.ppu.compareInterrupt && !r.ppu.mode0Interrupt && !r.ppu.mode1Interrupt && !r.ppu.mode2Interrupt
    ensures r.timer.counter == 0 && r.timer.modulo == 0 && !r.timer.enable
    ensures r.mbc == b.mbc && r.wram == b.wram && r.hram == b.hram && r.intEnable == b.intEnable
  {
    ResetLcd(ResetSound(ResetTimer(ResetLcdStart(b.(cgbMode := cgb, ppu := b.ppu.(cgbMode := cgb))))))
  }

  // ---------------------------------------------------------------------
  // Routing lemmas

  /** A byte written to work RAM is read back at the same address; the
      switchable half goes through the bank index both ways. */
  lemma WramWriteRead(b: BusState, addr: u16, data: u8, now: u64)
    requires 0xC000 <= addr < 0xE000 && WriteOk(b, addr, data)
    ensures ReadOk(Write(b, addr, data, now), addr)
    ensures Read(Write(b, addr, data, now), addr) == data
  {
  }

  /** A work-RAM write leaves every other work-RAM array slot alone. */
  lemma WramWriteOther(b: BusState, addr: u16, data: u8, now: u64, a: u16)
    requires 0xC000 <= addr < 0xD000 && 0xC000 <= a < 0xD000 && a != addr
    ensures Read(Write(b, addr, data, now), a) == Read(b, a)
  {
  }

  /** High RAM and IE give back what was written to them. */
  lemma HramWriteRead(b: BusState, addr: u16, data: u8, now: u64)
    requires 0xFF80 <= addr
    ensures WriteOk(b, addr, data) && ReadOk(Write(b, addr, data, now), addr)
    ensures Read(Write(b, addr, data, now), addr) == data
    ensures addr == 0xFFFF ==> Write(b, addr, data, now) == b.(intEnable := data)
  {
  }

  /** `read16` of what `write16` stored in the fixed work-RAM bank is the
      word written: low byte first, high byte next. */
  lemma Wram16WriteRead(b: BusState, addr: u16, v: u16, now: u64)
    requires 0xC000 <= addr < 0xCFFF
    ensures WriteOk(b, addr, v % 256) && WriteOk(Write(b, addr, v % 256, now), Offset(addr, 1), v / 256)
    ensures var r := Write16(b, addr, v, now);
      ReadOk(r, addr) && ReadOk(r, Offset(addr, 1)) && Read16(r, addr) == v
  {
    var b1 := Write(b, addr, v % 256, now);
    var a1 := Offset(addr, 1);
    assert a1 == addr + 1;
    var r := Write(b1, a1, v / 256, now);
    WramWriteRead(b1, a1, v / 256, now);
    WramWriteOther(b1, a1, v / 256, now, addr);
    assert Read(r, addr) == v % 256;
  }

  /** Writes to the upper ROM window, echo RAM and the unusable area above
      OAM reach no component. */
  lemma WritesDropped(b: BusState, addr: u16, data: u8, now: u64)
    requires 0x4000 <= addr < 0x8000 || 0xE000 <= addr < 0xFE00 || 0xFEA0 <= addr < 0xFF00
    ensures WriteOk(b, addr, data) && Write(b, addr, data, now) == b
  {
  }

  /** Reads of the cartridge windows go to the controller with the full
      address, and writes below 0x4000 or to cartridge RAM too. */
  lemma CartRouting(b: BusState, addr: u16, data: u8, now: u64)
    requires b.mbc.Some?
    ensures InCart(addr) && Mbc.ReadOk(b.mbc.value, addr) ==>
              ReadOk(b, addr) && Read(b, addr) == Mbc.Read(b.mbc.value, addr)
    ensures InCartWrite(addr) && Mbc.WriteOk(b.mbc.value, addr) ==>
              WriteOk(b, addr, data) && Write(b, addr, data, now) == b.(mbc := Some(Mbc.Write(b.mbc.value, addr, data, now)))
  {
  }

  /** The index of a switchable-WRAM address is inside the array exactly
      when bank 7 is not selected in CGB mode: bank 7 runs past the end. */
  lemma WramBankInRange(b: BusState, addr: u16)
    requires InBankedWram(addr)
    ensures WramIndex(b, addr) < WramSize <==> !b.cgbMode || b.wramBank < 7
  {
  }

  /** 0xFF70 keeps the low three bits of the byte written and reads them back. */
  lemma WramBankRegister(b: BusState, data: u8, now: u64)
    ensures WriteOk(b, 0xFF70, data)
    ensures var r := Write(b, 0xFF70, data, now);
      r == b.(wramBank := data % 8) && Read(r, 0xFF70) == data % 8
  {
  }

  // ---------------------------------------------------------------------
  // Register lemmas

  /** The joypad byte: bits 5 and 4 are the select latches, and, for
      pressed masks of four bits, the low nibble is the or of the masks of
      the selected groups (a latch of 0 selects). */
  lemma JoypadRead(b: BusState)
    requires b.actionPressed < 16 && b.dirPressed < 16
    ensures var actions := if b.selectAction then 0 else b.actionPressed;
      var dirs := if b.selectDir then 0 else b.dirPressed;
      Read(b, 0xFF00) == 32 * B2I(b.selectAction) + 16 * B2I(b.selectDir) + Or8(actions, dirs)
  {
    var actions := if b.selectAction then 0 else b.actionPressed;
    var dirs := if b.selectDir then 0 else b.dirPressed;
    ReadJoypad(b);
    JoypadByte(B2I(b.selectAction), B2I(b.selectDir), actions, dirs);
  }

  /** The masks the host hands over show in the joypad byte for the groups
      the latches select; the host packs four buttons into each mask. */
  lemma PressedButtonsRead(b: BusState, actions: u8, dirs: u8)
    requires actions < 16 && dirs < 16
    ensures var shown := Or8(if b.selectAction then 0 else actions, if b.selectDir then 0 else dirs);
      Read(SetButtonsPressed(b, actions, dirs), 0xFF00) == 32 * B2I(b.selectAction) + 16 * B2I(b.selectDir) + shown
  {
    JoypadRead(SetButtonsPressed(b, actions, dirs));
  }

  lemma ReadJoypad(b: BusState)
    ensures ReadOk(b, 0xFF00) && Read(b, 0xFF00) == Joypad(b)
  {
  }

  lemma JoypadByte(sa: nat, sd: nat, actions: u8, dirs: u8)
    requires sa < 2 && sd < 2 && actions < 16 && dirs < 16
    ensures Or8(Or8(Or8(sa * 32, sd * 16), actions), dirs) == 32 * sa + 16 * sd + Or8(actions, dirs)
  {
    JoypadLatches(sa, sd);
    JoypadLow(2 * sa + sd, actions, dirs);
  }

  lemma JoypadLatches(sa: nat, sd: nat)
    requires sa < 2 && sd < 2
    ensures Or8(sa * 32, sd * 16) == (2 * sa + sd) * 16
  {
    assert Pow2(5) == 32 && Pow2(8) == 256;
    OrShifted(sa, sd * 16, 5, 8);
  }

  lemma JoypadLow(hi: nat, actions: u8, dirs: u8)
    requires hi < 16 && actions < 16 && dirs < 16
    ensures Or8(Or8(hi * 16, actions), dirs) == hi * 16 + Or8(actions, dirs)
  {
    assert Pow2(4) == 16 && Pow2(8) == 256;
    OrAssoc(hi * 16, actions, dirs, 8);
    CombineBelow(OrOp, actions, dirs, 4, 8);
    OrShifted(hi, Or8(actions, dirs), 4, 8);
  }

  /** A write to 0xFF00 sets the two select latches from bits 5 and 4 and
      changes nothing else; the buttons pressed stay as the host set them. */
  lemma JoypadWrite(b: BusState, data: u8, now: u64)
    ensures WriteOk(b, 0xFF00, data)
    ensures Write(b, 0xFF00, data, now) == b.(selectAction := Bit(data, 5), selectDir := Bit(data, 4))
  {
    Bit5(data);
  }

  lemma Bit5(x: nat)
    ensures Bit(x, 5) == (x / 32 % 2 == 1) && Bit(x, 4) == (x / 16 % 2 == 1)
  {
    var x1 := x / 2;
    var x2 := x1 / 2;
    var x3 := x2 / 2;
    var x4 := x3 / 2;
    var x5 := x4 / 2;
    assert Bit(x, 5) == Bit(x1, 4) == Bit(x2, 3) == Bit(x3, 2) == Bit(x4, 1) == Bit(x5, 0);
    assert Bit(x, 4) == Bit(x1, 3) == Bit(x2, 2) == Bit(x3, 1) == Bit(x4, 0);
    assert x4 == x / 16 && x5 == x / 32;
  }

  /** The select latches written to 0xFF00 are read back in bits 5 and 4. */
  lemma JoypadLatchRoundTrip(b: BusState, data: u8, now: u64)
    requires b.actionPressed < 16 && b.dirPressed < 16
    ensures WriteOk(b, 0xFF00, data)
    ensures Read(Write(b, 0xFF00, data, now), 0xFF00) / 16 == data / 16 % 4
  {
    var r := b.(selectAction := Bit(data, 5), selectDir := Bit(data, 4));
    JoypadWrite(b, data, now);
    JoypadLatchesRead(r);
    LatchBits(data);
  }

  /** The high nibble of the joypad byte holds just the two latches. */
  lemma JoypadLatchesRead(b: BusState)
    requires b.actionPressed < 16 && b.dirPressed < 16
    ensures Read(b, 0xFF00) / 16 == 2 * B2I(b.selectAction) + B2I(b.selectDir)
  {
    ReadJoypad(b);
    JoypadNibble(B2I(b.selectAction), B2I(b.selectDir),
      if b.selectAction then 0 else b.actionPressed, if b.selectDir then 0 else b.dirPressed);
  }

  lemma JoypadNibble(sa: nat, sd: nat, actions: u8, dirs: u8)
    requires sa < 2 && sd < 2 && actions < 16 && dirs < 16
    ensures Or8(Or8(Or8(sa * 32, sd * 16), actions), dirs) / 16 == 2 * sa + sd
  {
    JoypadByte(sa, sd, actions, dirs);
    CombineBelow(OrOp, actions, dirs, 4, 8);
    assert Pow2(4) == 16;
    HighNibble(2 * sa + sd, Or8(actions, dirs), Or8(Or8(Or8(sa * 32, sd * 16), actions), dirs));
  }

  lemma HighNibble(hi: nat, low: nat, v: int)
    requires low < 16 && v == 16 * hi + low
    ensures v / 16 == hi
  {
  }

  /** Bits 5 and 4 of a byte, as a two-bit number, are its bits 4-5. */
  lemma LatchBits(data: u8)
    ensures 2 * B2I(Bit(data, 5)) + B2I(Bit(data, 4)) == data / 16 % 4
  {
    Bit5(data);
    TwoDigits(data / 16, data / 32, B2I(Bit(data, 5)), B2I(Bit(data, 4)));
  }

  lemma TwoDigits(t: nat, h: nat, a: nat, c: nat)
    requires h == t / 2 && a == h % 2 && c == t % 2
    ensures 2 * a + c == t % 4
  {
    var q := h / 2;
    assert t == 2 * h + c;
    assert h == 2 * q + a;
    var r := 2 * a + c;
    assert t == 4 * q + r && 0 <= r < 4;
  }

  /** `get_triggered_interrupts`: bit `j` is set exactly when it is set in
      both IE and IF. */
  lemma TriggeredInterruptsBits(b: BusState, j: nat)
    requires j < 8
    ensures Bit(TriggeredInterrupts(b), j) <==> Bit(b.intEnable, j) && Bit(b.intRequest, j)
  {
    CombineBit(AndOp, b.intEnable, b.intRequest, 8, j);
  }

  /** `clear_interrupt(n)` clears bit `n` of IF and keeps its other bits;
      IE is not touched. */
  lemma ClearInterruptBits(b: BusState, n: nat, j: nat)
    requires n < 8 && j < 8
    ensures ClearInterrupt(b, n).intEnable == b.intEnable
    ensures Bit(ClearInterrupt(b, n).intRequest, j) <==> j != n && Bit(b.intRequest, j)
  {
    WithBitBit(b.intRequest, n, false, j);
  }

  /** A staging register reads back as written, under its mask; writing the
      read value again changes nothing. */
  lemma HdmaRegisterMasks(b: BusState, k: nat, data: u8, now: u64)
    requires k < 4
    ensures WriteOk(b, 0xFF51 + k, data)
    ensures var r := Write(b, 0xFF51 + k, data, now);
      && r == b.(hdmaRegs := r.hdmaRegs)
      && Read(r, 0xFF51 + k) == MaskHdmaReg(k, data)
      && MaskHdmaReg(k, MaskHdmaReg(k, data)) == MaskHdmaReg(k, data)
      && (HdmaRegsMasked(b) ==> HdmaRegsMasked(r))
  {
  }

  /** A write to 0xFF55 takes the source from registers 0 and 1 and the
      destination from registers 2 and 3 under 0x8000; with the registers as
      their masks leave them, the destination is a 16-byte aligned VRAM
      address. */
  lemma HdmaStartAddresses(b: BusState, data: u8)
    ensures StartHdma(b, data).hdmaSrc == 256 * (b.hdmaRegs[0] as int) + b.hdmaRegs[1]
    ensures HdmaRegsMasked(b) ==>
      var dst := StartHdma(b, data).hdmaDst;
      && dst == 0x8000 + 256 * (b.hdmaRegs[2] as int) + b.hdmaRegs[3]
      && dst % 16 == 0 && InVram(dst) && dst <= 0x9FF0
  {
    var r := StartHdma(b, data);
    var r0, r1, r2, r3 := b.hdmaRegs[0], b.hdmaRegs[1], b.hdmaRegs[2], b.hdmaRegs[3];
    assert r.hdmaSrc == Combine(OrOp, (r0 as int) * 256, r1, 16);
    assert r.hdmaDst == Combine(OrOp, Combine(OrOp, 0x8000, (r2 as int) * 256, 16), r3, 16);
    WordOfBytes(r0, r1);
    if HdmaRegsMasked(b) {
      VramWord(r2, r3);
      VramAligned(r2 as int, r3 as int, r.hdmaDst);
    }
  }

  /** `(hi << 8) | lo` is `256 * hi + lo`. */
  lemma WordOfBytes(hi: u8, lo: u8)
    ensures Combine(OrOp, (hi as int) * 256, lo, 16) == 256 * (hi as int) + lo
  {
    assert Pow2(8) == 256 && Pow2(16) == 0x1_0000;
    OrShifted(hi, lo, 8, 16);
  }

  /** `0x8000 | (hi << 8) | lo` for a masked destination. */
  lemma VramWord(hi: u8, lo: u8)
    requires hi < 0x20 && lo % 16 == 0
    ensures var dst := Combine(OrOp, Combine(OrOp, 0x8000, (hi as int) * 256, 16), lo, 16);
      dst == 0x8000 + 256 * (hi as int) + lo
  {
    assert Pow2(8) == 256 && Pow2(15) == 0x8000 && Pow2(16) == 0x1_0000;
    var x := (hi as int) * 256;
    assert x < 0x2000;
    OrShifted(1, x, 15, 16);
    assert 1 * Pow2(15) == 0x8000;
    var y := 0x8000 + x;
    assert Combine(OrOp, 0x8000, x, 16) == y;
    assert (128 + hi) * Pow2(8) == y && y + lo < 0x1_0000;
    OrShifted(128 + hi, lo, 8, 16);
  }

  lemma VramAligned(hi: int, lo: int, dst: int)
    requires 0 <= hi < 0x20 && 0 <= lo < 256 && lo % 16 == 0 && dst == 0x8000 + 256 * hi + lo
    ensures dst % 16 == 0 && 0x8000 <= dst <= 0x9FF0
  {
    var q := 0x800 + 16 * hi + lo / 16;
    assert dst == 16 * q;
  }

  /** 0xFF4D: the prepare bit written is read back in bit 0 beside the
      current speed in bit 7, and a prepared switch is consumed. */
  lemma SpeedSwitchRoundTrip(b: BusState, data: u8, now: u64)
    ensures WriteOk(b, 0xFF4D, data)
    ensures var r := Write(b, 0xFF4D, data, now);
      && Read(r, 0xFF4D) == 128 * B2I(b.doubleSpeed) + data % 2
      && SwitchSpeed(r).doubleSpeed == (b.doubleSpeed != (data % 2 == 1))
      && !SwitchSpeed(r).prepareSpeedSwitch
  {
  }

  /** Preparing and switching twice restores the speed; switching again
      without a new prepare changes nothing. */
  lemma SpeedSwitchTwice(b: BusState, now: u64)
    ensures var b1 := SwitchSpeed(Write(b, 0xFF4D, 1, now));
      && SwitchSpeed(Write(b1, 0xFF4D, 1, now)).doubleSpeed == b.doubleSpeed
      && SwitchSpeed(b1) == b1
  {
  }
}

=== FILE: cpu.dfy ===
/** The SM83 CPU of src/cpu.cpp: register file, opcode decoding, instruction
    execution, interrupt vectoring and the `step` entry point. Memory is a
    total map from 16-bit address to byte; IF lives at 0xFF0F and IE at
    0xFFFF, as on the bus. Opcodes are decoded into an `Instr` datatype
    instead of the source's table of closures. */
module Cpu {
  import opened Bits
  import opened Wrappers
  import opened CpuRegister
  import Alu

  type Memory = m: seq<u8> | |m| == 0x1_0000 witness seq(0x1_0000, _ => 0)

  const AddrIF: u16 := 0xFF0F
  const AddrIE: u16 := 0xFFFF
  const AddrSerialData: u16 := 0xFF01
  const AddrSerialControl: u16 := 0xFF02

  /** `static_cast<uint16_t>` of an intermediate result. */
  function Wrap16(x: int): u16
  {
    x % 0x1_0000
  }

  /** `read16`: little-endian, the high byte from the next address (wrapping). */
  function Read16(mem: Memory, a: u16): (v: u16)
    ensures v % 256 == mem[a] && v / 256 == mem[Wrap16(a + 1)]
  {
    mem[a] + 256 * (mem[Wrap16(a + 1)] as int)
  }

  /** `write16`: the low byte at `a`, then the high byte at `a + 1`. */
  function Write16(mem: Memory, a: u16, v: u16): (r: Memory)
    ensures Read16(r, a) == v
    ensures forall x :: 0 <= x < 0x1_0000 && x != a && x != Wrap16(a + 1) ==> r[x] == mem[x]
  {
    mem[a := v % 256][Wrap16(a + 1) := v / 256]
  }

  // ---------------------------------------------------------------------
  // State

  /** The register file. A and the flags make up AF; the F byte is kept as
      its four flags, its low nibble being zero in every reachable state. */
  datatype CpuState = CpuState(a: u8, f: Alu.Flags, bc: Register, de: Register, hl: Register,
                               sp: u16, pc: u16, ime: bool, halted: bool)

  datatype Machine = Machine(cpu: CpuState, mem: Memory)

  function GetAf(s: CpuState): u16
  {
    s.a * 256 + Alu.FlagByte(s.f)
  }

  /** `set_af`: A from the high byte, F from the high nibble of the low byte. */
  function SetAf(s: CpuState, v: u16): (r: CpuState)
    ensures GetAf(r) == v - v % 16
    ensures r == s.(a := r.a, f := r.f)
  {
    Alu.FlagByteOfFlags(v % 256);
    s.(a := v / 256, f := Alu.FlagsOfByte(v % 256))
  }

  /** Power-up register values (`reset`); IME and HALT are untouched. */
  function Reset(s: CpuState, cgb: bool): (r: CpuState)
    ensures GetAf(r) == if cgb then 0x11B0 else 0x01B0
    ensures Get(r.bc) == 0x0013 && Get(r.de) == 0x00D8 && Get(r.hl) == 0x014D
    ensures r.pc == 0x0100 && r.sp == 0xFFFE
    ensures r.ime == s.ime && r.halted == s.halted
  {
    SetAf(s, if cgb then 0x11B0 else 0x01B0).(bc := Set(0x0013), de := Set(0x00D8),
                                              hl := Set(0x014D), pc := 0x0100, sp := 0xFFFE)
  }

  // ---------------------------------------------------------------------
  // Operands

  /** The 8-bit operand order of the opcode table: B, C, D, E, H, L, (HL), A. */
  datatype Reg8 = B | C | D | E | H | L | MemHL | A

  /** The 16-bit operands of loads and arithmetic: BC, DE, HL, SP. */
  datatype Pair = PairBC | PairDE | PairHL | PairSP

  /** The operands of PUSH and POP: BC, DE, HL, AF. */
  datatype StackPair = StackBC | StackDE | StackHL | StackAF

  /** The memory operands of the accumulator loads. */
  datatype Ptr = AtBC | AtDE | AtHLInc | AtHLDec | AtIoImm | AtIoC | AtAbs

  datatype AluKind = AddK | AdcK | SubK | SbcK | AndK | XorK | OrK | CpK
  datatype RotA = RLCA | RRCA | RLA | RRA
  datatype ShiftOp = RLC | RRC | RL | RR | SLA | SRA | SWAP | SRL

  datatype FlagName = FlagZero | FlagCarry

  /** No condition (`condition_off == 0`), or a flag that must differ from `negate`. */
  datatype Cond = Always | IfFlag(flag: FlagName, negate: bool)

  type BitIndex = n: nat | n < 8

  datatype Instr =
    | Ld(dst: Reg8, src: Reg8)
    | LdImm(dst: Reg8)
    | LdFromA(ptr: Ptr)
    | LdToA(ptr: Ptr)
    | Ld16Imm(rr: Pair)
    | StoreSp
    | LdSpHl
    | LdHlSpRel
    | Push(sr: StackPair)
    | Pop(sr: StackPair)
    | AluReg(kind: AluKind, src: Reg8)
    | AluImm(kind: AluKind)
    | IncDec8(r: Reg8, incr: bool)
    | DaaA
    | CplA
    | IncDec16(rr: Pair, incr: bool)
    | AddHlRr(rr: Pair)
    | AddSpRel
    | Rotate(rot: RotA)
    | Ccf
    | Scf
    | Nop
    | Halt
    | Stop
    | Di
    | Ei
    | Jp(cond: Cond)
    | JpHl
    | Jr(cond: Cond)
    | Call(cond: Cond)
    | Ret(cond: Cond)
    | Reti
    | Rst(vec: BitIndex)

  datatype CbInstr =
    | Shift(op: ShiftOp, r: Reg8)
    | TestBit(n: BitIndex, r: Reg8)
    | ResBit(n: BitIndex, r: Reg8)
    | SetBit(n: BitIndex, r: Reg8)

  // ---------------------------------------------------------------------
  // Decoding (the table built by initOpcodeTables)

  function Reg8At(i: nat): Reg8
    requires i < 8
  {
    match i
    case 0 => B case 1 => C case 2 => D case 3 => E
    case 4 => H case 5 => L case 6 => MemHL case _ => A
  }

  function Reg8Index(r: Reg8): (i: nat)
    ensures i < 8 && Reg8At(i) == r
  {
    match r
    case B => 0 case C => 1 case D => 2 case E => 3
    case H => 4 case L => 5 case MemHL => 6 case A => 7
  }

  function AluKindAt(i: nat): AluKind
    requires i < 8
  {
    match i
    case 0 => AddK case 1 => AdcK case 2 => SubK case 3 => SbcK
    case 4 => AndK case 5 => XorK case 6 => OrK case _ => CpK
  }

  function AluKindIndex(k: AluKind): (i: nat)
    ensures i < 8 && AluKindAt(i) == k
  {
    match k
    case AddK => 0 case AdcK => 1 case SubK => 2 case SbcK => 3
    case AndK => 4 case XorK => 5 case OrK => 6 case CpK => 7
  }

  function PairAt(i: nat): Pair
    requires i < 4
  {
    match i
    case 0 => PairBC case 1 => PairDE case 2 => PairHL case _ => PairSP
  }

  function PairIndex(p: Pair): (i: nat)
    ensures i < 4 && PairAt(i) == p
  {
    match p
    case PairBC => 0 case PairDE => 1 case PairHL => 2 case PairSP => 3
  }

  function StackPairAt(i: nat): StackPair
    requires i < 4
  {
    match i
    case 0 => StackBC case 1 => StackDE case 2 => StackHL case _ => StackAF
  }

  function StackPairIndex(p: StackPair): (i: nat)
    ensures i < 4 && StackPairAt(i) == p
  {
    match p
    case StackBC => 0 case StackDE => 1 case StackHL => 2 case StackAF => 3
  }

  /** NZ, Z, NC, C: the conditions in opcode order. */
  function CondAt(i: nat): Cond
    requires i < 4
  {
    IfFlag(if i < 2 then FlagZero else FlagCarry, i % 2 == 0)
  }

  function CondIndex(c: Cond): (i: nat)
    requires c.IfFlag?
    ensures i < 4 && CondAt(i) == c
  {
    (if c.flag == FlagZero then 0 else 2) + (if c.negate then 0 else 1)
  }

  function ShiftOpAt(i: nat): ShiftOp
    requires i < 8
  {
    match i
    case 0 => RLC case 1 => RRC case 2 => RL case 3 => RR
    case 4 => SLA case 5 => SRA case 6 => SWAP case _ => SRL
  }

  function ShiftOpIndex(op: ShiftOp): (i: nat)
    ensures i < 8 && ShiftOpAt(i) == op
  {
    match op
    case RLC => 0 case RRC => 1 case RL => 2 case RR => 3
    case SLA => 4 case SRA => 5 case SWAP => 6 case SRL => 7
  }

  /** The primary opcode table. `None` for 0xCB, which `step` handles as a
      prefix, and for the eleven opcodes the table leaves empty. */
  function Decode(op: u8): Option<Instr>
  {
    var x, y, z := op / 64, (op / 8) % 8, op % 8;
    if x == 1 then Some(if op == 0x76 then Halt else Ld(Reg8At(y), Reg8At(z)))
    else if x == 2 then Some(AluReg(AluKindAt(y), Reg8At(z)))
    else if x == 0 then Some(DecodeLow(y, z))
    else DecodeHigh(y, z)
  }

  /** Opcodes 0x00-0x3F. */
  function DecodeLow(y: nat, z: nat): Instr
    requires y < 8 && z < 8
  {
    var p, q := y / 2, y % 2 == 1;
    match z
    case 0 =>
      if y == 0 then Nop
      else if y == 1 then StoreSp
      else if y == 2 then Stop
      else if y == 3 then Jr(Always)
      else Jr(CondAt(y - 4))
    case 1 => if q then AddHlRr(PairAt(p)) else Ld16Imm(PairAt(p))
    case 2 =>
      var ptr := match p case 0 => AtBC case 1 => AtDE case 2 => AtHLInc case _ => AtHLDec;
      if q then LdToA(ptr) else LdFromA(ptr)
    case 3 => IncDec16(PairAt(p), !q)
    case 4 => IncDec8(Reg8At(y), true)
    case 5 => IncDec8(Reg8At(y), false)
    case 6 => LdImm(Reg8At(y))
    case _ =>
      match y
      case 0 => Rotate(RLCA) case 1 => Rotate(RRCA) case 2 => Rotate(RLA) case 3 => Rotate(RRA)
      case 4 => DaaA case 5 => CplA case 6 => Scf case _ => Ccf
  }

  /** Opcodes 0xC0-0xFF. */
  function DecodeHigh(y: nat, z: nat): Option<Instr>
    requires y < 8 && z < 8
  {
    var p, q := y / 2, y % 2 == 1;
    match z
    case 0 =>
      if y < 4 then Some(Ret(CondAt(y)))
      else if y == 4 then Some(LdFromA(AtIoImm))
      else if y == 5 then Some(AddSpRel)
      else if y == 6 then Some(LdToA(AtIoImm))
      else Some(LdHlSpRel)
    case 1 =>
      if !q then Some(Pop(StackPairAt(p)))
      else if p == 0 then Some(Ret(Always))
      else if p == 1 then Some(Reti)
      else if p == 2 then Some(JpHl)
      else Some(LdSpHl)
    case 2 =>
      if y < 4 then Some(Jp(CondAt(y)))
      else if y == 4 then Some(LdFromA(AtIoC))
      else if y == 5 then Some(LdFromA(AtAbs))
      else if y == 6 then Some(LdToA(AtIoC))
      else Some(LdToA(AtAbs))
    case 3 =>
      if y == 0 then Some(Jp(Always))
      else if y == 6 then Some(Di)
      else if y == 7 then Some(Ei)
      else None
    case 4 => if y < 4 then Some(Call(CondAt(y))) else None
    case 5 =>
      if !q then Some(Push(StackPairAt(p)))
      else if p == 0 then Some(Call(Always))
      else None
    case 6 => Some(AluImm(AluKindAt(y)))
    case _ => Some(Rst(y))
  }

  /** The 0xCB-prefixed table: every byte is defined. */
  function DecodeCb(op: u8): CbInstr
  {
    var x, y, z := op / 64, (op / 8) % 8, op % 8;
    if x == 0 then Shift(ShiftOpAt(y), Reg8At(z))
    else if x == 1 then TestBit(y, Reg8At(z))
    else if x == 2 then ResBit(y, Reg8At(z))
    else SetBit(y, Reg8At(z))
  }

  // ---------------------------------------------------------------------
  // Encoding: the opcode each instruction sits at in the table

  /** The opcodes of the store `LdFromA(p)` and of the load `LdToA(p)`. */
  function PtrStoreOpcode(p: Ptr): u8
  {
    match p
    case AtBC => 0x02 case AtDE => 0x12 case AtHLInc => 0x22 case AtHLDec => 0x32
    case AtIoImm => 0xE0 case AtIoC => 0xE2 case AtAbs => 0xEA
  }

  function PtrLoadOpcode(p: Ptr): u8
  {
    match p
    case AtBC => 0x0A case AtDE => 0x1A case AtHLInc => 0x2A case AtHLDec => 0x3A
    case AtIoImm => 0xF0 case AtIoC => 0xF2 case AtAbs => 0xFA
  }

  predicate Encodable(i: Instr)
  {
    !(i.Ld? && i.dst == MemHL && i.src == MemHL)
  }

  function Encode(i: Instr): u8
    requires Encodable(i)
  {
    match i
    case Ld(d, s) => 0x40 + 8 * Reg8Index(d) + Reg8Index(s)
    case LdImm(d) => 8 * Reg8Index(d) + 6
    case LdFromA(ptr) => PtrStoreOpcode(ptr)
    case LdToA(ptr) => PtrLoadOpcode(ptr)
    case Ld16Imm(rr) => 16 * PairIndex(rr) + 0x1
    case StoreSp => 0x08
    case LdSpHl => 0xF9
    case LdHlSpRel => 0xF8
    case Push(sr) => 0xC5 + 16 * StackPairIndex(sr)
    case Pop(sr) => 0xC1 + 16 * StackPairIndex(sr)
    case AluReg(k, s) => 0x80 + 8 * AluKindIndex(k) + Reg8Index(s)
    case AluImm(k) => 0xC6 + 8 * AluKindIndex(k)
    case IncDec8(r, incr) => 8 * Reg8Index(r) + (if incr then 4 else 5)
    case DaaA => 0x27
    case CplA => 0x2F
    case IncDec16(rr, incr) => 16 * PairIndex(rr) + (if incr then 0x3 else 0xB)
    case AddHlRr(rr) => 16 * PairIndex(rr) + 0x9
    case AddSpRel => 0xE8
    case Rotate(rot) => (match rot case RLCA => 0x07 case RRCA => 0x0F case RLA => 0x17 case RRA => 0x1F)
    case Ccf => 0x3F
    case Scf => 0x37
    case Nop => 0x00
    case Halt => 0x76
    case Stop => 0x10
    case Di => 0xF3
    case Ei => 0xFB
    case Jp(c) => if c.Always? then 0xC3 else 0xC2 + 8 * CondIndex(c)
    case JpHl => 0xE9
    case Jr(c) => if c.Always? then 0x18 else 0x20 + 8 * CondIndex(c)
    case Call(c) => if c.Always? then 0xCD else 0xC4 + 8 * CondIndex(c)
    case Ret(c) => if c.Always? then 0xC9 else 0xC0 + 8 * CondIndex(c)
    case Reti => 0xD9
    case Rst(n) => 0xC7 + 8 * n
  }

  function EncodeCb(i: CbInstr): u8
  {
    match i
    case Shift(op, r) => 8 * ShiftOpIndex(op) + Reg8Index(r)
    case TestBit(n, r) => 0x40 + 8 * n + Reg8Index(r)
    case ResBit(n, r) => 0x80 + 8 * n + Reg8Index(r)
    case SetBit(n, r) => 0xC0 + 8 * n + Reg8Index(r)
  }

  /** The opcodes the primary table leaves empty, plus the 0xCB prefix. */
  predicate Undefined(op: u8)
  {
    op in {0xCB, 0xD3, 0xDB, 0xDD, 0xE3, 0xE4, 0xEB, 0xEC, 0xED, 0xF4, 0xFC, 0xFD}
  }

  // ---------------------------------------------------------------------
  // Register and operand access

  function GetR(m: Machine, r: Reg8): u8
  {
    var s := m.cpu;
    match r
    case B => s.bc.hi case C => s.bc.lo
    case D => s.de.hi case E => s.de.lo
    case H => s.hl.hi case L => s.hl.lo
    case MemHL => m.mem[Get(s.hl)]
    case A => s.a
  }

  function SetR(m: Machine, r: Reg8, v: u8): Machine
  {
    var s := m.cpu;
    match r
    case B => m.(cpu := s.(bc := SetHi(s.bc, v)))
    case C => m.(cpu := s.(bc := SetLo(s.bc, v)))
    case D => m.(cpu := s.(de := SetHi(s.de, v)))
    case E => m.(cpu := s.(de := SetLo(s.de, v)))
    case H => m.(cpu := s.(hl := SetHi(s.hl, v)))
    case L => m.(cpu := s.(hl := SetLo(s.hl, v)))
    case MemHL => m.(mem := m.mem[Get(s.hl) := v])
    case A => m.(cpu := s.(a := v))
  }

  function GetPair(s: CpuState, p: Pair): u16
  {
    match p
    case PairBC => Get(s.bc)
    case PairDE => Get(s.de)
    case PairHL => Get(s.hl)
    case PairSP => s.sp
  }

  function SetPair(s: CpuState, p: Pair, v: u16): CpuState
  {
    match p
    case PairBC => s.(bc := Set(v))
    case PairDE => s.(de := Set(v))
    case PairHL => s.(hl := Set(v))
    case PairSP => s.(sp := v)
  }

  function GetStackPair(s: CpuState, p: StackPair): u16
  {
    match p
    case StackBC => Get(s.bc)
    case StackDE => Get(s.de)
    case StackHL => Get(s.hl)
    case StackAF => GetAf(s)
  }

  function SetStackPair(s: CpuState, p: StackPair, v: u16): CpuState
  {
    match p
    case StackBC => s.(bc := Set(v))
    case StackDE => s.(de := Set(v))
    case StackHL => s.(hl := Set(v))
    case StackAF => SetAf(s, v)
  }

  /** `d8`: the byte at PC, PC advanced past it. */
  function Fetch8(m: Machine): (u8, Machine)
  {
    (m.mem[m.cpu.pc], m.(cpu := m.cpu.(pc := Wrap16(m.cpu.pc + 1))))
  }

  /** `d16`/`a16`: the little-endian word at PC, PC advanced past it. */
  function Fetch16(m: Machine): (u16, Machine)
  {
    (Read16(m.mem, m.cpu.pc), m.(cpu := m.cpu.(pc := Wrap16(m.cpu.pc + 2))))
  }

  /** The address an accumulator load uses, with the side effects of
      finding it (HL post-increment/decrement, immediate bytes consumed). */
  function PtrAddr(m: Machine, ptr: Ptr): (u16, Machine)
  {
    var s := m.cpu;
    match ptr
    case AtBC => (Get(s.bc), m)
    case AtDE => (Get(s.de), m)
    case AtHLInc => (Get(s.hl), m.(cpu := s.(hl := Set(Wrap16(Get(s.hl) + 1)))))
    case AtHLDec => (Get(s.hl), m.(cpu := s.(hl := Set(Wrap16(Get(s.hl) - 1)))))
    case AtIoImm => var (lo, m') := Fetch8(m); (0xFF00 + lo, m')
    case AtIoC => (0xFF00 + s.bc.lo, m)
    case AtAbs => Fetch16(m)
  }

  function FlagValue(f: Alu.Flags, n: FlagName): bool
  {
    match n
    case FlagZero => f.z
    case FlagCarry => f.c
  }

  /** `(condition_off == 0) || (getFlag(condition_off) != negate_condition)`. */
  predicate Holds(c: Cond, f: Alu.Flags)
  {
    c.Always? || FlagValue(f, c.flag) != c.negate
  }

  // ---------------------------------------------------------------------
  // Execution

  function ApplyAlu(k: AluKind, a: u8, b: u8, f: Alu.Flags): Alu.Out8
  {
    match k
    case AddK => Alu.Add(a, b, false, f)
    case AdcK => Alu.Add(a, b, true, f)
    case SubK => Alu.Sub(a, b, false, false, f)
    case SbcK => Alu.Sub(a, b, true, false, f)
    case AndK => Alu.Logic(a, b, AndOp, true)
    case XorK => Alu.Logic(a, b, XorOp, false)
    case OrK => Alu.Logic(a, b, OrOp, false)
    case CpK => Alu.Sub(a, b, false, true, f)
  }

  function ApplyShift(op: ShiftOp, v: u8, f: Alu.Flags): Alu.Out8
  {
    match op
    case RLC => Alu.Rlc(v, false)
    case RRC => Alu.Rrc(v, false)
    case RL => Alu.Rl(v, false, f)
    case RR => Alu.Rr(v, false, f)
    case SLA => Alu.Sla(v)
    case SRA => Alu.Sra(v)
    case SWAP => Alu.Swap(v)
    case SRL => Alu.Srl(v)
  }

  /** Writes an ALU result into A and F. */
  function StoreA(m: Machine, r: Alu.Out8): Machine
  {
    m.(cpu := m.cpu.(a := r.value, f := r.flags))
  }

  /** `push`: SP drops by two and the word is stored there. */
  function PushWord(m: Machine, v: u16): (r: Machine)
    ensures r.cpu == m.cpu.(sp := Wrap16(m.cpu.sp - 2))
    ensures Read16(r.mem, r.cpu.sp) == v
  {
    var sp := Wrap16(m.cpu.sp - 2);
    Machine(m.cpu.(sp := sp), Write16(m.mem, sp, v))
  }

  /** `pop`: the word at SP, SP raised by two. */
  function PopWord(m: Machine): (u16, Machine)
  {
    (Read16(m.mem, m.cpu.sp), m.(cpu := m.cpu.(sp := Wrap16(m.cpu.sp + 2))))
  }

  /** Executes one primary instruction; PC already points past the opcode. */
  function Exec(m: Machine, i: Instr): (r: Machine)
  {
    var s := m.cpu;
    match i
    case Ld(d, src) => SetR(m, d, GetR(m, src))
    case LdImm(d) => var (v, m1) := Fetch8(m); SetR(m1, d, v)
    case LdFromA(ptr) => var (addr, m1) := PtrAddr(m, ptr); m1.(mem := m1.mem[addr := s.a])
    case LdToA(ptr) => var (addr, m1) := PtrAddr(m, ptr); m1.(cpu := m1.cpu.(a := m1.mem[addr]))
    case Ld16Imm(rr) => var (v, m1) := Fetch16(m); m1.(cpu := SetPair(m1.cpu, rr, v))
    case StoreSp => var (addr, m1) := Fetch16(m); m1.(mem := Write16(m1.mem, addr, s.sp))
    case LdSpHl => m.(cpu := s.(sp := Get(s.hl)))
    case LdHlSpRel =>
      var (e, m1) := Fetch8(m);
      var r := Alu.AddSigned(s.sp, e);
      m1.(cpu := m1.cpu.(hl := Set(r.value), f := r.flags))
    case AddSpRel =>
      var (e, m1) := Fetch8(m);
      var r := Alu.AddSigned(s.sp, e);
      m1.(cpu := m1.cpu.(sp := r.value, f := r.flags))
    case Push(sr) => PushWord(m, GetStackPair(s, sr))
    case Pop(sr) => var w := PopWord(m); w.1.(cpu := SetStackPair(w.1.cpu, sr, w.0))
    case AluReg(k, src) => StoreA(m, ApplyAlu(k, s.a, GetR(m, src), s.f))
    case AluImm(k) => var (v, m1) := Fetch8(m); StoreA(m1, ApplyAlu(k, s.a, v, s.f))
    case IncDec8(r, incr) =>
      var out := Alu.Step8(GetR(m, r), incr, s.f);
      var m1 := SetR(m, r, out.value);
      m1.(cpu := m1.cpu.(f := out.flags))
    case DaaA => StoreA(m, Alu.Daa(s.a, s.f))
    case CplA => StoreA(m, Alu.Cpl(s.a, s.f))
    case IncDec16(rr, incr) => m.(cpu := SetPair(s, rr, Alu.Step16(GetPair(s, rr), incr)))
    case AddHlRr(rr) =>
      var r := Alu.AddHl(Get(s.hl), GetPair(s, rr), s.f);
      m.(cpu := s.(hl := Set(r.value), f := r.flags))
    case Rotate(rot) =>
      StoreA(m, match rot
                case RLCA => Alu.Rlc(s.a, true)
                case RRCA => Alu.Rrc(s.a, true)
                case RLA => Alu.Rl(s.a, true, s.f)
                case RRA => Alu.Rr(s.a, true, s.f))
    case Ccf => m.(cpu := s.(f := s.f.(n := false, h := false, c := !s.f.c)))
    case Scf => m.(cpu := s.(f := s.f.(n := false, h := false, c := true)))
    case Nop => m
    case Halt => m.(cpu := s.(halted := true))
    case Stop => m
    case Di => m.(cpu := s.(ime := false))
    case Ei => m.(cpu := s.(ime := true))
    case Jp(c) =>
      var (addr, m1) := Fetch16(m);
      if Holds(c, s.f) then m1.(cpu := m1.cpu.(pc := addr)) else m1
    case JpHl => m.(cpu := s.(pc := Get(s.hl)))
    case Jr(c) =>
      var (off, m1) := Fetch8(m);
      if Holds(c, s.f) then m1.(cpu := m1.cpu.(pc := Wrap16(m1.cpu.pc + Alu.Signed(off)))) else m1
    case Call(c) =>
      var (addr, m1) := Fetch16(m);
      if Holds(c, s.f) then CallTo(m1, addr) else m1
    case Ret(c) => if Holds(c, s.f) then ReturnFrom(m) else m
    case Reti => var m1 := ReturnFrom(m); m1.(cpu := m1.cpu.(ime := true))
    case Rst(n) => CallTo(m, 8 * n)
  }

  /** `call` once its condition holds: push the return address, jump. */
  function CallTo(m: Machine, addr: u16): (r: Machine)
    ensures r.cpu == m.cpu.(sp := Wrap16(m.cpu.sp - 2), pc := addr)
    ensures Read16(r.mem, r.cpu.sp) == m.cpu.pc
  {
    var m1 := PushWord(m, m.cpu.pc);
    m1.(cpu := m1.cpu.(pc := addr))
  }

  /** `ret` once its condition holds: PC popped from the stack. */
  function ReturnFrom(m: Machine): (r: Machine)
    ensures r.cpu == m.cpu.(pc := Read16(m.mem, m.cpu.sp), sp := Wrap16(m.cpu.sp + 2))
    ensures r.mem == m.mem
  {
    var (v, m1) := PopWord(m);
    m1.(cpu := m1.cpu.(pc := v))
  }

  /** Only HALT sets the halted flag, and only DI, EI and RETI touch IME. */
  lemma ExecControl(m: Machine, i: Instr)
    ensures Exec(m, i).cpu.halted == (m.cpu.halted || i == Halt)
    ensures Exec(m, i).cpu.ime == (if i == Di then false else if i == Ei || i == Reti then true else m.cpu.ime)
  {
    if i.Ld? || i.LdImm? || i.LdFromA? || i.LdToA? || i.Ld16Imm? || i.StoreSp? || i.LdSpHl? || i.LdHlSpRel? {
      LoadsKeepControl(m, i);
    } else if i.Push? || i.Pop? || i.AluReg? || i.AluImm? || i.IncDec8? || i.IncDec16? {
      ArithKeepsControl(m, i);
    } else if i.DaaA? || i.CplA? || i.AddHlRr? || i.AddSpRel? || i.Rotate? || i.Ccf? || i.Scf? {
      AccumulatorKeepsControl(m, i);
    } else if i.Jp? || i.JpHl? || i.Jr? || i.Call? || i.Ret? || i.Rst? {
      JumpsKeepControl(m, i);
    } else {
      ControlFlowFlags(m, i);
    }
  }

  lemma LoadsKeepControl(m: Machine, i: Instr)
    requires i.Ld? || i.LdImm? || i.LdFromA? || i.LdToA? || i.Ld16Imm? || i.StoreSp? || i.LdSpHl? || i.LdHlSpRel?
    ensures Exec(m, i).cpu.halted == m.cpu.halted && Exec(m, i).cpu.ime == m.cpu.ime
  {
  }

  lemma ArithKeepsControl(m: Machine, i: Instr)
    requires i.Push? || i.Pop? || i.AluReg? || i.AluImm? || i.IncDec8? || i.IncDec16?
    ensures Exec(m, i).cpu.halted == m.cpu.halted && Exec(m, i).cpu.ime == m.cpu.ime
  {
  }

  lemma AccumulatorKeepsControl(m: Machine, i: Instr)
    requires i.DaaA? || i.CplA? || i.AddHlRr? || i.AddSpRel? || i.Rotate? || i.Ccf? || i.Scf?
    ensures Exec(m, i).cpu.halted == m.cpu.halted && Exec(m, i).cpu.ime == m.cpu.ime
  {
  }

  lemma JumpsKeepControl(m: Machine, i: Instr)
    requires i.Jp? || i.JpHl? || i.Jr? || i.Call? || i.Ret? || i.Rst?
    ensures Exec(m, i).cpu.halted == m.cpu.halted && Exec(m, i).cpu.ime == m.cpu.ime
  {
  }

  lemma ControlFlowFlags(m: Machine, i: Instr)
    requires i.Nop? || i.Halt? || i.Stop? || i.Di? || i.Ei? || i.Reti?
    ensures Exec(m, i).cpu.halted == (m.cpu.halted || i == Halt)
    ensures Exec(m, i).cpu.ime == (if i == Di then false else if i == Ei || i == Reti then true else m.cpu.ime)
  {
  }

  /** Executes one 0xCB-prefixed instruction. */
  function ExecCb(m: Machine, i: CbInstr): (r: Machine)
    ensures r.cpu.pc == m.cpu.pc && r.cpu.sp == m.cpu.sp
    ensures r.cpu.ime == m.cpu.ime && r.cpu.halted == m.cpu.halted
    ensures i.TestBit? ==> r == m.(cpu := m.cpu.(f := r.cpu.f)) && r.cpu.f.c == m.cpu.f.c
    ensures i.ResBit? || i.SetBit? ==> r.cpu.f == m.cpu.f
  {
    var s := m.cpu;
    match i
    case Shift(op, r) =>
      var out := ApplyShift(op, GetR(m, r), s.f);
      var m1 := SetR(m, r, out.value);
      m1.(cpu := m1.cpu.(f := out.flags))
    case TestBit(n, r) => m.(cpu := s.(f := Alu.TestBit(GetR(m, r), n, s.f)))
    case ResBit(n, r) => SetR(m, r, Alu.SetRes(GetR(m, r), n, false))
    case SetBit(n, r) => SetR(m, r, Alu.SetRes(GetR(m, r), n, true))
  }

  // ---------------------------------------------------------------------
  // Interrupts and the step function

  /** The index of the lowest set bit of `x` at or above `k`, 8 if none:
      the scan loop of `check_for_interrupt`. */
  function LowestSetBit(x: u8, k: nat): (n: nat)
    requires k <= 8
    ensures k <= n <= 8
    ensures n < 8 ==> Bit(x, n)
    ensures forall j :: k <= j < n ==> !Bit(x, j)
    decreases 8 - k
  {
    if k == 8 || Bit(x, k) then k else LowestSetBit(x, k + 1)
  }

  datatype InterruptCheck =
    | NotServiced(m: Machine)
    | Serviced(m: Machine)
    | InvalidInterrupt(bit: nat)

  /** `check_for_interrupt`. A pending interrupt wakes a halted CPU even with
      IME clear, but is vectored only with IME set. A pending bit above 4
      ends the program. */
  function CheckForInterrupt(m: Machine): (r: InterruptCheck)
    ensures !m.cpu.ime && !m.cpu.halted ==> r == NotServiced(m)
    ensures r.Serviced? <==> m.cpu.ime && Pending(m) != 0 && LowestSetBit(Pending(m), 0) <= 4
    ensures r.InvalidInterrupt? <==> m.cpu.ime && Pending(m) != 0 && LowestSetBit(Pending(m), 0) > 4
    ensures r.InvalidInterrupt? ==> r.bit == LowestSetBit(Pending(m), 0)
    ensures r.NotServiced? ==> r.m.mem == m.mem && r.m.cpu == m.cpu.(halted := r.m.cpu.halted)
    ensures r.NotServiced? ==> (r.m.cpu.halted <==> m.cpu.halted && Pending(m) == 0)
    ensures r.Serviced? ==>
              && r.m.cpu == m.cpu.(halted := false, ime := false, sp := Wrap16(m.cpu.sp - 2), pc := r.m.cpu.pc)
              && Read16(r.m.mem, r.m.cpu.sp) == m.cpu.pc
  {
    var s := m.cpu;
    if !s.ime && !s.halted then NotServiced(m)
    else
      var triggered := And8(m.mem[AddrIE], m.mem[AddrIF]);
      if triggered == 0 then NotServiced(m)
      else if !s.ime then NotServiced(m.(cpu := s.(halted := false)))
      else
        var n := LowestSetBit(triggered, 0);
        if n > 4 then InvalidInterrupt(n)
        else
          var mem1 := m.mem[AddrIF := ClearBit8(m.mem[AddrIF], n)];
          var sp := Wrap16(s.sp - 2);
          var mem2 := Write16(mem1, sp, s.pc);
          Serviced(Machine(s.(halted := false, ime := false, sp := sp, pc := Or8(0x40, 8 * n)), mem2))
  }

  datatype Fault = IllegalOpcode(op: u8) | BadInterrupt(bit: nat)

  /** What one call of `step` does: the new machine, the machine cycles it
      reports, and whether STOP asked the bus to switch speed. */
  datatype StepOutcome =
    | Stepped(m: Machine, mcycles: nat, switchSpeed: bool)
    | Crashed(fault: Fault)

  /** The ordinary half of `step`, for a running CPU with no interrupt
      serviced: clear a pending serial transfer, fetch the opcode at PC (and
      the CB-prefixed one after it) and execute it. */
  function FetchExecute(m: Machine, mcycles: seq<nat>, cbMcycles: seq<nat>): (r: StepOutcome)
    requires |mcycles| == 256 && |cbMcycles| == 256
    ensures m.mem[AddrSerialControl] != 0x81 && m.mem[m.cpu.pc] != 0xCB && Decode(m.mem[m.cpu.pc]).Some? ==>
              var i := Decode(m.mem[m.cpu.pc]).value;
              r == Stepped(Exec(m.(cpu := m.cpu.(pc := Wrap16(m.cpu.pc + 1))), i),
                           mcycles[m.mem[m.cpu.pc]], i == Stop)
  {
    var m2 := if m.mem[AddrSerialControl] == 0x81 then m.(mem := m.mem[AddrSerialControl := 0]) else m;
    var (op, m3) := Fetch8(m2);
    if op == 0xCB then
      var (cb, m4) := Fetch8(m3);
      Stepped(ExecCb(m4, DecodeCb(cb)), cbMcycles[cb], false)
    else
      match Decode(op)
      case None => Crashed(IllegalOpcode(op))
      case Some(i) => Stepped(Exec(m3, i), mcycles[op], i == Stop)
  }

  /** `step`. The cycle tables are not part of the source shown, so they are
      parameters, indexed by opcode. */
  function Step(m: Machine, mcycles: seq<nat>, cbMcycles: seq<nat>): (r: StepOutcome)
    requires |mcycles| == 256 && |cbMcycles| == 256
    ensures m.cpu.ime && Pending(m) != 0 ==> r.Crashed? || (r.mcycles == 4 && !r.switchSpeed)
    ensures m.cpu.halted && Pending(m) == 0 ==> r == Stepped(m, 1, false)
    ensures r == Crashed(BadInterrupt(LowestSetBit(Pending(m), 0))) <==>
              m.cpu.ime && Pending(m) != 0 && LowestSetBit(Pending(m), 0) > 4
    ensures !m.cpu.halted && (!m.cpu.ime || Pending(m) == 0) ==> r == FetchExecute(m, mcycles, cbMcycles)
  {
    match CheckForInterrupt(m)
    case InvalidInterrupt(n) => Crashed(BadInterrupt(n))
    case Serviced(m1) => Stepped(m1, 4, false)
    case NotServiced(m1) =>
      if m1.cpu.halted then Stepped(m1, 1, false) else FetchExecute(m1, mcycles, cbMcycles)
  }

  // ---------------------------------------------------------------------
  // Decoding lemmas

  lemma OpcodeFields(op: int, x: int, y: int, z: int)
    requires 0 <= x && 0 <= y < 8 && 0 <= z < 8 && op == 64 * x + 8 * y + z
    ensures op / 64 == x && (op / 8) % 8 == y && op % 8 == z
  {
    assert op / 8 == 8 * x + y;
  }

  /** Every encodable instruction sits at the opcode `Encode` gives it. */
  lemma DecodeOfEncode(i: Instr)
    requires Encodable(i)
    ensures Decode(Encode(i)) == Some(i)
  {
    match i
    case Ld(d, s) => DecodeOfEncodeLd(d, s);
    case AluReg(k, s) => DecodeOfEncodeAluReg(k, s);
    case LdImm(d) => DecodeOfEncodeLdImm(d);
    case Ld16Imm(rr) => DecodeOfEncodeLd16Imm(rr);
    case IncDec8(r, incr) => DecodeOfEncodeIncDec8(r, incr);
    case IncDec16(rr, incr) => DecodeOfEncodeIncDec16(rr, incr);
    case AddHlRr(rr) => DecodeOfEncodeAddHlRr(rr);
    case Jr(c) => DecodeOfEncodeJr(c);
    case Push(sr) => DecodeOfEncodePush(sr);
    case Pop(sr) => DecodeOfEncodePop(sr);
    case AluImm(k) => DecodeOfEncodeAluImm(k);
    case Jp(c) => DecodeOfEncodeJp(c);
    case Call(c) => DecodeOfEncodeCall(c);
    case Ret(c) => DecodeOfEncodeRet(c);
    case Rst(n) => DecodeOfEncodeRst(n);
    case LdFromA(ptr) => DecodeOfEncodePtr(ptr);
    case LdToA(ptr) => DecodeOfEncodePtr(ptr);
    case Rotate(rot) => DecodeOfEncodeRotate(rot);
    case _ => DecodeOfEncodeFixed(i);
  }

  lemma DecodeOfEncodeLd(d: Reg8, s: Reg8)
    requires !(d == MemHL && s == MemHL)
    ensures Decode(Encode(Ld(d, s))) == Some(Ld(d, s))
  {
    OpcodeFields(Encode(Ld(d, s)), 1, Reg8Index(d), Reg8Index(s));
  }

  lemma DecodeOfEncodeAluReg(k: AluKind, s: Reg8)
    ensures Decode(Encode(AluReg(k, s))) == Some(AluReg(k, s))
  {
    OpcodeFields(Encode(AluReg(k, s)), 2, AluKindIndex(k), Reg8Index(s));
  }

  lemma DecodeOfEncodeLdImm(d: Reg8)
    ensures Decode(Encode(LdImm(d))) == Some(LdImm(d))
  {
    OpcodeFields(Encode(LdImm(d)), 0, Reg8Index(d), 6);
  }

  lemma DecodeOfEncodeLd16Imm(rr: Pair)
    ensures Decode(Encode(Ld16Imm(rr))) == Some(Ld16Imm(rr))
  {
    OpcodeFields(Encode(Ld16Imm(rr)), 0, 2 * PairIndex(rr), 1);
  }

  lemma DecodeOfEncodeIncDec8(r: Reg8, incr: bool)
    ensures Decode(Encode(IncDec8(r, incr))) == Some(IncDec8(r, incr))
  {
    OpcodeFields(Encode(IncDec8(r, incr)), 0, Reg8Index(r), if incr then 4 else 5);
  }

  lemma DecodeOfEncodeIncDec16(rr: Pair, incr: bool)
    ensures Decode(Encode(IncDec16(rr, incr))) == Some(IncDec16(rr, incr))
  {
    OpcodeFields(Encode(IncDec16(rr, incr)), 0, 2 * PairIndex(rr) + (if incr then 0 else 1), 3);
  }

  lemma DecodeOfEncodeAddHlRr(rr: Pair)
    ensures Decode(Encode(AddHlRr(rr))) == Some(AddHlRr(rr))
  {
    OpcodeFields(Encode(AddHlRr(rr)), 0, 2 * PairIndex(rr) + 1, 1);
  }

  lemma DecodeOfEncodeJr(c: Cond)
    ensures Decode(Encode(Jr(c))) == Some(Jr(c))
  {
    if c.IfFlag? { OpcodeFields(Encode(Jr(c)), 0, CondIndex(c) + 4, 0); }
  }

  lemma DecodeOfEncodePush(sr: StackPair)
    ensures Decode(Encode(Push(sr))) == Some(Push(sr))
  {
    OpcodeFields(Encode(Push(sr)), 3, 2 * StackPairIndex(sr), 5);
  }

  lemma DecodeOfEncodePop(sr: StackPair)
    ensures Decode(Encode(Pop(sr))) == Some(Pop(sr))
  {
    OpcodeFields(Encode(Pop(sr)), 3, 2 * StackPairIndex(sr), 1);
  }

  lemma DecodeOfEncodeAluImm(k: AluKind)
    ensures Decode(Encode(AluImm(k))) == Some(AluImm(k))
  {
    OpcodeFields(Encode(AluImm(k)), 3, AluKindIndex(k), 6);
  }

  lemma DecodeOfEncodeJp(c: Cond)
    ensures Decode(Encode(Jp(c))) == Some(Jp(c))
  {
    if c.IfFlag? { OpcodeFields(Encode(Jp(c)), 3, CondIndex(c), 2); }
  }

  lemma DecodeOfEncodeCall(c: Cond)
    ensures Decode(Encode(Call(c))) == Some(Call(c))
  {
    if c.IfFlag? { OpcodeFields(Encode(Call(c)), 3, CondIndex(c), 4); }
  }

  lemma DecodeOfEncodeRet(c: Cond)
    ensures Decode(Encode(Ret(c))) == Some(Ret(c))
  {
    if c.IfFlag? { OpcodeFields(Encode(Ret(c)), 3, CondIndex(c), 0); }
  }

  lemma DecodeOfEncodeRst(n: BitIndex)
    ensures Decode(Encode(Rst(n))) == Some(Rst(n))
  {
    OpcodeFields(Encode(Rst(n)), 3, n, 7);
  }

  lemma DecodeOfEncodeRotate(rot: RotA)
    ensures Decode(Encode(Rotate(rot))) == Some(Rotate(rot))
  {
    match rot
    case RLCA => case RRCA => case RLA => case RRA =>
  }

  /** The instructions without operands. */
  lemma DecodeOfEncodeFixed(i: Instr)
    requires i in {StoreSp, LdSpHl, LdHlSpRel, DaaA, CplA, AddSpRel, Ccf, Scf, Nop, Halt, Stop, Di, Ei, JpHl, Reti}
    ensures Decode(Encode(i)) == Some(i)
  {
    if i in {StoreSp, LdSpHl, LdHlSpRel, DaaA, CplA, AddSpRel, Ccf} {
      DecodeOfEncodeFixedA(i);
    } else {
      DecodeOfEncodeFixedB(i);
    }
  }

  lemma DecodeOfEncodeFixedA(i: Instr)
    requires i in {StoreSp, LdSpHl, LdHlSpRel, DaaA, CplA, AddSpRel, Ccf}
    ensures Decode(Encode(i)) == Some(i)
  {
  }

  lemma DecodeOfEncodeFixedB(i: Instr)
    requires i in {Scf, Nop, Halt, Stop, Di, Ei, JpHl, Reti}
    ensures Decode(Encode(i)) == Some(i)
  {
  }

  lemma DecodeOfEncodePtr(ptr: Ptr)
    ensures Decode(Encode(LdFromA(ptr))) == Some(LdFromA(ptr))
    ensures Decode(Encode(LdToA(ptr))) == Some(LdToA(ptr))
  {
    DecodeOfEncodeStore(ptr);
    DecodeOfEncodeLoad(ptr);
  }

  lemma DecodeOfEncodeStore(ptr: Ptr)
    ensures Decode(Encode(LdFromA(ptr))) == Some(LdFromA(ptr))
  {
    if ptr in {AtBC, AtDE, AtHLInc, AtHLDec} {
      DecodeOfEncodeStoreLow(ptr);
    } else {
      DecodeOfEncodeStoreHigh(ptr);
    }
  }

  lemma DecodeOfEncodeStoreLow(ptr: Ptr)
    requires ptr in {AtBC, AtDE, AtHLInc, AtHLDec}
    ensures Decode(Encode(LdFromA(ptr))) == Some(LdFromA(ptr))
  {
  }

  lemma DecodeOfEncodeStoreHigh(ptr: Ptr)
    requires ptr in {AtIoImm, AtIoC, AtAbs}
    ensures Decode(Encode(LdFromA(ptr))) == Some(LdFromA(ptr))
  {
  }

  lemma DecodeOfEncodeLoad(ptr: Ptr)
    ensures Decode(Encode(LdToA(ptr))) == Some(LdToA(ptr))
  {
    if ptr in {AtBC, AtDE, AtHLInc, AtHLDec} {
      DecodeOfEncodeLoadLow(ptr);
    } else {
      DecodeOfEncodeLoadHigh(ptr);
    }
  }

  lemma DecodeOfEncodeLoadLow(ptr: Ptr)
    requires ptr in {AtBC, AtDE, AtHLInc, AtHLDec}
    ensures Decode(Encode(LdToA(ptr))) == Some(LdToA(ptr))
  {
  }

  lemma DecodeOfEncodeLoadHigh(ptr: Ptr)
    requires ptr in {AtIoImm, AtIoC, AtAbs}
    ensures Decode(Encode(LdToA(ptr))) == Some(LdToA(ptr))
  {
  }

  /** Every defined opcode is the encoding of what it decodes to, and the
      opcodes that decode to nothing are exactly the undefined ones. */
  lemma EncodeOfDecode(op: u8)
    ensures Decode(op).Some? ==> Encodable(Decode(op).value) && Encode(Decode(op).value) == op
    ensures Decode(op).None? <==> Undefined(op)
  {
    var x, y, z := SplitOpcode(op);
    if x == 0 {
      EncodeOfDecodeLow(y, z);
    } else if x == 1 {
      EncodeOfDecodeLd(y, z);
    } else if x == 2 {
      EncodeOfDecodeAlu(y, z);
    } else {
      EncodeOfDecodeHigh(y, z);
    }
  }

  /** The three opcode fields. */
  lemma SplitOpcode(op: u8) returns (x: nat, y: nat, z: nat)
    ensures x == op / 64 && y == (op / 8) % 8 && z == op % 8
    ensures x < 4 && op == 64 * x + 8 * y + z
  {
    x, y, z := op / 64, (op / 8) % 8, op % 8;
  }

  lemma EncodeOfDecodeLd(y: nat, z: nat)
    requires y < 8 && z < 8
    ensures var op := 0x40 + 8 * y + z;
      Decode(op).Some? && Encodable(Decode(op).value) && Encode(Decode(op).value) == op && !Undefined(op)
  {
    OpcodeFields(0x40 + 8 * y + z, 1, y, z);
  }

  lemma EncodeOfDecodeAlu(y: nat, z: nat)
    requires y < 8 && z < 8
    ensures var op := 0x80 + 8 * y + z;
      Decode(op).Some? && Encodable(Decode(op).value) && Encode(Decode(op).value) == op && !Undefined(op)
  {
    OpcodeFields(0x80 + 8 * y + z, 2, y, z);
  }

  lemma EncodeOfDecodeLow(y: nat, z: nat)
    requires y < 8 && z < 8
    ensures Decode(8 * y + z) == Some(DecodeLow(y, z))
    ensures Encodable(DecodeLow(y, z)) && Encode(DecodeLow(y, z)) == 8 * y + z
    ensures !Undefined(8 * y + z)
  {
    DecodeAtLow(y, z);
    EncodeLowAt(y, z);
  }

  lemma DecodeAtLow(y: nat, z: nat)
    requires y < 8 && z < 8
    ensures Decode(8 * y + z) == Some(DecodeLow(y, z)) && !Undefined(8 * y + z)
  {
    OpcodeFields(8 * y + z, 0, y, z);
  }

  lemma EncodeLowAt(y: nat, z: nat)
    requires y < 8 && z < 8
    ensures Encodable(DecodeLow(y, z)) && Encode(DecodeLow(y, z)) == 8 * y + z
  {
    match z
    case 0 => EncodeOfDecodeLow0(y);
    case 1 => EncodeOfDecodeLow1(y);
    case 2 => EncodeOfDecodeLow2(y);
    case 3 => EncodeOfDecodeLow3(y);
    case 4 => EncodeOfDecodeLow4(y);
    case 5 => EncodeOfDecodeLow5(y);
    case 6 => EncodeOfDecodeLow6(y);
    case 7 => EncodeOfDecodeLow7(y);
  }

  lemma EncodeOfDecodeLow0(y: nat)
    requires y < 8
    ensures Encodable(DecodeLow(y, 0)) && Encode(DecodeLow(y, 0)) == 8 * y + 0
  {
    assert y in {0, 1, 2, 3, 4, 5, 6, 7};
  }

  lemma EncodeOfDecodeLow1(y: nat)
    requires y < 8
    ensures Encodable(DecodeLow(y, 1)) && Encode(DecodeLow(y, 1)) == 8 * y + 1
  {
    assert y in {0, 1, 2, 3, 4, 5, 6, 7};
  }

  lemma EncodeOfDecodeLow2(y: nat)
    requires y < 8
    ensures Encodable(DecodeLow(y, 2)) && Encode(DecodeLow(y, 2)) == 8 * y + 2
  {
    assert y in {0, 1, 2, 3, 4, 5, 6, 7};
  }

  lemma EncodeOfDecodeLow3(y: nat)
    requires y < 8
    ensures Encodable(DecodeLow(y, 3)) && Encode(DecodeLow(y, 3)) == 8 * y + 3
  {
    assert y in {0, 1, 2, 3, 4, 5, 6, 7};
  }

  lemma EncodeOfDecodeLow4(y: nat)
    requires y < 8
    ensures Encodable(DecodeLow(y, 4)) && Encode(DecodeLow(y, 4)) == 8 * y + 4
  {
    assert y in {0, 1, 2, 3, 4, 5, 6, 7};
  }

  lemma EncodeOfDecodeLow5(y: nat)
    requires y < 8
    ensures Encodable(DecodeLow(y, 5)) && Encode(DecodeLow(y, 5)) == 8 * y + 5
  {
    assert y in {0, 1, 2, 3, 4, 5, 6, 7};
  }

  lemma EncodeOfDecodeLow6(y: nat)
    requires y < 8
    ensures Encodable(DecodeLow(y, 6)) && Encode(DecodeLow(y, 6)) == 8 * y + 6
  {
    assert y in {0, 1, 2, 3, 4, 5, 6, 7};
  }

  lemma EncodeOfDecodeLow7(y: nat)
    requires y < 8
    ensures Encodable(DecodeLow(y, 7)) && Encode(DecodeLow(y, 7)) == 8 * y + 7
  {
    assert y in {0, 1, 2, 3, 4, 5, 6, 7};
  }

  lemma EncodeOfDecodeHigh(y: nat, z: nat)
    requires y < 8 && z < 8
    ensures var op := 0xC0 + 8 * y + z;
      && Decode(op) == DecodeHigh(y, z)
      && (DecodeHigh(y, z).Some? ==> Encodable(DecodeHigh(y, z).value) && Encode(DecodeHigh(y, z).value) == op)
      && (DecodeHigh(y, z).None? <==> Undefined(op))
  {
    DecodeAtHigh(y, z);
    EncodeHighAt(y, z);
  }

  lemma DecodeAtHigh(y: nat, z: nat)
    requires y < 8 && z < 8
    ensures Decode(0xC0 + 8 * y + z) == DecodeHigh(y, z)
  {
    OpcodeFields(0xC0 + 8 * y + z, 3, y, z);
  }

  lemma EncodeHighAt(y: nat, z: nat)
    requires y < 8 && z < 8
    ensures DecodeHigh(y, z).Some? ==>
              Encodable(DecodeHigh(y, z).value) && Encode(DecodeHigh(y, z).value) == 0xC0 + 8 * y + z
    ensures DecodeHigh(y, z).None? <==> Undefined(0xC0 + 8 * y + z)
  {
    match z
    case 0 => EncodeOfDecodeHigh0(y);
    case 1 => EncodeOfDecodeHigh1(y);
    case 2 => EncodeOfDecodeHigh2(y);
    case 3 => EncodeOfDecodeHigh3(y);
    case 4 => EncodeOfDecodeHigh4(y);
    case 5 => EncodeOfDecodeHigh5(y);
    case 6 => EncodeOfDecodeHigh6(y);
    case 7 => EncodeOfDecodeHigh7(y);
  }

  lemma EncodeOfDecodeHigh0(y: nat)
    requires y < 8
    ensures DecodeHigh(y, 0).Some? ==>
              Encodable(DecodeHigh(y, 0).value) && Encode(DecodeHigh(y, 0).value) == 0xC0 + 8 * y + 0
    ensures DecodeHigh(y, 0).None? <==> Undefined(0xC0 + 8 * y + 0)
  {
    assert y in {0, 1, 2, 3, 4, 5, 6, 7};
  }

  lemma EncodeOfDecodeHigh1(y: nat)
    requires y < 8
    ensures DecodeHigh(y, 1).Some? ==>
              Encodable(DecodeHigh(y, 1).value) && Encode(DecodeHigh(y, 1).value) == 0xC0 + 8 * y + 1
    ensures DecodeHigh(y, 1).None? <==> Undefined(0xC0 + 8 * y + 1)
  {
    assert y in {0, 1, 2, 3, 4, 5, 6, 7};
  }

  lemma EncodeOfDecodeHigh2(y: nat)
    requires y < 8
    ensures DecodeHigh(y, 2).Some? ==>
              Encodable(DecodeHigh(y, 2).value) && Encode(DecodeHigh(y, 2).value) == 0xC0 + 8 * y + 2
    ensures DecodeHigh(y, 2).None? <==> Undefined(0xC0 + 8 * y + 2)
  {
    assert y in {0, 1, 2, 3, 4, 5, 6, 7};
  }

  lemma EncodeOfDecodeHigh3(y: nat)
    requires y < 8
    ensures DecodeHigh(y, 3).Some? ==>
              Encodable(DecodeHigh(y, 3).value) && Encode(DecodeHigh(y, 3).value) == 0xC0 + 8 * y + 3
    ensures DecodeHigh(y, 3).None? <==> Undefined(0xC0 + 8 * y + 3)
  {
    assert y in {0, 1, 2, 3, 4, 5, 6, 7};
  }

  lemma EncodeOfDecodeHigh4(y: nat)
    requires y < 8
    ensures DecodeHigh(y, 4).Some? ==>
              Encodable(DecodeHigh(y, 4).value) && Encode(DecodeHigh(y, 4).value) == 0xC0 + 8 * y + 4
    ensures DecodeHigh(y, 4).None? <==> Undefined(0xC0 + 8 * y + 4)
  {
    assert y in {0, 1, 2, 3, 4, 5, 6, 7};
  }

  lemma EncodeOfDecodeHigh5(y: nat)
    requires y < 8
    ensures DecodeHigh(y, 5).Some? ==>
              Encodable(DecodeHigh(y, 5).value) && Encode(DecodeHigh(y, 5).value) == 0xC0 + 8 * y + 5
    ensures DecodeHigh(y, 5).None? <==> Undefined(0xC0 + 8 * y + 5)
  {
    assert y in {0, 1, 2, 3, 4, 5, 6, 7};
  }

  lemma EncodeOfDecodeHigh6(y: nat)
    requires y < 8
    ensures DecodeHigh(y, 6).Some? ==>
              Encodable(DecodeHigh(y, 6).value) && Encode(DecodeHigh(y, 6).value) == 0xC0 + 8 * y + 6
    ensures DecodeHigh(y, 6).None? <==> Undefined(0xC0 + 8 * y + 6)
  {
    assert y in {0, 1, 2, 3, 4, 5, 6, 7};
  }

  lemma EncodeOfDecodeHigh7(y: nat)
    requires y < 8
    ensures DecodeHigh(y, 7).Some? ==>
              Encodable(DecodeHigh(y, 7).value) && Encode(DecodeHigh(y, 7).value) == 0xC0 + 8 * y + 7
    ensures DecodeHigh(y, 7).None? <==> Undefined(0xC0 + 8 * y + 7)
  {
    assert y in {0, 1, 2, 3, 4, 5, 6, 7};
  }

  lemma DecodeCbRoundTrip(op: u8, i: CbInstr)
    ensures EncodeCb(DecodeCb(op)) == op
    ensures DecodeCb(EncodeCb(i)) == i
  {
    EncodeOfDecodeCb(op);
    DecodeOfEncodeCb(i);
  }

  lemma EncodeOfDecodeCb(op: u8)
    ensures EncodeCb(DecodeCb(op)) == op
  {
    var x, y, z := op / 64, (op / 8) % 8, op % 8;
    assert op == 64 * x + 8 * y + z;
    Reg8IndexAt(z);
    ShiftOpIndexAt(y);
  }

  lemma Reg8IndexAt(i: nat)
    requires i < 8
    ensures Reg8Index(Reg8At(i)) == i
  {
  }

  lemma ShiftOpIndexAt(i: nat)
    requires i < 8
    ensures ShiftOpIndex(ShiftOpAt(i)) == i
  {
  }

  lemma DecodeOfEncodeCb(i: CbInstr)
    ensures DecodeCb(EncodeCb(i)) == i
  {
    match i
    case Shift(sop, r) => OpcodeFields(EncodeCb(i), 0, ShiftOpIndex(sop), Reg8Index(r));
    case TestBit(n, r) => OpcodeFields(EncodeCb(i), 1, n, Reg8Index(r));
    case ResBit(n, r) => OpcodeFields(EncodeCb(i), 2, n, Reg8Index(r));
    case SetBit(n, r) => OpcodeFields(EncodeCb(i), 3, n, Reg8Index(r));
  }

  // ---------------------------------------------------------------------
  // Interrupt and HALT lemmas

  /** The interrupts both enabled (IE) and requested (IF). */
  function Pending(m: Machine): u8
  {
    And8(m.mem[AddrIE], m.mem[AddrIF])
  }

  /** The interrupt `check_for_interrupt` picks is the lowest one that is
      both enabled and requested. */
  lemma {:induction false} ChosenInterrupt(m: Machine)
    requires Pending(m) != 0
    ensures LowestSetBit(Pending(m), 0) < 8
    ensures Bit(m.mem[AddrIE], LowestSetBit(Pending(m), 0)) && Bit(m.mem[AddrIF], LowestSetBit(Pending(m), 0))
    ensures forall j :: 0 <= j < LowestSetBit(Pending(m), 0) ==> !(Bit(m.mem[AddrIE], j) && Bit(m.mem[AddrIF], j))
  {
    var t := Pending(m);
    var n := LowestSetBit(t, 0);
    if n == 8 {
      assert Pow2(8) == 256;
      NoBitIsZero(t, 8);
    }
    CombineBit(AndOp, m.mem[AddrIE], m.mem[AddrIF], 8, n);
    forall j | 0 <= j < n
      ensures !(Bit(m.mem[AddrIE], j) && Bit(m.mem[AddrIF], j))
    {
      CombineBit(AndOp, m.mem[AddrIE], m.mem[AddrIF], 8, j);
    }
  }

  /** Interrupt `n` jumps to 0x40 + 8n: the OR with 0x40 is an addition. */
  lemma VectorAddress(n: nat)
    requires n <= 4
    ensures Or8(0x40, 8 * n) == 0x40 + 8 * n
  {
    assert Pow2(6) == 0x40 by {
      assert Pow2(1) == 2 && Pow2(2) == 4 && Pow2(3) == 8 && Pow2(4) == 16 && Pow2(5) == 32;
    }
    OrHighBit(8 * n, 6, 8);
  }

  /** With IME set and an interrupt pending, `step` services the lowest
      pending interrupt within 4 machine cycles: IME and HALT are cleared,
      the old PC is pushed, PC jumps to the vector and only that IF bit is
      cleared (unless the push itself lands on IF). */
  lemma InterruptServiced(m: Machine, mcycles: seq<nat>, cbMcycles: seq<nat>)
    requires |mcycles| == 256 && |cbMcycles| == 256
    requires m.cpu.ime && Pending(m) != 0 && LowestSetBit(Pending(m), 0) <= 4
    ensures var n := LowestSetBit(Pending(m), 0);
      var sp := Wrap16(m.cpu.sp - 2);
      && Step(m, mcycles, cbMcycles).Stepped?
      && Step(m, mcycles, cbMcycles).mcycles == 4
      && !Step(m, mcycles, cbMcycles).switchSpeed
      && Step(m, mcycles, cbMcycles).m.cpu == m.cpu.(ime := false, halted := false, sp := sp, pc := 0x40 + 8 * n)
      && Read16(Step(m, mcycles, cbMcycles).m.mem, sp) == m.cpu.pc
      && (sp != AddrIF && Wrap16(sp + 1) != AddrIF ==>
            forall j :: 0 <= j < 8 ==>
              (Bit(Step(m, mcycles, cbMcycles).m.mem[AddrIF], j) <==> j != n && Bit(m.mem[AddrIF], j)))
  {
    var n := LowestSetBit(Pending(m), 0);
    var sp := Wrap16(m.cpu.sp - 2);
    var mem1 := m.mem[AddrIF := ClearBit8(m.mem[AddrIF], n)];
    var mem2 := Write16(mem1, sp, m.cpu.pc);
    var m1 := Machine(m.cpu.(halted := false, ime := false, sp := sp, pc := 0x40 + 8 * n), mem2);
    ServicedCheck(m);
    ServicedStep(m, mcycles, cbMcycles, m1);
    ClearedBits(m.mem[AddrIF], n);
  }

  /** The serviced branch of `check_for_interrupt`, with the vector written
      as a sum. */
  lemma ServicedCheck(m: Machine)
    requires m.cpu.ime && Pending(m) != 0 && LowestSetBit(Pending(m), 0) <= 4
    ensures var n := LowestSetBit(Pending(m), 0);
      var sp := Wrap16(m.cpu.sp - 2);
      var mem1 := m.mem[AddrIF := ClearBit8(m.mem[AddrIF], n)];
      CheckForInterrupt(m) ==
        Serviced(Machine(m.cpu.(halted := false, ime := false, sp := sp, pc := 0x40 + 8 * n), Write16(mem1, sp, m.cpu.pc)))
  {
    var n := LowestSetBit(Pending(m), 0);
    VectorAddress(n);
    var s := m.cpu;
    var sp := Wrap16(s.sp - 2);
    var mem2 := Write16(m.mem[AddrIF := ClearBit8(m.mem[AddrIF], n)], sp, s.pc);
    assert CheckForInterrupt(m) == Serviced(Machine(s.(halted := false, ime := false, sp := sp, pc := Or8(0x40, 8 * n)), mem2));
  }

  lemma ServicedStep(m: Machine, mcycles: seq<nat>, cbMcycles: seq<nat>, m1: Machine)
    requires |mcycles| == 256 && |cbMcycles| == 256
    requires CheckForInterrupt(m) == Serviced(m1)
    ensures Step(m, mcycles, cbMcycles) == Stepped(m1, 4, false)
  {
  }

  /** Clearing bit `n` of a byte keeps every other bit. */
  lemma ClearedBits(v: u8, n: nat)
    requires n < 8
    ensures forall j :: 0 <= j < 8 ==> (Bit(ClearBit8(v, n), j) <==> j != n && Bit(v, j))
  {
    forall j | 0 <= j < 8
      ensures Bit(ClearBit8(v, n), j) <==> j != n && Bit(v, j)
    {
      WithBitBit(v, n, false, j);
    }
  }

  /** A pending bit above 4 (serial or joypad are 3 and 4) is fatal. */
  lemma InterruptInvalid(m: Machine, mcycles: seq<nat>, cbMcycles: seq<nat>)
    requires |mcycles| == 256 && |cbMcycles| == 256
    requires m.cpu.ime && Pending(m) != 0 && LowestSetBit(Pending(m), 0) > 4
    ensures Step(m, mcycles, cbMcycles) == Crashed(BadInterrupt(LowestSetBit(Pending(m), 0)))
  {
  }

  /** With IME clear, a pending interrupt ends HALT but is not vectored:
      the step proceeds exactly as if the CPU had not been halted. */
  lemma HaltWakesWithoutVectoring(m: Machine, mcycles: seq<nat>, cbMcycles: seq<nat>)
    requires |mcycles| == 256 && |cbMcycles| == 256
    requires m.cpu.halted && !m.cpu.ime && Pending(m) != 0
    ensures Step(m, mcycles, cbMcycles) == Step(m.(cpu := m.cpu.(halted := false)), mcycles, cbMcycles)
  {
    assert CheckForInterrupt(m) == NotServiced(m.(cpu := m.cpu.(halted := false)));
  }

  /** A halted CPU with nothing pending idles for one machine cycle and
      changes nothing. */
  lemma HaltedIdles(m: Machine, mcycles: seq<nat>, cbMcycles: seq<nat>)
    requires |mcycles| == 256 && |cbMcycles| == 256
    requires m.cpu.halted && Pending(m) == 0
    ensures Step(m, mcycles, cbMcycles) == Stepped(m, 1, false)
  {
  }

  /** When no interrupt is serviced (IME clear, or nothing both enabled and
      requested) and the CPU is running, the step fetches and executes the
      instruction at PC with its table's cycle count. */
  lemma NothingServiced(m: Machine, mcycles: seq<nat>, cbMcycles: seq<nat>)
    requires |mcycles| == 256 && |cbMcycles| == 256
    requires !m.cpu.halted && (!m.cpu.ime || Pending(m) == 0) && m.mem[AddrSerialControl] != 0x81
    requires m.mem[m.cpu.pc] != 0xCB && Decode(m.mem[m.cpu.pc]).Some?
    ensures var i := Decode(m.mem[m.cpu.pc]).value;
      Step(m, mcycles, cbMcycles)
        == Stepped(Exec(m.(cpu := m.cpu.(pc := Wrap16(m.cpu.pc + 1))), i), mcycles[m.mem[m.cpu.pc]], i == Stop)
  {
  }

  /** Besides a bad interrupt, a step ends the program only on an opcode the
      table leaves empty; with IME set, a pending interrupt that is not fatal
      is serviced and leaves IME clear. */
  lemma StepOutcomes(m: Machine, mcycles: seq<nat>, cbMcycles: seq<nat>)
    requires |mcycles| == 256 && |cbMcycles| == 256
    ensures var r := Step(m, mcycles, cbMcycles);
      r.Crashed? && r.fault.IllegalOpcode? ==> Undefined(r.fault.op) && r.fault.op != 0xCB
    ensures var r := Step(m, mcycles, cbMcycles);
      r.Stepped? && m.cpu.ime && Pending(m) != 0 ==> r.mcycles == 4 && !r.m.cpu.ime
  {
    match CheckForInterrupt(m)
    case InvalidInterrupt(n) =>
    case Serviced(m1) =>
    case NotServiced(m1) =>
      if !m1.cpu.halted {
        var m2 := if m1.mem[AddrSerialControl] == 0x81 then m1.(mem := m1.mem[AddrSerialControl := 0]) else m1;
        EncodeOfDecode(m2.mem[m2.cpu.pc]);
      }
  }

  /** An undefined opcode ends the program. */
  lemma IllegalOpcodeCrashes(m: Machine, mcycles: seq<nat>, cbMcycles: seq<nat>)
    requires |mcycles| == 256 && |cbMcycles| == 256
    requires !m.cpu.halted && !m.cpu.ime && m.mem[AddrSerialControl] != 0x81
    requires Undefined(m.mem[m.cpu.pc]) && m.mem[m.cpu.pc] != 0xCB
    ensures Step(m, mcycles, cbMcycles) == Crashed(IllegalOpcode(m.mem[m.cpu.pc]))
  {
    EncodeOfDecode(m.mem[m.cpu.pc]);
  }

  // ---------------------------------------------------------------------
  // Stack and control-flow lemmas

  lemma Wrap16Inverse(sp: u16)
    ensures Wrap16(Wrap16(sp - 2) + 2) == sp
  {
  }

  /** Setting AF to the value it reads back changes nothing, because the
      low nibble of F is always zero. */
  lemma {:induction false} SetAfOfGetAf(s: CpuState)
    ensures SetAf(s, GetAf(s)) == s
  {
    var v := GetAf(s);
    assert v / 256 == s.a && v % 256 == Alu.FlagByte(s.f);
    Alu.FlagsOfFlagByte(s.f);
  }

  /** PUSH rr then POP rr restores every register, SP included. */
  lemma {:induction false} PushThenPop(m: Machine, sr: StackPair)
    ensures Exec(Exec(m, Push(sr)), Pop(sr)).cpu == m.cpu
  {
    var v := GetStackPair(m.cpu, sr);
    var m1 := PushWord(m, v);
    ExecPush(m, sr);
    ExecPop(m1, sr);
    Wrap16Inverse(m.cpu.sp);
    var c := m1.cpu.(sp := Wrap16(m1.cpu.sp + 2));
    assert c == m.cpu;
    match sr
    case StackBC => SetOfGet(m.cpu.bc);
    case StackDE => SetOfGet(m.cpu.de);
    case StackHL => SetOfGet(m.cpu.hl);
    case StackAF => SetAfOfGetAf(m.cpu);
  }

  lemma ExecPush(m: Machine, sr: StackPair)
    ensures Exec(m, Push(sr)) == PushWord(m, GetStackPair(m.cpu, sr))
  {
  }

  lemma ExecPop(m: Machine, sr: StackPair)
    ensures Exec(m, Pop(sr)).cpu == SetStackPair(m.cpu.(sp := Wrap16(m.cpu.sp + 2)), sr, Read16(m.mem, m.cpu.sp))
  {
    var w := PopWord(m);
    assert Exec(m, Pop(sr)) == w.1.(cpu := SetStackPair(w.1.cpu, sr, w.0));
  }

  /** POP AF leaves the low nibble of F zero whatever the stack holds. */
  lemma PopAfLowNibble(m: Machine)
    ensures GetAf(Exec(m, Pop(StackAF)).cpu) % 16 == 0
    ensures GetAf(Exec(m, Pop(StackAF)).cpu) / 16 == Read16(m.mem, m.cpu.sp) / 16
  {
    var c := m.cpu.(sp := Wrap16(m.cpu.sp + 2));
    var w := Read16(m.mem, m.cpu.sp);
    ExecPop(m, StackAF);
    assert Exec(m, Pop(StackAF)).cpu == SetAf(c, w);
    LowNibbleCleared(GetAf(SetAf(c, w)), w);
  }

  lemma LowNibbleCleared(g: int, w: int)
    requires w >= 0 && g == w - w % 16
    ensures g % 16 == 0 && g / 16 == w / 16
  {
    assert g == 16 * (w / 16);
  }

  /** CALL then RET returns past the CALL with SP as before. */
  lemma CallThenRet(m: Machine)
    ensures Exec(Exec(m, Call(Always)), Ret(Always)).cpu == m.cpu.(pc := Wrap16(m.cpu.pc + 2))
  {
    Wrap16Inverse(m.cpu.sp);
  }

  /** RST n pushes the address after it and jumps to 8n. */
  lemma RstTarget(m: Machine, n: BitIndex)
    ensures Exec(m, Rst(n)).cpu == m.cpu.(sp := Wrap16(m.cpu.sp - 2), pc := 8 * n)
    ensures Read16(Exec(m, Rst(n)).mem, Wrap16(m.cpu.sp - 2)) == m.cpu.pc
  {
  }

  /** JR adds the signed offset to the address after the offset byte when
      its condition holds, and otherwise just skips the offset byte. */
  lemma JrTarget(m: Machine, c: Cond)
    ensures var next := Wrap16(m.cpu.pc + 1);
      Exec(m, Jr(c)).cpu.pc
        == if Holds(c, m.cpu.f) then Wrap16(next + Alu.Signed(m.mem[m.cpu.pc])) else next
  {
  }

  /** JP to an absolute address, taken exactly when the condition holds. */
  lemma JpTarget(m: Machine, c: Cond)
    ensures Exec(m, Jp(c)).cpu.pc
        == if Holds(c, m.cpu.f) then Read16(m.mem, m.cpu.pc) else Wrap16(m.cpu.pc + 2)
  {
  }

  /** CP sets the flags of SUB but keeps A. */
  lemma CompareKeepsA(m: Machine, r: Reg8)
    ensures Exec(m, AluReg(CpK, r)).cpu.a == m.cpu.a
    ensures Exec(m, AluReg(CpK, r)).cpu.f == Exec(m, AluReg(SubK, r)).cpu.f
  {
  }

  /** 16-bit INC/DEC touches no flag. */
  lemma IncDec16KeepsFlags(m: Machine, rr: Pair, incr: bool)
    ensures Exec(m, IncDec16(rr, incr)).cpu.f == m.cpu.f
    ensures GetPair(Exec(m, IncDec16(rr, incr)).cpu, rr) == Wrap16(GetPair(m.cpu, rr) + if incr then 1 else -1)
  {
  }
}

=== FILE: cpu_alu.dfy ===
/** The arithmetic, logic, rotate/shift and single-bit instruction builders
    of src/cpu.cpp as pure functions from operands and flags to a result
    and the flags the instruction leaves. Bodies follow the source's
    expressions (masks written as `%`/`/` by a power of two); contracts
    state what the flags mean. */
module Alu {
  import opened Bits

  /** Zero, Subtract (N), Half-carry and Carry, bits 7..4 of F. */
  datatype Flags = Flags(z: bool, n: bool, h: bool, c: bool)

  datatype Out8 = Out8(value: u8, flags: Flags)
  datatype Out16 = Out16(value: u16, flags: Flags)

  /** The F byte holding the flags: Z at bit 7, N at 6, H at 5, C at 4 and
      a zero low nibble. */
  function FlagByte(fl: Flags): (r: u8)
    ensures r % 16 == 0
    ensures r >= 128 <==> fl.z
  {
    128 * B2I(fl.z) + 64 * B2I(fl.n) + 32 * B2I(fl.h) + 16 * B2I(fl.c)
  }

  /** The flags read back from an F byte with `getFlag`. */
  function FlagsOfByte(f: u8): Flags
  {
    Flags((f / 128) % 2 == 1, (f / 64) % 2 == 1, (f / 32) % 2 == 1, (f / 16) % 2 == 1)
  }

  /** Flags survive the trip through the F byte. */
  lemma FlagsOfFlagByte(fl: Flags)
    ensures FlagsOfByte(FlagByte(fl)) == fl
  {
    var z, n, h, c := B2I(fl.z), B2I(fl.n), B2I(fl.h), B2I(fl.c);
    var f := 128 * z + 64 * n + 32 * h + 16 * c;
    assert f / 16 == 8 * z + 4 * n + 2 * h + c;
    assert f / 32 == 4 * z + 2 * n + h;
    assert f / 64 == 2 * z + n;
    assert f / 128 == z;
  }

  /** A byte read as flags and written back loses its low nibble: the
      `& 0xF0` of `set_af`. */
  lemma FlagByteOfFlags(f: u8)
    ensures FlagByte(FlagsOfByte(f)) == f - f % 16
  {
    var q := f / 16;
    var q1 := q / 2;
    var q2 := q1 / 2;
    var q3 := q2 / 2;
    assert f - f % 16 == 16 * q;
    assert q == 2 * q1 + q % 2 && q1 == 2 * q2 + q1 % 2 && q2 == 2 * q3 + q2 % 2;
    assert f / 32 == q1 && f / 64 == q2 && f / 128 == q3;
    assert q3 < 2;
  }

  /** Two's-complement reading of a byte: `static_cast<int8_t>`. */
  function Signed(b: u8): (r: int)
    ensures -128 <= r < 128 && r % 256 == b
  {
    if b < 128 then b else b - 256
  }

  // ---------------------------------------------------------------------
  // 8-bit arithmetic (src/cpu.cpp:431-463)

  /** ADD/ADC: `carry` selects whether the carry flag is added in. */
  function Add(a: u8, b: u8, carry: bool, f: Flags): (r: Out8)
    ensures r.value == (a + b + B2I(carry && f.c)) % 256
    ensures r.flags.z <==> r.value == 0
    ensures !r.flags.n
    ensures r.flags.h <==> a % 16 + b % 16 + B2I(carry && f.c) >= 0x10
    ensures r.flags.c <==> a + b + B2I(carry && f.c) >= 0x100
  {
    var ci := B2I(carry && f.c);
    var result := a + b + ci;
    Out8(result % 256,
         Flags(result % 256 == 0, false, ((a % 16 + b % 16 + ci) / 0x10) % 2 == 1,
               (result / 0x100) % 2 == 1))
  }

  /** SUB/SBC/CP: CP (`compare`) computes the flags but keeps A. */
  function Sub(a: u8, b: u8, carry: bool, compare: bool, f: Flags): (r: Out8)
    ensures r.value == if compare then a else (a - b - B2I(carry && f.c)) % 256
    ensures r.flags.z <==> a == (b + B2I(carry && f.c)) % 256
    ensures r.flags.n
    ensures r.flags.h <==> a % 16 < b % 16 + B2I(carry && f.c)
    ensures r.flags.c <==> a < b + B2I(carry && f.c)
  {
    var ci := B2I(carry && f.c);
    var low := (a - b - ci) % 256;  // low byte of the uint16_t difference
    Out8(if compare then a else low,
         Flags(low == 0, true, b % 16 + ci > a % 16, b + ci > a))
  }

  /** AND/OR/XOR; AND sets H, the others clear it. */
  function Logic(a: u8, b: u8, op: BitOp, hFlag: bool): (r: Out8)
    ensures forall i :: 0 <= i < 8 ==> Bit(r.value, i) == ApplyOp(op, Bit(a, i), Bit(b, i))
    ensures r.flags.z ==> forall i :: 0 <= i < 8 ==> !ApplyOp(op, Bit(a, i), Bit(b, i))
    ensures (forall i :: 0 <= i < 8 ==> !ApplyOp(op, Bit(a, i), Bit(b, i))) ==> r.flags.z
    ensures !r.flags.n && r.flags.h == hFlag && !r.flags.c
  {
    var v := Combine(op, a, b, 8);
    LogicFacts(a, b, op);
    Out8(v, Flags(v == 0, false, hFlag, false))
  }

  /** INC/DEC of an 8-bit operand; the carry flag is left alone. */
  function Step8(a: u8, incr: bool, f: Flags): (r: Out8)
    ensures incr ==> r.value == (a + 1) % 256
    ensures !incr ==> r.value == (a + 255) % 256
    ensures r.flags.z <==> r.value == 0
    ensures r.flags.n == !incr
    ensures r.flags.h <==> if incr then a % 16 == 15 else a % 16 == 0
    ensures r.flags.c == f.c
  {
    var diff := if incr then 1 else -1;
    var result := (a + diff) % 256;
    var h := if incr then ((a % 16 + 1) / 0x10) % 2 == 1 else a % 16 == 0;
    Out8(result, Flags(result == 0, !incr, h, f.c))
  }

  /** DAA: the decimal correction after a BCD addition or subtraction. */
  function Daa(a: u8, f: Flags): (r: Out8)
    ensures r.flags.n == f.n && !r.flags.h
    ensures r.flags.z <==> r.value == 0
    ensures r.flags.c <==> f.c || (!f.n && a > 0x99)
    ensures r.flags.c ==> f.c || !f.n
    ensures var corr := (if f.h || (!f.n && a % 16 > 9) then 0x06 else 0)
                        + (if f.c || (!f.n && a > 0x99) then 0x60 else 0);
            r.value == (if f.n then a - corr else a + corr) % 256
  {
    var low := f.h || (!f.n && a % 16 > 9);
    var high := f.c || (!f.n && a > 0x99);
    var correction := (if low then 0x6 else 0) + (if high then 0x60 else 0);
    var v := if f.n then (a - correction) % 256 else (a + correction) % 256;
    Out8(v, Flags(v == 0, f.n, false, high))
  }

  /** CPL: `a ^ 0xFF`; sets N and H, keeps Z and C. */
  function Cpl(a: u8, f: Flags): (r: Out8)
    ensures r.value == 0xFF - a
    ensures r.flags == f.(n := true, h := true)
  {
    XorAllOnes(a, 8);
    Out8(Xor8(a, 0xFF), f.(n := true, h := true))
  }

  // ---------------------------------------------------------------------
  // 16-bit arithmetic (src/cpu.cpp:529-564)

  /** INC/DEC of a register pair: wraps, touches no flag. */
  function Step16(v: u16, incr: bool): (r: u16)
    ensures incr ==> r == (v + 1) % 0x1_0000
    ensures !incr ==> r == (v + 0xFFFF) % 0x1_0000
  {
    (v + (if incr then 1 else -1)) % 0x1_0000
  }

  /** ADD HL,rr: half-carry out of bit 11, carry out of bit 15; Z kept.
      This is the corrected form; `AddHlAsWritten` masks with 0x7FF. */
  function AddHl(hl: u16, b: u16, f: Flags): (r: Out16)
    ensures r.value == (hl + b) % 0x1_0000
    ensures r.flags.z == f.z && !r.flags.n
    ensures r.flags.h <==> hl % 0x1000 + b % 0x1000 >= 0x1000
    ensures r.flags.c <==> hl + b >= 0x1_0000
  {
    var result := hl + b;
    Out16(result % 0x1_0000,
          Flags(f.z, false, hl % 0x1000 + b % 0x1000 > 0xFFF, (result / 0x1_0000) % 2 == 1))
  }

  /** ADD HL,rr as src/cpu.cpp:546 computes H: `(a & 0x7ff) + (b & 0x7ff) > 0x7ff`,
      the carry out of bit 10 rather than bit 11. */
  function AddHlAsWritten(hl: u16, b: u16, f: Flags): (r: Out16)
    ensures r.value == AddHl(hl, b, f).value
    ensures r.flags.h <==> hl % 0x800 + b % 0x800 >= 0x800
  {
    var result := hl + b;
    Out16(result % 0x1_0000,
          Flags(f.z, false, hl % 0x800 + b % 0x800 > 0x7FF, (result / 0x1_0000) % 2 == 1))
  }

  /** HL = 0x0800 plus 0x0800 carries out of bit 11 (0x1000), yet the
      as-written mask reports no half-carry; the reverse happens for 0x0400
      plus 0x0400. */
  lemma AddHlHalfCarryDiscrepancy(f: Flags)
    ensures !AddHlAsWritten(0x0800, 0x0800, f).flags.h && AddHl(0x0800, 0x0800, f).flags.h
    ensures AddHlAsWritten(0x0400, 0x0400, f).flags.h && !AddHl(0x0400, 0x0400, f).flags.h
  {
  }

  /** ADD SP,e8 and LD HL,SP+e8: a signed offset; both carries come from
      the unsigned low byte of the operand. */
  function AddSigned(a: u16, e: u8): (r: Out16)
    ensures (r.value - a) % 0x1_0000 == Signed(e) % 0x1_0000
    ensures !r.flags.z && !r.flags.n
    ensures r.flags.h <==> a % 16 + e % 16 >= 16
    ensures r.flags.c <==> a % 256 + e >= 256
  {
    var b := Signed(e);
    Out16((a + b) % 0x1_0000, Flags(false, false, a % 16 + b % 16 > 0xF, a % 256 + b % 256 > 0xFF))
  }

  // ---------------------------------------------------------------------
  // Rotates and shifts (src/cpu.cpp:566-679). `regA` marks the
  // accumulator-only forms RLCA/RLA/RRCA/RRA, which always clear Z.

  /** RLC: rotate left, bit 7 into bit 0 and into C. */
  function Rlc(a: u8, regA: bool): (r: Out8)
    ensures r.value == if a >= 128 then 2 * a - 255 else 2 * a
    ensures r.flags.c <==> a >= 128
    ensures r.flags.z <==> !regA && a == 0
    ensures !r.flags.n && !r.flags.h
  {
    var top := a / 128 == 1;
    var v := (a * 2) % 256 + B2I(top);
    Out8(v, Flags(!regA && v == 0, false, false, top))
  }

  /** RL: rotate left through the carry flag. */
  function Rl(a: u8, regA: bool, f: Flags): (r: Out8)
    ensures r.value == 2 * a - (if a >= 128 then 256 else 0) + B2I(f.c)
    ensures r.flags.c <==> a >= 128
    ensures r.flags.z <==> !regA && a % 128 == 0 && !f.c
    ensures !r.flags.n && !r.flags.h
  {
    var top := a / 128 == 1;
    var v := (a * 2) % 256 + B2I(f.c);
    Out8(v, Flags(!regA && v == 0, false, false, top))
  }

  /** RRC: rotate right, bit 0 into bit 7 and into C. */
  function Rrc(a: u8, regA: bool): (r: Out8)
    ensures 2 * r.value == a + (if a % 2 == 1 then 255 else 0)
    ensures r.flags.c <==> a % 2 == 1
    ensures r.flags.z <==> !regA && a == 0
    ensures !r.flags.n && !r.flags.h
  {
    var bottom := a % 2 == 1;
    var v := B2I(bottom) * 128 + a / 2;
    Out8(v, Flags(!regA && v == 0, false, false, bottom))
  }

  /** RR: rotate right through the carry flag. */
  function Rr(a: u8, regA: bool, f: Flags): (r: Out8)
    ensures 2 * r.value + a % 2 == a + 256 * B2I(f.c)
    ensures r.flags.c <==> a % 2 == 1
    ensures r.flags.z <==> !regA && a < 2 && !f.c
    ensures !r.flags.n && !r.flags.h
  {
    var bottom := a % 2 == 1;
    var v := B2I(f.c) * 128 + a / 2;
    Out8(v, Flags(!regA && v == 0, false, false, bottom))
  }

  /** SLA: shift left, bit 7 into C, zero into bit 0. */
  function Sla(a: u8): (r: Out8)
    ensures r.value == 2 * a - (if a >= 128 then 256 else 0)
    ensures r.flags.c <==> a >= 128
    ensures r.flags.z <==> a % 128 == 0
    ensures !r.flags.n && !r.flags.h
  {
    var top := a / 128 == 1;
    var v := (a * 2) % 256;
    Out8(v, Flags(v == 0, false, false, top))
  }

  /** SWAP exchanges the nibbles and always clears C. */
  function Swap(a: u8): (r: Out8)
    ensures r.value % 16 == a / 16 && r.value / 16 == a % 16
    ensures r.flags == Flags(a == 0, false, false, false)
  {
    var v := ((a % 16) * 16) % 256 + a / 16;
    Out8(v, Flags(v == 0, false, false, false))
  }

  /** SRA: arithmetic shift right, the sign bit kept: halves the signed
      value rounding toward minus infinity. */
  function Sra(a: u8): (r: Out8)
    ensures Signed(r.value) == Signed(a) / 2
    ensures r.flags.c <==> a % 2 == 1
    ensures r.flags.z <==> a < 2
    ensures !r.flags.n && !r.flags.h
  {
    var top := (a / 128) * 128;
    var bottom := a % 2 == 1;
    var v := top + a / 2;
    Out8(v, Flags(v == 0, false, false, bottom))
  }

  /** SRL: logical shift right, zero into bit 7, bit 0 into C. */
  function Srl(a: u8): (r: Out8)
    ensures r.value < 128 && 2 * r.value + B2I(r.flags.c) == a
    ensures r.flags.z <==> a < 2
    ensures !r.flags.n && !r.flags.h
  {
    var bottom := a % 2 == 1;
    var v := a / 2;
    Out8(v, Flags(v == 0, false, false, bottom))
  }

  // ---------------------------------------------------------------------
  // Single-bit instructions (src/cpu.cpp:681-698)

  /** SET n / RES n: bit `n` forced to `value`, every other bit kept. */
  function SetRes(a: u8, n: nat, value: bool): (r: u8)
    requires n < 8
    ensures Bit(r, n) == value
    ensures forall j :: 0 <= j < 8 && j != n ==> Bit(r, j) == Bit(a, j)
  {
    WithBitBound(a, n, value, 8);
    forall j | 0 <= j < 8
      ensures Bit(WithBit(a, n, value), j) == if j == n then value else Bit(a, j)
    {
      WithBitBit(a, n, value, j);
    }
    WithBit(a, n, value)
  }

  /** BIT n: Z is set exactly when bit `n` is clear, that is when RES n
      would leave the operand unchanged; C kept. */
  function TestBit(a: u8, n: nat, f: Flags): (r: Flags)
    requires n < 8
    ensures r.z <==> SetRes(a, n, false) == a
    ensures !r.n && r.h && r.c == f.c
  {
    WithBitSame(a, n);
    WithBitBit(a, n, false, n);
    Flags(!Bit(a, n), false, true, f.c)
  }

  // ---------------------------------------------------------------------
  // Decimal adjust: what DAA is for

  predicate IsBcd(x: u8)
  {
    x % 16 <= 9 && x / 16 <= 9
  }

  function BcdValue(x: u8): nat
  {
    10 * (x / 16) + x % 16
  }

  function ToBcd(v: nat): (r: u8)
    requires v < 100
  {
    (v / 10) * 16 + v % 10
  }

  /** ADD (or ADC) of two BCD bytes followed by DAA yields the BCD of the
      decimal sum modulo 100, and sets C exactly when the sum reached 100. */
  lemma DaaAfterAdd(a: u8, b: u8, carry: bool, f: Flags)
    requires IsBcd(a) && IsBcd(b)
    ensures var s := Add(a, b, carry, f);
            var total := BcdValue(a) + BcdValue(b) + B2I(carry && f.c);
            var d := Daa(s.value, s.flags);
            d.value == ToBcd(total % 100) && (d.flags.c <==> total >= 100)
  {
    var ci := B2I(carry && f.c);
    var u, t := a / 16 + b / 16, a % 16 + b % 16 + ci;
    assert a + b + ci == 16 * u + t;
    DaaAddDigits(u, t);
  }

  /** The digit-level core of `DaaAfterAdd`: `u` is the sum of the tens
      digits and `t` the sum of the units digits and the carry. */
  lemma DaaAddDigits(u: nat, t: nat)
    requires u <= 18 && t <= 19
    ensures var x := 16 * u + t;
            var d := Daa(x % 256, Flags(x % 256 == 0, false, t >= 16, x >= 256));
            d.value == ToBcd((10 * u + t) % 100) && (d.flags.c <==> 10 * u + t >= 100)
  {
    DaaAddDecisions(u, t);
    DaaAddValue(u, t);
  }

  /** After an addition DAA corrects the low digit exactly when the units
      overflowed past 9, and the high digit exactly when the sum reached 100. */
  lemma DaaAddDecisions(u: nat, t: nat)
    requires u <= 18 && t <= 19
    ensures var x := 16 * u + t;
            var s := x % 256;
            ((t >= 16 || s % 16 > 9) <==> t >= 10) && ((x >= 256 || s > 0x99) <==> 10 * u + t >= 100)
  {
    var x := 16 * u + t;
    var s := x % 256;
    var q := if t >= 16 then 1 else 0;
    if x >= 256 {
      assert s == 16 * (u + q - 16) + t % 16;
      Digits16(u + q - 16, t % 16);
    } else {
      assert s == x;
      assert u <= 15;
      if t < 16 {
        Digits16(u, t);
        assert s > 0x99 <==> 10 * u + t >= 100;
      } else {
        Digits16(u + 1, t - 16);
        assert s > 0x99 <==> 10 * u + t >= 100;
      }
    }
  }

  lemma DaaAddValue(u: nat, t: nat)
    requires u <= 18 && t <= 19
    ensures var x := 16 * u + t;
            (x % 256 + (if t >= 10 then 6 else 0) + (if 10 * u + t >= 100 then 0x60 else 0)) % 256
              == ToBcd((10 * u + t) % 100)
  {
    var x := 16 * u + t;
    var k := (if t >= 10 then 6 else 0) + (if 10 * u + t >= 100 then 0x60 else 0);
    assert (x % 256 + k) % 256 == (x + k) % 256 by {
      if x >= 256 { assert x % 256 == x - 256; }
    }
    if t >= 10 {
      DaaFixDigits(u + 1, t - 10);
    } else {
      DaaFixDigits(u, t);
    }
  }

  /** Adding 0x60 to the packed digits `16 * d1 + d0` exactly when the tens
      digit overflowed gives the BCD of the decimal value modulo 100. */
  lemma DaaFixDigits(d1: nat, d0: nat)
    requires d1 <= 19 && d0 <= 9
    ensures (16 * d1 + d0 + (if d1 >= 10 then 0x60 else 0)) % 256 == ToBcd((10 * d1 + d0) % 100)
  {
    var v := 10 * d1 + d0;
    if d1 >= 10 {
      var e := d1 - 10;
      var y := 16 * e + d0;
      assert v == 100 + (10 * e + d0) && 10 * e + d0 < 100;
      assert v % 100 == 10 * e + d0;
      assert 16 * d1 + d0 + 0x60 == 256 + y && y < 256;
      assert (256 + y) % 256 == y;
      BcdOfDigits(e, d0);
    } else {
      assert v < 100 && v % 100 == v;
      assert 16 * d1 + d0 < 256;
      BcdOfDigits(d1, d0);
    }
  }

  /** A value one modulus below `y` in `[0, m)` leaves `y` as remainder. */
  lemma ModOneBelow(z: int, y: int, m: int)
    requires 0 <= y < m && z == y - m
    ensures z % m == y
  {
  }

  lemma BcdOfDigits(d1: nat, d0: nat)
    requires d1 <= 9 && d0 <= 9
    ensures ToBcd(10 * d1 + d0) == 16 * d1 + d0
  {
    var v := 10 * d1 + d0;
    assert v / 10 == d1 && v % 10 == d0;
  }

  /** SUB (or SBC) of two BCD bytes followed by DAA yields the BCD of the
      decimal difference modulo 100, and sets C exactly on a borrow. */
  lemma DaaAfterSub(a: u8, b: u8, carry: bool, f: Flags)
    requires IsBcd(a) && IsBcd(b)
    ensures var s := Sub(a, b, carry, false, f);
            var diff := BcdValue(a) - BcdValue(b) - B2I(carry && f.c);
            var d := Daa(s.value, s.flags);
            d.value == ToBcd(diff % 100) && (d.flags.c <==> diff < 0)
  {
    var ci := B2I(carry && f.c);
    var u, t := a / 16 - b / 16, a % 16 - b % 16 - ci;
    assert a - b - ci == 16 * u + t;
    assert a < b + ci <==> 16 * u + t < 0;
    DaaSubDigits(u, t);
  }

  /** The digit-level core of `DaaAfterSub`: `u` is the difference of the
      tens digits and `t` that of the units digits less the carry. */
  lemma DaaSubDigits(u: int, t: int)
    requires -9 <= u <= 9 && -10 <= t <= 9
    ensures var x := 16 * u + t;
            var d := Daa(x % 256, Flags(x % 256 == 0, true, t < 0, x < 0));
            d.value == ToBcd((10 * u + t) % 100) && (d.flags.c <==> 10 * u + t < 0)
  {
    var x := 16 * u + t;
    DaaAfterSubtraction(x % 256, t < 0, x < 0);
    DaaSubArith(u, t);
  }

  /** DAA after a subtraction: the corrections selected by H and C are
      taken off, and C stays as it was. */
  lemma DaaAfterSubtraction(a: u8, h: bool, c: bool)
    ensures var d := Daa(a, Flags(a == 0, true, h, c));
            d.value == (a - ((if h then 6 else 0) + (if c then 0x60 else 0))) % 256 && d.flags.c == c
  {
  }

  /** The integer side of `DaaSubDigits`. */
  lemma DaaSubArith(u: int, t: int)
    requires -9 <= u <= 9 && -10 <= t <= 9
    ensures var x := 16 * u + t;
            (x % 256 - ((if t < 0 then 6 else 0) + (if x < 0 then 0x60 else 0))) % 256 == ToBcd((10 * u + t) % 100)
    ensures 16 * u + t < 0 <==> 10 * u + t < 0
  {
    var x := 16 * u + t;
    var a := x % 256;
    var k := (if t < 0 then 6 else 0) + (if x < 0 then 0x60 else 0);
    assert (a - k) % 256 == (x - k) % 256 by {
      if x < 0 {
        ModOneBelow(x, x + 256, 256);
        assert a - k == (x - k) + 256;
      } else {
        assert a == x;
      }
    }
    var d1 := if t < 0 then u - 1 else u;
    var d0 := if t < 0 then t + 10 else t;
    assert x - k == 16 * d1 + d0 - (if d1 < 0 then 0x60 else 0);
    assert 10 * u + t == 10 * d1 + d0;
    DaaUnfixDigits(d1, d0);
  }

  /** Subtracting 0x60 from the packed digits `16 * d1 + d0` exactly when
      the tens digit went negative gives the BCD of the value modulo 100. */
  lemma DaaUnfixDigits(d1: int, d0: nat)
    requires -10 <= d1 <= 9 && d0 <= 9
    ensures (16 * d1 + d0 - (if d1 < 0 then 0x60 else 0)) % 256 == ToBcd((10 * d1 + d0) % 100)
  {
    if d1 < 0 {
      var e := d1 + 10;
      BorrowDigits(e, d0);
      BcdOfDigits(e, d0);
    } else {
      NoBorrowDigits(d1, d0);
      BcdOfDigits(d1, d0);
    }
  }

  /** A borrowed tens digit: `e` is the tens digit plus 10. */
  lemma BorrowDigits(e: nat, d0: nat)
    requires e <= 9 && d0 <= 9
    ensures (16 * (e - 10) + d0 - 0x60) % 256 == 16 * e + d0
    ensures (10 * (e - 10) + d0) % 100 == 10 * e + d0
  {
    ModOneBelow(16 * (e - 10) + d0 - 0x60, 16 * e + d0, 256);
    ModOneBelow(10 * (e - 10) + d0, 10 * e + d0, 100);
  }

  lemma NoBorrowDigits(d1: nat, d0: nat)
    requires d1 <= 9 && d0 <= 9
    ensures (16 * d1 + d0) % 256 == 16 * d1 + d0
    ensures (10 * d1 + d0) % 100 == 10 * d1 + d0
  {
  }

  /** `ToBcd` is the inverse of `BcdValue` on BCD bytes. */
  lemma ToBcdIsBcd(v: nat)
    requires v < 100
    ensures IsBcd(ToBcd(v)) && BcdValue(ToBcd(v)) == v
  {
    var d1, d0 := v / 10, v % 10;
    assert v == 10 * d1 + d0 && d1 <= 9;
    Digits16(d1, d0);
  }

  /** The two hex digits of `16 * d1 + d0`. */
  lemma Digits16(d1: nat, d0: nat)
    requires d0 < 16
    ensures (16 * d1 + d0) / 16 == d1 && (16 * d1 + d0) % 16 == d0
  {
  }

  lemma BcdValueRoundTrip(x: u8)
    requires IsBcd(x)
    ensures ToBcd(BcdValue(x)) == x
  {
  }

  // ---------------------------------------------------------------------
  // Partner lemmas: inverses and involutions

  /** SUB undoes ADD (without carry). */
  lemma SubUndoesAdd(a: u8, b: u8, f: Flags)
    ensures Sub(Add(a, b, false, f).value, b, false, false, f).value == a
  {
    var s := Add(a, b, false, f).value;
    assert s == (a + b) % 256;
    ModUndo(a, b, s);
  }

  lemma ModUndo(a: u8, b: u8, s: int)
    requires s == (a + b) % 256
    ensures (s - b) % 256 == a
  {
    if a + b >= 256 {
      assert s == a + b - 256;
    } else {
      assert s == a + b;
    }
  }

  /** CP reports SUB's flags and keeps A. */
  lemma CompareKeepsA(a: u8, b: u8, carry: bool, f: Flags)
    ensures Sub(a, b, carry, true, f).flags == Sub(a, b, carry, false, f).flags
    ensures Sub(a, b, carry, true, f).value == a
  {
  }

  /** DEC undoes INC and INC undoes DEC. */
  lemma StepInverse(a: u8, f: Flags, g: Flags)
    ensures Step8(Step8(a, true, f).value, false, g).value == a
    ensures Step8(Step8(a, false, f).value, true, g).value == a
  {
    var up, down := Step8(a, true, f).value, Step8(a, false, f).value;
    if a == 255 { assert up == 0; } else { assert up == a + 1; }
    if a == 0 { assert down == 255; } else { assert down == a - 1; }
  }

  /** RRC undoes RLC and RLC undoes RRC. */
  lemma RotateInverse(a: u8, regA: bool)
    ensures Rrc(Rlc(a, regA).value, regA).value == a
    ensures Rlc(Rrc(a, regA).value, regA).value == a
  {
  }

  /** RL and RR are a 9-bit rotation through the carry: each undoes the
      other, value and carry alike. */
  lemma RotateThroughCarryInverse(a: u8, regA: bool, f: Flags)
    ensures var l := Rl(a, regA, f);
            var r := Rr(l.value, regA, l.flags);
            r.value == a && r.flags.c == f.c
    ensures var r := Rr(a, regA, f);
            var l := Rl(r.value, regA, r.flags);
            l.value == a && l.flags.c == f.c
  {
  }

  /** SRL after SLA clears bit 7 and nothing else; SLA after SRL clears bit 0. */
  lemma ShiftRoundTrip(a: u8)
    ensures Srl(Sla(a).value).value == a % 128
    ensures Sla(Srl(a).value).value == a - a % 2
  {
  }

  lemma SwapInvolution(a: u8)
    ensures Swap(Swap(a).value).value == a
  {
  }

  lemma CplInvolution(a: u8, f: Flags)
    ensures Cpl(Cpl(a, f).value, f).value == a
  {
  }

  /** BIT n reads back what SET n / RES n wrote. */
  lemma TestBitAfterSetRes(a: u8, n: nat, value: bool, f: Flags)
    requires n < 8
    ensures TestBit(SetRes(a, n, value), n, f).z == !value
  {
  }

  // ---------------------------------------------------------------------
  // Helper lemmas

  lemma LogicFacts(a: u8, b: u8, op: BitOp)
    ensures forall i :: 0 <= i < 8 ==> Bit(Combine(op, a, b, 8), i) == ApplyOp(op, Bit(a, i), Bit(b, i))
    ensures Combine(op, a, b, 8) == 0 ==> forall i :: 0 <= i < 8 ==> !ApplyOp(op, Bit(a, i), Bit(b, i))
    ensures (forall i :: 0 <= i < 8 ==> !ApplyOp(op, Bit(a, i), Bit(b, i))) ==> Combine(op, a, b, 8) == 0
  {
    var v := Combine(op, a, b, 8);
    forall i | 0 <= i < 8
      ensures Bit(v, i) == ApplyOp(op, Bit(a, i), Bit(b, i))
    {
      CombineBit(op, a, b, 8, i);
    }
    if forall i :: 0 <= i < 8 ==> !ApplyOp(op, Bit(a, i), Bit(b, i)) {
      NoBitIsZero(v, 8);
    }
    if v == 0 {
      forall i | 0 <= i < 8
        ensures !ApplyOp(op, Bit(a, i), Bit(b, i))
      {
        ZeroHasNoBit(i);
      }
    }
  }

  /** `x ^ (2^n - 1)` flips every one of the low `n` bits. */
  lemma {:induction false} XorAllOnes(x: nat, n: nat)
    requires x < Pow2(n)
    ensures Combine(XorOp, x, Pow2(n) - 1, n) == Pow2(n) - 1 - x
  {
    if n > 0 {
      assert (Pow2(n) - 1) / 2 == Pow2(n - 1) - 1;
      XorAllOnes(x / 2, n - 1);
    }
  }
}

=== FILE: cpu_register.dfy ===
/** The 16-bit CPU register pair (AF, BC, DE, HL, SP, PC) stored as a high
    and a low byte (include/cpu_register.h). */
module CpuRegister {
  import opened Bits

  datatype Register = Register(hi: u8, lo: u8)

  /** `(hi << 8) | lo`: the two halves occupy disjoint bits, so the OR is a sum. */
  function Get(r: Register): (v: u16)
    ensures v / 256 == r.hi && v % 256 == r.lo
  {
    r.hi * 256 + r.lo
  }

  /** `lo = val & 0xFF; hi = val >> 8`. */
  function Set(v: u16): (r: Register)
    ensures Get(r) == v
  {
    Register(v / 256, v % 256)
  }

  function SetHi(r: Register, v: u8): (r': Register)
    ensures r'.hi == v && r'.lo == r.lo
    ensures Get(r') == v * 256 + r.lo
  {
    r.(hi := v)
  }

  function SetLo(r: Register, v: u8): (r': Register)
    ensures r'.lo == v && r'.hi == r.hi
    ensures Get(r') == r.hi * 256 + v
  {
    r.(lo := v)
  }

  /** Storing the value a register already holds changes nothing. */
  lemma SetOfGet(r: Register)
    ensures Set(Get(r)) == r
  {
  }
}

=== FILE: gameboy.dfy ===
/** The console as src/gameboy.cpp assembles it: the cartridge header
    decides which bank controller to build and whether the machine runs in
    CGB mode, and `step` hands the CPU's cycles to the bus. */
module Gameboy {
  import opened Bits
  import opened Wrappers
  import Mbc
  import Mbc0
  import Mbc1
  import Mbc3
  import Mbc5
  import Bus
  import Cpu
  import Ppu

  /** Header offsets and the smallest image `loadCartridge` accepts. */
  const HeaderSize: nat := 0x150
  const AddrCgbFlag: nat := 0x143
  const AddrCartType: nat := 0x147
  const AddrRamSize: nat := 0x149

  /** The two errors `makeMbc` reports, with the type byte it prints. */
  datatype MbcError = Unimplemented(cartType: u8) | Invalid(cartType: u8)

  datatype MbcResult = Made(cart: Mbc.Cartridge) | Failed(error: MbcError)

  /** The errors of `loadCartridge` that concern the image's contents. */
  datatype LoadError = FileTooSmall | BadMbc(error: MbcError)

  /** The console: the bus with its devices, and the CPU with the memory
      its instructions run against. */
  datatype Gameboy = Gameboy(bus: Bus.BusState, cpu: Cpu.Machine)

  // ---------------------------------------------------------------------
  // Cartridge header

  /** The controller families by type byte. */
  predicate IsMbc0Type(t: u8) { t == 0x00 }
  predicate IsMbc1Type(t: u8) { 0x01 <= t <= 0x03 }
  predicate IsMbc3Type(t: u8) { 0x0F <= t <= 0x13 }
  predicate IsMbc5Type(t: u8) { 0x19 <= t <= 0x1E }
  predicate Supported(t: u8) { IsMbc0Type(t) || IsMbc1Type(t) || IsMbc3Type(t) || IsMbc5Type(t) }

  /** Type bytes of controllers the emulator knows but does not implement. */
  predicate KnownUnsupported(t: u8)
  {
    t in {0x05, 0x06, 0x08, 0x09, 0x0B, 0x0C, 0x0D, 0x20, 0x22, 0xFC, 0xFD, 0xFE, 0xFF}
  }

  /** `makeMbc`. The header constructors take the image's file name (for the
      save file) and the type byte; `saved` is what the save file holds.
      An MBC0 copies 0x8000 bytes without checking, so it needs them. */
  function MakeMbc(filename: string, cartType: u8, ramSize: nat, data: seq<u8>, saved: seq<u8>): (r: MbcResult)
    requires IsMbc0Type(cartType) ==> |data| >= Mbc0.RomSize
    ensures r.Made? <==> Supported(cartType)
    ensures r.Failed? ==> r.error == (if KnownUnsupported(cartType) then Unimplemented(cartType) else Invalid(cartType))
    ensures r.Made? ==> (r.cart.Cart0? <==> IsMbc0Type(cartType)) && (r.cart.Cart1? <==> IsMbc1Type(cartType))
    ensures r.Made? ==> (r.cart.Cart3? <==> IsMbc3Type(cartType)) && (r.cart.Cart5? <==> IsMbc5Type(cartType))
    ensures r.Made? && !r.cart.Cart0? ==> CartRom(r.cart) == data
  {
    if IsMbc0Type(cartType) then Made(Mbc.Cart0(Mbc0.Init(data)))
    else if IsMbc1Type(cartType) then Made(Mbc.Cart1(Mbc1.Init(filename, cartType, data, ramSize, saved)))
    else if IsMbc3Type(cartType) then Made(Mbc.Cart3(Mbc3.Init(filename, cartType, data, ramSize, saved)))
    else if IsMbc5Type(cartType) then Made(Mbc.Cart5(Mbc5.Init(filename, cartType, data, ramSize, saved)))
    else if KnownUnsupported(cartType) then Failed(Unimplemented(cartType))
    else Failed(Invalid(cartType))
  }

  /** The ROM a controller holds. */
  function CartRom(c: Mbc.Cartridge): seq<u8>
  {
    match c
    case Cart0(m) => m.rom
    case Cart1(m) => m.rom
    case Cart3(m) => m.rom
    case Cart5(m) => m.rom
  }

  /** The RAM-size table indexed by header byte 0x149: none for codes 0
      and 1, then 8, 32, 128 and 64 KiB. Codes above 5 index past it. */
  function RamSizeOf(code: u8): (size: nat)
    requires code <= 5
    ensures size == 0 <==> code < 2
    ensures size % 0x2000 == 0 && size <= 0x20000
  {
    if code < 2 then 0
    else if code == 2 then 0x2000
    else if code == 3 then 0x8000
    else if code == 4 then 0x20000
    else 0x10000
  }

  /** Bit 7 of header byte 0x143. */
  predicate CgbFlag(data: seq<u8>)
    requires |data| > AddrCgbFlag
  {
    data[AddrCgbFlag] / 0x80 % 2 == 1
  }

  /** What `loadCartridge` needs of an image it gets past the size check:
      a RAM-size code inside the table and, for MBC0, the 0x8000 bytes the
      controller copies. */
  predicate HeaderOk(data: seq<u8>)
  {
    |data| >= HeaderSize ==>
      && data[AddrRamSize] <= 5
      && (IsMbc0Type(data[AddrCartType]) ==> |data| >= Mbc0.RomSize)
  }

  /** `loadCartridge` once the file is read. A short image or a type the
      emulator cannot build ends with an error and the console untouched;
      otherwise the controller is installed and the bus and the CPU are
      reset for the mode the header asks for. */
  function LoadCartridge(g: Gameboy, filename: string, data: seq<u8>, saved: seq<u8>): (r: (Gameboy, Option<LoadError>))
    requires HeaderOk(data)
    ensures |data| < HeaderSize ==> r == (g, Some(FileTooSmall))
    ensures r.1.Some? ==> r.0 == g
    ensures r.1.None? <==> |data| >= HeaderSize && Supported(data[AddrCartType])
    ensures r.1.None? ==>
      && r.0.bus.mbc.Some?
      && r.0.bus.cgbMode == CgbFlag(data)
      && r.0.cpu == g.cpu.(cpu := Cpu.Reset(g.cpu.cpu, CgbFlag(data)))
  {
    if |data| < HeaderSize then (g, Some(FileTooSmall))
    else
      var cartType := data[AddrCartType];
      var ramSize := RamSizeOf(data[AddrRamSize]);
      match MakeMbc(filename, cartType, ramSize, data, saved)
      case Failed(e) => (g, Some(BadMbc(e)))
      case Made(c) =>
        var cgb := CgbFlag(data);
        var bus := Bus.Reset(g.bus.(mbc := Some(c)), cgb);
        (Gameboy(bus, g.cpu.(cpu := Cpu.Reset(g.cpu.cpu, cgb))), None)
  }

  // ---------------------------------------------------------------------
  // Step

  /** `step`: one CPU step, then the bus ticked with four clock cycles per
      machine cycle the CPU reports. STOP switches the bus speed from
      inside the CPU step, before the tick. A crash ends the program, so
      the console is left as it was. */
  method Step(g: Gameboy, mcycles: seq<nat>, cbMcycles: seq<nat>)
    returns (r: Gameboy, fault: Option<Cpu.Fault>, tcycles: nat)
    requires |mcycles| == 256 && |cbMcycles| == 256
    requires Bus.DmaReady(g.bus)
    ensures var out := Cpu.Step(g.cpu, mcycles, cbMcycles);
      out.Crashed? ==> r == g && fault == Some(out.fault) && tcycles == 0
    ensures var out := Cpu.Step(g.cpu, mcycles, cbMcycles);
      out.Stepped? ==> fault.None? && r.cpu == out.m && tcycles == 4 * out.mcycles
    ensures var out := Cpu.Step(g.cpu, mcycles, cbMcycles);
      var doubled := g.bus.doubleSpeed != (out.Stepped? && out.switchSpeed && g.bus.prepareSpeedSwitch);
      out.Stepped? && g.bus.hdmaMode == Bus.HdmaNone ==>
        r.bus.ppu == Ppu.Tick(g.bus.ppu, tcycles / (if doubled then 2 else 1)).0
    ensures r.bus.mbc == g.bus.mbc && r.bus.intEnable == g.bus.intEnable
  {
    r, fault, tcycles := Advance(g, Cpu.Step(g.cpu, mcycles, cbMcycles));
  }

  /** The part of `step` after the CPU has run, given what it did. */
  method Advance(g: Gameboy, out: Cpu.StepOutcome) returns (r: Gameboy, fault: Option<Cpu.Fault>, tcycles: nat)
    requires Bus.DmaReady(g.bus)
    ensures out.Crashed? ==> r == g && fault == Some(out.fault) && tcycles == 0
    ensures out.Stepped? ==> fault.None? && r.cpu == out.m && tcycles == 4 * out.mcycles
    ensures var doubled := g.bus.doubleSpeed != (out.Stepped? && out.switchSpeed && g.bus.prepareSpeedSwitch);
      out.Stepped? && g.bus.hdmaMode == Bus.HdmaNone ==>
        r.bus.ppu == Ppu.Tick(g.bus.ppu, tcycles / (if doubled then 2 else 1)).0
    ensures r.bus.mbc == g.bus.mbc && r.bus.intEnable == g.bus.intEnable
  {
    if out.Crashed? {
      r, fault, tcycles := g, Some(out.fault), 0;
    } else {
      var bus := if out.switchSpeed then Bus.SwitchSpeed(g.bus) else g.bus;
      SwitchKeepsDmaReady(g.bus, bus);
      tcycles := 4 * out.mcycles;
      var b1, dma, ppuTicks, cpuTicks := Bus.Tick(bus, tcycles);
      r, fault := Gameboy(b1, out.m), None;
    }
  }

  /** The speed switch leaves whatever the pending transfer needs. */
  lemma SwitchKeepsDmaReady(b: Bus.BusState, r: Bus.BusState)
    requires Bus.DmaReady(b)
    requires r == b || r == Bus.SwitchSpeed(b)
    ensures Bus.DmaReady(r)
  {
    if r != b {
      match b.hdmaMode
      case HdmaNone =>
      case HdmaGeneral =>
        forall k: nat | k < b.hdmaLen + 1
          ensures Bus.BlockReadable(r, k)
        {
          assert Bus.BlockReadable(b, k);
          Bus.ReadOkFrame(b, r, Bus.BlockAddr(b.hdmaSrc, k));
        }
      case HdmaHBlank =>
        if Bus.InHblank(b) {
          Bus.ReadOkFrame(b, r, b.hdmaSrc);
        }
    }
  }

  // ---------------------------------------------------------------------
  // Lemmas

  /** Every type byte falls in exactly one of the three outcomes of
      `makeMbc`: built, known but unimplemented, or invalid. */
  lemma TypeClasses(t: u8)
    ensures Supported(t) ==> !KnownUnsupported(t)
    ensures t == 0x04 || t == 0x07 || t == 0x0A || t == 0x0E ==> !Supported(t) && !KnownUnsupported(t)
  {
  }

  /** A failed load leaves the console as it was, whatever the failure. */
  lemma LoadIsAtomic(g: Gameboy, filename: string, data: seq<u8>, saved: seq<u8>)
    requires HeaderOk(data)
    requires |data| < HeaderSize || !Supported(data[AddrCartType])
    ensures LoadCartridge(g, filename, data, saved).0 == g
    ensures LoadCartridge(g, filename, data, saved).1.Some?
  {
  }

  /** The CGB flag is bit 7 of the header byte. */
  lemma CgbFlagIsBit7(data: seq<u8>)
    requires |data| > AddrCgbFlag
    ensures CgbFlag(data) <==> Bit(data[AddrCgbFlag], 7)
    ensures CgbFlag(data) <==> data[AddrCgbFlag] >= 0x80
  {
    TopBit(data[AddrCgbFlag]);
  }

  lemma TopBit(x: u8)
    ensures Bit(x, 7) <==> x / 0x80 % 2 == 1
    ensures Bit(x, 7) <==> x >= 0x80
  {
    var x1 := x / 2;
    var x3 := x1 / 2 / 2;
    var x5 := x3 / 2 / 2;
    var x7 := x5 / 2 / 2;
    assert Bit(x, 7) == Bit(x1, 6) == Bit(x1 / 2, 5) == Bit(x3, 4) == Bit(x3 / 2, 3) == Bit(x5, 2);
    assert Bit(x5, 2) == Bit(x5 / 2, 1) == Bit(x7, 0);
    assert x7 == x / 0x80;
  }
}

=== FILE: mbc.dfy ===
/** The cartridge as the bus sees it (include/mbc/mbc.h): one of the bank
    controllers, with `read` and `write` dispatching the three cartridge
    windows to it. */
module Mbc {
  import opened Bits
  import Mbc0
  import Mbc1
  import Mbc3
  import Mbc5

  datatype Cartridge =
    | Cart0(m0: Mbc0.Mbc0)
    | Cart1(m1: Mbc1.Mbc1)
    | Cart3(m3: Mbc3.Mbc3)
    | Cart5(m5: Mbc5.Mbc5)

  /** The three windows: ROM bank 0, the switchable ROM bank, cartridge RAM. */
  predicate InRomLo(addr: u16) { addr < 0x4000 }
  predicate InRomHi(addr: u16) { 0x4000 <= addr < 0x8000 }
  predicate InRam(addr: u16) { 0xA000 <= addr < 0xC000 }

  /** What each controller needs of its arrays for a read of `addr` to
      stay inside them. */
  predicate ReadOk(c: Cartridge, addr: u16)
  {
    match c
    case Cart0(m) => Mbc0.Valid(m)
    case Cart1(m) =>
      && |m.rom| > 0
      && (InRomLo(addr) ==> addr < |m.rom|)
      && (InRam(addr) && m.ramEnabled ==> |m.ram| > 0)
    case Cart3(m) =>
      && Mbc3.Valid(m)
      && (InRomLo(addr) ==> addr < |m.rom|)
      && (InRomHi(addr) ==> m.romHiBank * 0x4000 + (addr - 0x4000) < |m.rom|)
      && (InRam(addr) ==> Mbc3.RamInRange(m, addr - 0xA000))
    case Cart5(m) =>
      && |m.rom| > 0
      && (InRomLo(addr) ==> addr < |m.rom|)
      && (InRam(addr) && m.ramEnabled ==> |m.ram| > 0)
  }

  /** `Mbc::read`: each window goes to its handler with the offset into
      the window; any other address reads 0. */
  function Read(c: Cartridge, addr: u16): (v: u8)
    requires ReadOk(c, addr)
    ensures !InRomLo(addr) && !InRomHi(addr) && !InRam(addr) ==> v == 0
    // MBC0: the ROM in both windows, then 8 KiB of RAM
    ensures c.Cart0? && (InRomLo(addr) || InRomHi(addr)) ==> v == c.m0.rom[addr]
    ensures c.Cart0? && InRam(addr) ==> v == c.m0.ram[addr - 0xA000]
    // MBC1
    ensures c.Cart1? && InRomLo(addr) ==> v == c.m1.rom[addr]
    ensures c.Cart1? && InRomHi(addr) && Mbc1.Valid(c.m1) ==>
              v == c.m1.rom[((32 * c.m1.bankHi + c.m1.romBankLo) * 0x4000 + (addr - 0x4000)) % |c.m1.rom|]
    ensures c.Cart1? && InRam(addr) ==>
              v == if !c.m1.ramEnabled then 0xFF
                   else c.m1.ram[(Mbc1.RamBank(c.m1) * 0x2000 + (addr - 0xA000)) % |c.m1.ram|]
    // MBC3
    ensures c.Cart3? && InRomLo(addr) ==> v == c.m3.rom[addr]
    ensures c.Cart3? && InRomHi(addr) ==> v == c.m3.rom[c.m3.romHiBank * 0x4000 + (addr - 0x4000)]
    ensures c.Cart3? && InRam(addr) ==> v == Mbc3.ReadRam(c.m3, addr - 0xA000)
    // MBC5
    ensures c.Cart5? && InRomLo(addr) ==> v == c.m5.rom[addr]
    ensures c.Cart5? && InRomHi(addr) ==>
              v == c.m5.rom[((256 * B2I(c.m5.romBankHi) + c.m5.romBankLo) * 0x4000 + (addr - 0x4000)) % |c.m5.rom|]
    ensures c.Cart5? && InRam(addr) ==>
              v == if !c.m5.ramEnabled then 0xFF
                   else c.m5.ram[(c.m5.ramBank * 0x2000 + (addr - 0xA000)) % |c.m5.ram|]
  {
    match c
    case Cart0(m) => Read0(m, addr)
    case Cart1(m) => Read1(m, addr)
    case Cart3(m) => Read3(m, addr)
    case Cart5(m) => Read5(m, addr)
  }

  /** The window dispatch of `Mbc::read` for each controller. */
  function Read0(m: Mbc0.Mbc0, addr: u16): u8
    requires ReadOk(Cart0(m), addr)
  {
    if InRomLo(addr) then Mbc0.ReadRomLo(m, addr)
    else if InRomHi(addr) then Mbc0.ReadRomHi(m, addr - 0x4000)
    else if InRam(addr) then Mbc0.ReadRam(m, addr - 0xA000)
    else 0
  }

  function Read1(m: Mbc1.Mbc1, addr: u16): u8
    requires ReadOk(Cart1(m), addr)
  {
    if InRomLo(addr) then Mbc1.ReadRomLo(m, addr)
    else if InRomHi(addr) then Mbc1.ReadRomHi(m, addr - 0x4000)
    else if InRam(addr) then Mbc1.ReadRam(m, addr - 0xA000)
    else 0
  }

  function Read3(m: Mbc3.Mbc3, addr: u16): u8
    requires ReadOk(Cart3(m), addr)
  {
    if InRomLo(addr) then Mbc3.ReadRomLo(m, addr)
    else if InRomHi(addr) then Mbc3.ReadRomHi(m, addr - 0x4000)
    else if InRam(addr) then Mbc3.ReadRam(m, addr - 0xA000)
    else 0
  }

  function Read5(m: Mbc5.Mbc5, addr: u16): u8
    requires ReadOk(Cart5(m), addr)
  {
    if InRomLo(addr) then Mbc5.ReadRomLo(m, addr)
    else if InRomHi(addr) then Mbc5.ReadRomHi(m, addr - 0x4000)
    else if InRam(addr) then Mbc5.ReadRam(m, addr - 0xA000)
    else 0
  }

  predicate WriteOk(c: Cartridge, addr: u16)
  {
    match c
    case Cart0(m) => Mbc0.Valid(m)
    case Cart1(m) => InRam(addr) && m.ramEnabled ==> |m.ram| > 0
    case Cart3(m) => Mbc3.Valid(m) && (InRam(addr) ==> Mbc3.RamInRange(m, addr - 0xA000))
    case Cart5(m) => InRam(addr) && m.ramEnabled ==> |m.ram| > 0
  }

  /** `Mbc::write`, with the same windows; `now` is the wall clock the
      MBC3 clock reads. Any other address changes nothing. */
  function Write(c: Cartridge, addr: u16, data: u8, now: u64): (r: Cartridge)
    requires WriteOk(c, addr)
    ensures !InRomLo(addr) && !InRomHi(addr) && !InRam(addr) ==> r == c
    ensures c.Cart0? ==> r.Cart0? && Mbc0.Valid(r.m0) && r.m0.rom == c.m0.rom
    ensures c.Cart0? && !InRam(addr) ==> r == c
    ensures c.Cart1? ==> r.Cart1? && r.m1.rom == c.m1.rom && (Mbc1.Valid(c.m1) ==> Mbc1.Valid(r.m1))
    ensures c.Cart3? ==> r.Cart3? && Mbc3.Valid(r.m3) && r.m3.rom == c.m3.rom
    ensures c.Cart5? ==> r.Cart5? && r.m5.rom == c.m5.rom
  {
    if InRomLo(addr) then
      match c
      case Cart0(m) => Cart0(Mbc0.WriteRomLo(m, addr, data))
      case Cart1(m) => Cart1(Mbc1.WriteRomLo(m, addr, data))
      case Cart3(m) => Cart3(Mbc3.WriteRomLo(m, addr, data))
      case Cart5(m) => Cart5(Mbc5.WriteRomLo(m, addr, data))
    else if InRomHi(addr) then
      match c
      case Cart0(m) => Cart0(Mbc0.WriteRomHi(m, addr - 0x4000, data))
      case Cart1(m) => Cart1(Mbc1.WriteRomHi(m, addr - 0x4000, data))
      case Cart3(m) => Cart3(Mbc3.WriteRomHi(m, addr - 0x4000, data, now))
      case Cart5(m) => Cart5(Mbc5.WriteRomHi(m, addr - 0x4000, data))
    else if InRam(addr) then
      match c
      case Cart0(m) => Cart0(Mbc0.WriteRam(m, addr - 0xA000, data))
      case Cart1(m) => Cart1(Mbc1.WriteRam(m, addr - 0xA000, data))
      case Cart3(m) => Cart3(Mbc3.WriteRam(m, addr - 0xA000, data, now))
      case Cart5(m) => Cart5(Mbc5.WriteRam(m, addr - 0xA000, data))
    else c
  }

  /** Cartridge RAM that is enabled gives back what was written to it, for
      every controller (MBC3 with a RAM bank selected). */
  lemma RamWriteRead(c: Cartridge, addr: u16, data: u8, now: u64)
    requires InRam(addr) && WriteOk(c, addr) && ReadOk(c, addr)
    requires c.Cart1? ==> c.m1.ramEnabled
    requires c.Cart3? ==> c.m3.ramRtcEnabled && c.m3.select < 4
    requires c.Cart5? ==> c.m5.ramEnabled
    ensures ReadOk(Write(c, addr, data, now), addr)
    ensures Read(Write(c, addr, data, now), addr) == data
  {
    match c
    case Cart0(m) => Mbc0.RamWriteRead(m, addr - 0xA000, addr - 0xA000, data);
    case Cart1(m) => Mbc1.RamWriteRead(m, addr - 0xA000, data);
    case Cart3(m) => Mbc3.RamWriteRead(m, addr - 0xA000, data, now);
    case Cart5(m) => Mbc5.RamWriteRead(m, addr - 0xA000, data);
  }
}

=== FILE: mbc0.dfy ===
/** The cartridge without a bank controller (include/mbc/mbc0.h,
    src/mbc/mbc0.cpp): 32 KiB of fixed ROM and 8 KiB of RAM. */
module Mbc0 {
  import opened Bits
  import SaveFile

  const RomSize: nat := 0x8000
  const RamSize: nat := 0x2000

  datatype Mbc0 = Mbc0(rom: seq<u8>, ram: seq<u8>)

  predicate Valid(m: Mbc0)
  {
    |m.rom| == RomSize && |m.ram| == RamSize
  }

  /** The constructor copies the first 0x8000 bytes of the image without
      checking its size, so the image must hold that many. */
  function Init(data: seq<u8>): (m: Mbc0)
    requires |data| >= RomSize
    ensures Valid(m)
    ensures forall i :: 0 <= i < RomSize ==> m.rom[i] == data[i]
    ensures forall i :: 0 <= i < RamSize ==> m.ram[i] == 0
  {
    Mbc0(data[..RomSize], SaveFile.Zeros(RamSize))
  }

  /** The 0x0000-0x3FFF window: the first ROM half. */
  function ReadRomLo(m: Mbc0, addr: u16): (v: u8)
    requires Valid(m) && addr < 0x4000
    ensures v == m.rom[addr]
  {
    m.rom[addr]
  }

  /** The 0x4000-0x7FFF window, offset from 0x4000: the second ROM half. */
  function ReadRomHi(m: Mbc0, addr: u16): (v: u8)
    requires Valid(m) && addr < 0x4000
    ensures v == m.rom[0x4000 + addr]
  {
    m.rom[addr + 0x4000]
  }

  function ReadRam(m: Mbc0, addr: u16): (v: u8)
    requires Valid(m) && addr < 0x2000
  {
    m.ram[addr]
  }

  /** Writes to the ROM windows change nothing. */
  function WriteRomLo(m: Mbc0, addr: u16, data: u8): (r: Mbc0)
    ensures r == m
  {
    m
  }

  function WriteRomHi(m: Mbc0, addr: u16, data: u8): (r: Mbc0)
    ensures r == m
  {
    m
  }

  function WriteRam(m: Mbc0, addr: u16, data: u8): (r: Mbc0)
    requires Valid(m) && addr < 0x2000
    ensures Valid(r) && r.rom == m.rom
  {
    m.(ram := m.ram[addr := data])
  }

  /** RAM keeps what was written at an address and nothing else changes. */
  lemma RamWriteRead(m: Mbc0, addr: u16, other: u16, data: u8)
    requires Valid(m) && addr < 0x2000 && other < 0x2000
    ensures ReadRam(WriteRam(m, addr, data), addr) == data
    ensures other != addr ==> ReadRam(WriteRam(m, addr, data), other) == ReadRam(m, other)
  {
  }

  /** A fresh cartridge shows the image's first half in the low window,
      its second half in the high window, and zeros in RAM. */
  lemma InitWindows(data: seq<u8>, addr: u16)
    requires |data| >= RomSize && addr < 0x4000
    ensures ReadRomLo(Init(data), addr) == data[addr]
    ensures ReadRomHi(Init(data), addr) == data[0x4000 + addr]
    ensures addr < 0x2000 ==> ReadRam(Init(data), addr) == 0
  {
  }

  /** The ROM is read-only: no write, to either ROM window or to RAM,
      changes what the ROM windows show. */
  lemma RomIsReadOnly(m: Mbc0, w: u16, data: u8, addr: u16)
    requires Valid(m) && addr < 0x4000
    ensures ReadRomLo(WriteRomLo(m, w, data), addr) == ReadRomLo(m, addr)
    ensures ReadRomHi(WriteRomHi(m, w, data), addr) == ReadRomHi(m, addr)
    ensures w < 0x2000 ==> ReadRomLo(WriteRam(m, w, data), addr) == ReadRomLo(m, addr)
    ensures w < 0x2000 ==> ReadRomHi(WriteRam(m, w, data), addr) == ReadRomHi(m, addr)
  {
  }
}

=== FILE: mbc1.dfy ===
/** The MBC1 bank controller (include/mbc/mbc1.h, src/mbc/mbc1.cpp). */
module Mbc1 {
  import opened Bits
  import opened Wrappers
  import SaveFile

  /** `ram_bank_or_rom_bank_hi` is called `bankHi`. */
  datatype Mbc1 = Mbc1(rom: seq<u8>, ram: seq<u8>, ramEnabled: bool,
                       romBankLo: u8, bankHi: u8, bankMode: bool,
                       saveFile: Option<string>)

  /** The ranges the bank registers stay in. */
  predicate Valid(m: Mbc1)
  {
    |m.rom| > 0 && 1 <= m.romBankLo < 32 && m.bankHi < 4
  }

  /** The constructor. Only type 0x03 (MBC1+RAM+BATTERY) has a save file,
      named from the ROM file, and its RAM is restored from `saved` (the
      file's bytes, empty if it cannot be opened); every other type gets
      `ramSize` zero bytes. */
  function Init(filename: string, cartType: u8, data: seq<u8>, ramSize: nat, saved: seq<u8>): (m: Mbc1)
    ensures m.rom == data && !m.ramEnabled && m.romBankLo == 1 && m.bankHi == 0 && !m.bankMode
    ensures |data| > 0 ==> Valid(m)
    ensures |m.ram| == ramSize
    ensures m.saveFile.Some? <==> cartType == 0x03
    ensures cartType == 0x03 ==> m.saveFile.value == SaveFile.SaveFileName(filename)
    ensures cartType == 0x03 ==> m.ram == SaveFile.Restore(saved, ramSize)
    ensures cartType != 0x03 ==> forall i :: 0 <= i < ramSize ==> m.ram[i] == 0
  {
    if cartType == 0x03 then
      Mbc1(data, SaveFile.Restore(saved, ramSize), false, 1, 0, false, Some(SaveFile.SaveFileName(filename)))
    else
      Mbc1(data, SaveFile.Zeros(ramSize), false, 1, 0, false, None)
  }

  /** The bank `readRomHi` selects, `(bankHi << 5) | romBankLo`: the two
      registers side by side, as the low one has 5 bits. */
  function RomBank(m: Mbc1): (bank: nat)
    ensures m.romBankLo < 32 ==> bank == 32 * m.bankHi + m.romBankLo
  {
    var bank := Combine(OrOp, m.bankHi * 32, m.romBankLo, 16);
    if m.romBankLo < 32 then
      assert Pow2(5) == 32 && Pow2(16) == 0x1_0000;
      OrShifted(m.bankHi, m.romBankLo, 5, 16);
      bank
    else bank
  }

  /** `readRomLo` always reads bank 0, ignoring the bank registers. */
  function ReadRomLo(m: Mbc1, addr: u16): (v: u8)
    requires addr < 0x4000 && addr < |m.rom|
    ensures v == m.rom[addr]
  {
    m.rom[addr]
  }

  /** `readRomHi`: the selected bank, wrapped to the ROM's size. */
  function ReadRomHi(m: Mbc1, addr: u16): (v: u8)
    requires |m.rom| > 0
    ensures Valid(m) ==> v == m.rom[((32 * m.bankHi + m.romBankLo) * 0x4000 + addr) % |m.rom|]
  {
    m.rom[(RomBank(m) * 0x4000 + addr) % |m.rom|]
  }

  /** The RAM bank: `bankHi` in mode 1, bank 0 in mode 0. */
  function RamBank(m: Mbc1): nat
  {
    if m.bankMode then m.bankHi else 0
  }

  /** `readRam`: 0xFF while RAM is disabled. The index is wrapped to the
      RAM's size, which must then not be zero. */
  function ReadRam(m: Mbc1, addr: u16): (v: u8)
    requires m.ramEnabled ==> |m.ram| > 0
    ensures !m.ramEnabled ==> v == 0xFF
    ensures m.ramEnabled ==> v == m.ram[(RamBank(m) * 0x2000 + addr) % |m.ram|]
  {
    if !m.ramEnabled then 0xFF else m.ram[(RamBank(m) * 0x2000 + addr) % |m.ram|]
  }

  /** `writeRomLo`: below 0x2000 RAM is enabled iff the data's low nibble
      is 0xA; above, the low ROM bank takes bits 0-4, with 0 read as 1. */
  function WriteRomLo(m: Mbc1, addr: u16, data: u8): (r: Mbc1)
    ensures addr < 0x2000 ==> r == m.(ramEnabled := (data % 16 == 0xA))
    ensures addr >= 0x2000 ==> r == m.(romBankLo := r.romBankLo)
    ensures addr >= 0x2000 ==> 1 <= r.romBankLo < 32 && (data % 32 != 0 ==> r.romBankLo == data % 32)
    ensures Valid(m) ==> Valid(r)
  {
    if addr < 0x2000 then m.(ramEnabled := data % 16 == 0xA)
    else
      var lo := data % 32;
      m.(romBankLo := if lo == 0 then 1 else lo)
  }

  /** `writeRomHi`: below offset 0x2000 the 2-bit high/RAM bank, above it
      the banking mode from bit 0. */
  function WriteRomHi(m: Mbc1, addr: u16, data: u8): (r: Mbc1)
    ensures addr < 0x2000 ==> r == m.(bankHi := data % 4)
    ensures addr >= 0x2000 ==> r == m.(bankMode := data % 2 == 1)
    ensures Valid(m) ==> Valid(r)
  {
    if addr < 0x2000 then m.(bankHi := data % 4) else m.(bankMode := data % 2 == 1)
  }

  /** `writeRam`: ignored while RAM is disabled. */
  function WriteRam(m: Mbc1, addr: u16, data: u8): (r: Mbc1)
    requires m.ramEnabled ==> |m.ram| > 0
    ensures !m.ramEnabled ==> r == m
    ensures |r.ram| == |m.ram| && r == m.(ram := r.ram)
  {
    if !m.ramEnabled then m
    else m.(ram := m.ram[(RamBank(m) * 0x2000 + addr) % |m.ram|:= data])
  }

  // ---------------------------------------------------------------------
  // Lemmas

  /** With RAM enabled, a byte written is read back at the same address. */
  lemma RamWriteRead(m: Mbc1, addr: u16, data: u8)
    requires m.ramEnabled && |m.ram| > 0
    ensures ReadRam(WriteRam(m, addr, data), addr) == data
  {
  }

  /** Disabled RAM reads 0xFF and writes leave the controller as it was. */
  lemma DisabledRam(m: Mbc1, addr: u16, data: u8)
    requires !m.ramEnabled
    ensures ReadRam(m, addr) == 0xFF && WriteRam(m, addr, data) == m
  {
  }

  /** The switchable window never shows bank 0: a bank number of 0 in the
      low register selects bank 1 (for ROMs of more than one bank). */
  lemma RomHiNeverBankZero(m: Mbc1, addr: u16, data: u8)
    requires Valid(m) && addr >= 0x2000 && data % 32 == 0
    ensures WriteRomLo(m, addr, data).romBankLo == 1
    ensures 32 * m.bankHi + WriteRomLo(m, addr, data).romBankLo != 0
  {
  }

  /** After writing `hi` to the high register and `lo` to the low one,
      the high window shows bank `32 * hi + lo`. */
  lemma BankSwitchSelects(m: Mbc1, hi: u8, lo: u8, addr: u16)
    requires Valid(m) && 0 < lo < 32 && hi < 4 && addr < 0x4000
    ensures var m1 := WriteRomLo(WriteRomHi(m, 0x0000, hi), 0x2000, lo);
            ReadRomHi(m1, addr) == m.rom[((32 * hi + lo) * 0x4000 + addr) % |m.rom|]
  {
    var m0 := WriteRomHi(m, 0x0000, hi);
    assert m0 == m.(bankHi := hi);
    var m1 := WriteRomLo(m0, 0x2000, lo);
    assert m1 == m0.(romBankLo := lo);
    assert Valid(m1) && m1.rom == m.rom;
  }

  /** The fixed window ignores the bank registers: no register write
      changes what it shows. */
  lemma RomLoIgnoresBanking(m: Mbc1, w: u16, data: u8, addr: u16)
    requires addr < 0x4000 && addr < |m.rom|
    ensures ReadRomLo(WriteRomLo(m, w, data), addr) == ReadRomLo(m, addr)
    ensures ReadRomLo(WriteRomHi(m, w, data), addr) == ReadRomLo(m, addr)
  {
  }

  /** Writing a low nibble of 0xA below 0x2000 opens the RAM; any other
      value closes it, and the RAM then reads 0xFF. */
  lemma RamEnableGates(m: Mbc1, data: u8, addr: u16)
    requires |m.ram| > 0
    ensures ReadRam(WriteRomLo(m, 0x0000, data), addr) ==
              if data % 16 == 0xA then m.ram[(RamBank(m) * 0x2000 + addr) % |m.ram|] else 0xFF
  {
  }

  /** With RAM enabled and `hi` in the high register, mode 1 reads RAM
      bank `hi` and mode 0 reads bank 0. */
  lemma RamBankSelects(m: Mbc1, hi: u8, addr: u16)
    requires m.ramEnabled && |m.ram| > 0 && hi < 4
    ensures var m0 := WriteRomHi(m, 0x0000, hi);
            ReadRam(WriteRomHi(m0, 0x2000, 1), addr) == m.ram[(hi * 0x2000 + addr) % |m.ram|]
    ensures var m0 := WriteRomHi(m, 0x0000, hi);
            ReadRam(WriteRomHi(m0, 0x2000, 0), addr) == m.ram[addr % |m.ram|]
  {
  }
}

=== FILE: mbc3.dfy ===
/** The MBC3 bank controller with its real-time clock (include/mbc/mbc3.h,
    src/mbc/mbc3.cpp). The wall clock is the parameter `now`, in whole
    seconds since the epoch. */
module Mbc3 {
  import opened Bits
  import opened Wrappers
  import SaveFile

  const Two64: int := 0x1_0000_0000_0000_0000
  const SecondsPerDay: nat := 86400
  /** The clock's day counter has 9 bits: it wraps after 512 days. */
  const ClockPeriod: nat := 512 * 86400

  /** `ram_bank_or_rtc_reg` is called `select`; `rtc` holds the five clock
      registers: seconds, minutes, hours, day bits 0-7, and the control
      byte (day bit 8 in bit 0, halt in bit 6, day carry in bit 7). */
  datatype Mbc3 = Mbc3(rom: seq<u8>, ram: seq<u8>, ramRtcEnabled: bool, rtcLatch: bool,
                       romHiBank: u8, select: u8, rtc: seq<u8>, rtcBase: u64,
                       saveFile: Option<string>)

  predicate Valid(m: Mbc3)
  {
    |m.rtc| == 5
  }

  /** The battery-backed types and what their save file restores. */
  datatype Battery = Battery(battery: bool, restoreRam: bool, tryRestoreRtc: bool)

  function BatteryOf(cartType: u8): (b: Battery)
    ensures b.battery <==> cartType in {0x0F, 0x10, 0x13}
    ensures b.restoreRam <==> cartType in {0x10, 0x13}
    ensures b.tryRestoreRtc <==> cartType in {0x0F, 0x10}
    ensures b.restoreRam || b.tryRestoreRtc <==> b.battery
  {
    Battery(cartType == 0x0F || cartType == 0x10 || cartType == 0x13,
            cartType == 0x10 || cartType == 0x13,
            cartType == 0x0F || cartType == 0x10)
  }

  /** The constructor: bank 1, register select 0, a zero clock with base 0,
      RAM and clock disabled. Battery types get a save file named after the
      ROM; types 0x10 and 0x13 restore `ramSize` bytes of RAM from the save
      (`saved`), while 0x0F only reserves room, so its RAM stays empty. The
      others get `ramSize` zero bytes. */
  function Init(filename: string, cartType: u8, data: seq<u8>, ramSize: nat,
                saved: seq<u8>): (m: Mbc3)
    ensures Valid(m) && m.rom == data
    ensures !m.ramRtcEnabled && !m.rtcLatch && m.romHiBank == 1 && m.select == 0
    ensures m.rtcBase == 0 && forall i :: 0 <= i < 5 ==> m.rtc[i] == 0
    ensures m.saveFile.Some? <==> BatteryOf(cartType).battery
    ensures m.saveFile.Some? ==> m.saveFile.value == SaveFile.SaveFileName(filename)
    ensures BatteryOf(cartType).restoreRam ==> m.ram == SaveFile.Restore(saved, ramSize)
    ensures BatteryOf(cartType).battery && !BatteryOf(cartType).restoreRam ==> m.ram == []
    ensures m.saveFile.None? ==> m.ram == SaveFile.Zeros(ramSize)
  {
    var zeroClock := SaveFile.Zeros(5);
    var b := BatteryOf(cartType);
    if b.battery then
      var ram := if b.restoreRam then SaveFile.Restore(saved, ramSize) else [];
      Mbc3(data, ram, false, false, 1, 0, zeroClock, 0, Some(SaveFile.SaveFileName(filename)))
    else
      Mbc3(data, SaveFile.Zeros(ramSize), false, false, 1, 0, zeroClock, 0, None)
  }

  // ---------------------------------------------------------------------
  // ROM and RAM

  function ReadRomLo(m: Mbc3, addr: u16): (v: u8)
    requires addr < |m.rom|
    ensures v == m.rom[addr]
  {
    m.rom[addr]
  }

  /** `readRomHi` does not wrap the bank to the ROM's size, so the bank
      must lie inside the ROM. */
  function ReadRomHi(m: Mbc3, addr: u16): (v: u8)
    requires m.romHiBank * 0x4000 + addr < |m.rom|
    ensures v == m.rom[m.romHiBank * 0x4000 + addr]
  {
    m.rom[m.romHiBank * 0x4000 + addr]
  }

  /** The RAM bank selected must lie inside the RAM. */
  predicate RamInRange(m: Mbc3, addr: u16)
  {
    m.ramRtcEnabled && m.select < 4 ==> m.select * 0x2000 + addr < |m.ram|
  }

  /** `readRam`: 0 while disabled; a RAM bank for selects 0-3, a clock
      register for selects 8-12, and 0 for the rest. */
  function ReadRam(m: Mbc3, addr: u16): (v: u8)
    requires Valid(m) && RamInRange(m, addr)
    ensures !m.ramRtcEnabled ==> v == 0
    ensures m.ramRtcEnabled && m.select < 4 ==> v == m.ram[m.select * 0x2000 + addr]
    ensures m.ramRtcEnabled && 8 <= m.select <= 12 ==> v == m.rtc[m.select - 8]
    ensures m.ramRtcEnabled && (4 <= m.select < 8 || m.select > 12) ==> v == 0
  {
    if !m.ramRtcEnabled then 0
    else if m.select < 4 then m.ram[m.select * 0x2000 + addr]
    else if 8 <= m.select <= 12 then m.rtc[m.select - 8]
    else 0
  }

  /** `writeRomLo`: below 0x2000 RAM and clock are enabled iff the data's
      low nibble is 0xA; above, the ROM bank is `data & 0x7F`, except that
      0 selects bank 1 (so 0x80 selects bank 0). */
  function WriteRomLo(m: Mbc3, addr: u16, data: u8): (r: Mbc3)
    ensures addr < 0x2000 ==> r == m.(ramRtcEnabled := data % 16 == 0xA)
    ensures addr >= 0x2000 ==> r == m.(romHiBank := r.romHiBank) && r.romHiBank < 0x80
    ensures addr >= 0x2000 ==> (r.romHiBank == 0 <==> data == 0x80)
    ensures addr >= 0x2000 && data != 0 ==> r.romHiBank == data % 0x80
  {
    if addr < 0x2000 then m.(ramRtcEnabled := data % 16 == 0xA)
    else m.(romHiBank := if data == 0 then 1 else data % 0x80)
  }

  // ---------------------------------------------------------------------
  // The clock

  /** The 9-bit day counter: bit 0 of the control byte above `rtc[3]`. */
  function Days(rtc: seq<u8>): (d: nat)
    requires |rtc| == 5
    ensures d < 512
  {
    (rtc[4] as int % 2) * 256 + rtc[3] as int
  }

  /** The time the clock registers show, in seconds. */
  function RtcSeconds(rtc: seq<u8>): nat
    requires |rtc| == 5
  {
    rtc[0] as int + 60 * (rtc[1] as int) + 3600 * (rtc[2] as int) + SecondsPerDay * Days(rtc)
  }

  /** `computeRtcBase`: the epoch second at which a clock showing `rtc`
      would have shown zero. Each subtraction is on a `uint64_t`, so the
      result is taken mod 2^64. */
  function ComputeRtcBase(rtc: seq<u8>, now: u64): (base: u64)
    requires |rtc| == 5
    ensures (base + RtcSeconds(rtc)) % Two64 == now
  {
    (now - RtcSeconds(rtc)) % Two64
  }

  /** Latching: the seconds since `rtcBase` (mod 2^64) split into the
      registers. Bit 0 of the control byte takes day bit 8; a day count of
      512 or more also sets the carry bit 7 and moves the base so that the
      clock keeps only the days mod 512. */
  function Latch(m: Mbc3, now: u64): (r: Mbc3)
    requires Valid(m)
    ensures Valid(r) && r == m.(rtc := r.rtc, rtcBase := r.rtcBase)
    ensures r.rtc[0] < 60 && r.rtc[1] < 60 && r.rtc[2] < 24
    ensures r.rtc[4] / 2 % 64 == m.rtc[4] / 2 % 64
    ensures r.rtc[4] >= 0x80 <==> m.rtc[4] >= 0x80 || (now - m.rtcBase) % Two64 >= ClockPeriod
    ensures (now - m.rtcBase) % Two64 < ClockPeriod ==> r.rtcBase == m.rtcBase
    ensures (now - m.rtcBase) % Two64 >= ClockPeriod ==> r.rtcBase == ComputeRtcBase(r.rtc, now)
  {
    var seconds := (now - m.rtcBase) % Two64;
    var days := seconds / SecondsPerDay;
    DayCarry(seconds);
    var rtc := ClockRegisters(seconds, m.rtc[4]);
    if days >= 512 then m.(rtc := rtc, rtcBase := ComputeRtcBase(rtc, now))
    else m.(rtc := rtc)
  }

  /** The five registers a latch of `seconds` shows, the control byte
      being built from the old one. */
  function ClockRegisters(seconds: nat, control: u8): (rtc: seq<u8>)
    ensures |rtc| == 5 && rtc[0] < 60 && rtc[1] < 60 && rtc[2] < 24
    ensures rtc[0] == seconds % 60 && rtc[1] == (seconds / 60) % 60 && rtc[2] == (seconds / 3600) % 24
    ensures rtc[3] == (seconds / SecondsPerDay) % 256
    ensures rtc[4] == LatchControl(control, seconds / SecondsPerDay)
  {
    var days := seconds / SecondsPerDay;
    [seconds % 60, (seconds / 60) % 60, (seconds / 3600) % 24, days % 256, LatchControl(control, days)]
  }

  /** The control byte after a latch at day `days`: bit 0 takes day bit 8,
      bit 7 is set by a day count of 512 or more (`|= 0x80` on a byte, so
      a bit already set stays set), bits 1-6 are kept. */
  function LatchControl(control: u8, days: nat): (c: u8)
    ensures c % 2 == (days / 256) % 2
    ensures c / 2 % 64 == control / 2 % 64
    ensures c >= 0x80 <==> control >= 0x80 || days >= 512
  {
    var c := control - control % 2 + (days / 256) % 2;
    if days >= 512 && c < 0x80 then c + 0x80 else c
  }

  /** The day counter overflows exactly when a whole clock period has passed. */
  lemma DayCarry(seconds: nat)
    ensures seconds / SecondsPerDay >= 512 <==> seconds >= ClockPeriod
  {
  }

  /** `writeRomHi`: below offset 0x2000 the RAM bank / clock register
      select; above, the latch register. The clock latches on a 0-to-1
      edge of bit 0 while the halt bit (bit 6 of the control byte) is clear. */
  function WriteRomHi(m: Mbc3, addr: u16, data: u8, now: u64): (r: Mbc3)
    requires Valid(m)
    ensures Valid(r)
    ensures addr < 0x2000 ==> r == m.(select := data)
    ensures addr >= 0x2000 && !(!m.rtcLatch && data % 2 == 1 && (m.rtc[4] / 64) % 2 == 0) ==>
              r == m.(rtcLatch := data % 2 == 1)
    ensures addr >= 0x2000 && !m.rtcLatch && data % 2 == 1 && (m.rtc[4] / 64) % 2 == 0 ==>
              r == Latch(m, now).(rtcLatch := true)
  {
    if addr < 0x2000 then m.(select := data)
    else
      var latch := data % 2 == 1;
      if !m.rtcLatch && latch && (m.rtc[4] / 64) % 2 == 0 then Latch(m, now).(rtcLatch := true)
      else m.(rtcLatch := latch)
  }

  /** `writeRam` as written: with a clock register selected it stores the
      data into `rtc[data - 8]`, indexing by the data instead of the
      select; the store is defined only for data 8-12. */
  function WriteRamAsWritten(m: Mbc3, addr: u16, data: u8, now: u64): (r: Mbc3)
    requires Valid(m) && RamInRange(m, addr)
    requires m.ramRtcEnabled && m.select >= 8 ==> 8 <= data <= 12
    ensures Valid(r)
    ensures !m.ramRtcEnabled || 4 <= m.select < 8 ==> r == m
    ensures m.ramRtcEnabled && m.select >= 8 ==>
              r.rtc == m.rtc[data - 8 := data] && r.rtcBase == ComputeRtcBase(r.rtc, now)
  {
    if !m.ramRtcEnabled then m
    else if m.select < 4 then m.(ram := m.ram[m.select * 0x2000 + addr := data])
    else if m.select >= 8 then
      var rtc := m.rtc[data - 8 := data];
      m.(rtc := rtc, rtcBase := ComputeRtcBase(rtc, now))
    else m
  }

  /** `writeRam` as evidently intended: the selected clock register takes
      the data, and the base is recomputed so the clock runs on from the
      new value. Selects above 12 name no register and store nothing. */
  function WriteRam(m: Mbc3, addr: u16, data: u8, now: u64): (r: Mbc3)
    requires Valid(m) && RamInRange(m, addr)
    ensures Valid(r) && |r.ram| == |m.ram|
    ensures !m.ramRtcEnabled || 4 <= m.select < 8 ==> r == m
    ensures m.ramRtcEnabled && m.select < 4 ==>
              r == m.(ram := m.ram[m.select * 0x2000 + addr := data])
    ensures m.ramRtcEnabled && 8 <= m.select <= 12 ==> r.rtc == m.rtc[m.select - 8 := data]
    ensures m.ramRtcEnabled && m.select > 12 ==> r.rtc == m.rtc
    ensures m.ramRtcEnabled && m.select >= 8 ==> r.rtcBase == ComputeRtcBase(r.rtc, now)
  {
    if !m.ramRtcEnabled then m
    else if m.select < 4 then m.(ram := m.ram[m.select * 0x2000 + addr := data])
    else if m.select >= 8 then
      var rtc := if m.select <= 12 then m.rtc[m.select - 8 := data] else m.rtc;
      m.(rtc := rtc, rtcBase := ComputeRtcBase(rtc, now))
    else m
  }

  // ---------------------------------------------------------------------
  // Lemmas

  /** `s mod a` and the next digit in base `b` make `s mod ab`. */
  lemma ModSplit(s: nat, a: nat, b: nat)
    requires a > 0 && b > 0
    ensures s % a + a * ((s / a) % b) == s % (a * b)
    ensures s / a / b == s / (a * b)
  {
    var q, r := s / a, s % a;
    var q1, q0 := q / b, q % b;
    assert s == a * q + r;
    assert q == b * q1 + q0;
    MulRegroup(a, b, q1, q0);
    MulBelow(a, b, q0, r);
    DivUnique(s, a * b, q1, a * q0 + r);
  }

  lemma MulRegroup(a: nat, b: nat, q1: nat, q0: nat)
    ensures a * (b * q1 + q0) == a * b * q1 + a * q0
  {
  }

  lemma MulBelow(a: nat, b: nat, q0: nat, r: nat)
    requires q0 < b && r < a
    ensures a * q0 + r < a * b
  {
    assert a * q0 <= a * (b - 1);
  }

  lemma DivUnique(s: nat, d: nat, q: nat, r: nat)
    requires d > 0 && 0 <= r < d && s == d * q + r
    ensures s / d == q && s % d == r
  {
    var q', r' := s / d, s % d;
    var x := q - q';
    assert d * x == r' - r;
  }

  /** The latched registers show the seconds since the base, mod 512 days. */
  lemma LatchShowsElapsed(m: Mbc3, now: u64)
    requires Valid(m)
    ensures RtcSeconds(Latch(m, now).rtc) == ((now - m.rtcBase) % Two64) % ClockPeriod
  {
    var seconds := (now - m.rtcBase) % Two64;
    var r := Latch(m, now).rtc;
    var days := seconds / SecondsPerDay;
    assert r[0] == seconds % 60 && r[1] == (seconds / 60) % 60 && r[2] == (seconds / 3600) % 24;
    assert r[3] == days % 256 && r[4] % 2 == (days / 256) % 2;
    ClockFields(seconds);
  }

  /** The clock fields of a second count spell its value mod 512 days. */
  lemma ClockFields(s: nat)
    ensures var days := s / SecondsPerDay;
            s % 60 + 60 * ((s / 60) % 60) + 3600 * ((s / 3600) % 24)
            + SecondsPerDay * (days % 256 + 256 * ((days / 256) % 2)) == s % ClockPeriod
  {
    ModSplit(s, 60, 60);
    ModSplit(s, 3600, 24);
    var days := s / SecondsPerDay;
    ModSplit(days, 256, 2);
    ModSplit(s, SecondsPerDay, 512);
  }

  /** A clock that is set (base recomputed at `now`) and latched `t`
      seconds later shows its old time plus `t`, mod 512 days. With
      `t == 0` the registers come back as written. */
  lemma SetThenLatch(m: Mbc3, now: u64, t: nat)
    requires Valid(m) && now + t < Two64 && RtcSeconds(m.rtc) + t < Two64
    ensures var m1 := m.(rtcBase := ComputeRtcBase(m.rtc, now));
            RtcSeconds(Latch(m1, now + t).rtc) == (RtcSeconds(m.rtc) + t) % ClockPeriod
  {
    var base := ComputeRtcBase(m.rtc, now);
    ElapsedSinceSet(base, RtcSeconds(m.rtc), now, t);
    LatchAfter(m.(rtcBase := base), now + t, RtcSeconds(m.rtc) + t);
  }

  lemma LatchAfter(m: Mbc3, now: u64, e: nat)
    requires Valid(m) && (now - m.rtcBase) % Two64 == e
    ensures RtcSeconds(Latch(m, now).rtc) == e % ClockPeriod
  {
    LatchShowsElapsed(m, now);
  }

  /** With the base set so that `base + s` is `now` mod 2^64, `t` seconds
      later the elapsed time is `s + t`. */
  lemma ElapsedSinceSet(base: u64, s: nat, now: u64, t: nat)
    requires (base + s) % Two64 == now && now + t < Two64 && s + t < Two64
    ensures ((now + t) - base) % Two64 == s + t
  {
    var k := (base + s) / Two64;
    assert base + s == k * Two64 + now;
    assert (now + t) - base == s + t - k * Two64;
    ModShift((now + t) - base, k, s + t);
  }

  lemma ModShift(x: int, k: int, y: nat)
    requires y < Two64 && x == y - k * Two64
    ensures x % Two64 == y
  {
  }

  /** A clock whose registers are in range reads back unchanged when set
      and latched at once. */
  lemma SetThenLatchAtOnce(m: Mbc3, now: u64)
    requires Valid(m) && m.rtc[0] < 60 && m.rtc[1] < 60 && m.rtc[2] < 24
    ensures var m1 := m.(rtcBase := ComputeRtcBase(m.rtc, now));
            var r := Latch(m1, now).rtc;
            r[0] == m.rtc[0] && r[1] == m.rtc[1] && r[2] == m.rtc[2] && r[3] == m.rtc[3]
            && r[4] % 2 == m.rtc[4] % 2
  {
    SameTimeAtOnce(m, now);
    var m1 := m.(rtcBase := ComputeRtcBase(m.rtc, now));
    FieldsUnique(Latch(m1, now).rtc, m.rtc);
  }

  lemma SameTimeAtOnce(m: Mbc3, now: u64)
    requires Valid(m) && m.rtc[0] < 60 && m.rtc[1] < 60 && m.rtc[2] < 24
    ensures var m1 := m.(rtcBase := ComputeRtcBase(m.rtc, now));
            RtcSeconds(Latch(m1, now).rtc) == RtcSeconds(m.rtc)
  {
    SetThenLatch(m, now, 0);
    var x := RtcSeconds(m.rtc);
    RtcBelowPeriod(m.rtc);
    DivUnique(x, ClockPeriod, 0, x);
  }

  lemma RtcBelowPeriod(rtc: seq<u8>)
    requires |rtc| == 5 && rtc[0] < 60 && rtc[1] < 60 && rtc[2] < 24
    ensures RtcSeconds(rtc) < ClockPeriod
  {
    assert 60 * (rtc[1] as int) <= 60 * 59;
    assert 3600 * (rtc[2] as int) <= 3600 * 23;
    assert SecondsPerDay * Days(rtc) <= SecondsPerDay * 511;
  }

  /** In-range clock registers are determined by the time they show. */
  lemma FieldsUnique(a: seq<u8>, b: seq<u8>)
    requires |a| == 5 && |b| == 5 && RtcSeconds(a) == RtcSeconds(b)
    requires a[0] < 60 && a[1] < 60 && a[2] < 24 && b[0] < 60 && b[1] < 60 && b[2] < 24
    ensures a[0] == b[0] && a[1] == b[1] && a[2] == b[2] && a[3] == b[3] && a[4] % 2 == b[4] % 2
  {
    DivUnique(Days(a), 256, a[4] as int % 2, a[3]);
    DivUnique(Days(b), 256, b[4] as int % 2, b[3]);
    var ra := a[0] as int + 60 * (a[1] as int) + 3600 * (a[2] as int);
    var rb := b[0] as int + 60 * (b[1] as int) + 3600 * (b[2] as int);
    DivUnique(RtcSeconds(a), SecondsPerDay, Days(a), ra);
    DivUnique(RtcSeconds(b), SecondsPerDay, Days(b), rb);
    DivUnique(ra, 3600, a[2], a[0] as int + 60 * (a[1] as int));
    DivUnique(rb, 3600, b[2], b[0] as int + 60 * (b[1] as int));
    DivUnique(a[0] as int + 60 * (a[1] as int), 60, a[1], a[0]);
    DivUnique(b[0] as int + 60 * (b[1] as int), 60, b[1], b[0]);
  }

  /** The latch needs a rising edge: holding bit 0 high does not latch again. */
  lemma LatchNeedsRisingEdge(m: Mbc3, addr: u16, data: u8, now: u64)
    requires Valid(m) && m.rtcLatch && addr >= 0x2000
    ensures WriteRomHi(m, addr, data, now).rtc == m.rtc
  {
  }

  /** A halted clock never latches. */
  lemma HaltedClockDoesNotLatch(m: Mbc3, addr: u16, data: u8, now: u64)
    requires Valid(m) && (m.rtc[4] / 64) % 2 == 1
    ensures WriteRomHi(m, addr, data, now).rtc == m.rtc
  {
  }

  /** After writing `data` above 0x2000, the high window shows bank
      `data & 0x7F`, or bank 1 for data 0. */
  lemma BankSwitchSelects(m: Mbc3, w: u16, data: u8, addr: u16)
    requires w >= 0x2000
    requires (if data == 0 then 1 else data % 0x80) * 0x4000 + addr < |m.rom|
    ensures var bank := if data == 0 then 1 else data % 0x80;
            ReadRomHi(WriteRomLo(m, w, data), addr) == m.rom[bank * 0x4000 + addr]
  {
  }

  /** The fixed window ignores the bank registers: no register write
      changes what it shows. */
  lemma RomLoIgnoresBanking(m: Mbc3, w: u16, data: u8, addr: u16, now: u64)
    requires Valid(m) && addr < |m.rom|
    ensures ReadRomLo(WriteRomLo(m, w, data), addr) == ReadRomLo(m, addr)
    ensures ReadRomLo(WriteRomHi(m, w, data, now), addr) == ReadRomLo(m, addr)
  {
  }

  /** With RAM and clock enabled, writing a select below offset 0x2000
      routes RAM reads: 0-3 to that RAM bank, 8-12 to a clock register,
      anything else to 0. */
  lemma SelectRoutesReads(m: Mbc3, w: u16, sel: u8, addr: u16, now: u64)
    requires Valid(m) && m.ramRtcEnabled && w < 0x2000
    requires sel < 4 ==> sel * 0x2000 + addr < |m.ram|
    ensures var m1 := WriteRomHi(m, w, sel, now);
            RamInRange(m1, addr) &&
            ReadRam(m1, addr) == if sel < 4 then m.ram[sel * 0x2000 + addr]
                                 else if 8 <= sel <= 12 then m.rtc[sel - 8] else 0
  {
  }

  /** Disabled RAM and clock read 0 whatever is selected. */
  lemma DisabledReadsZero(m: Mbc3, data: u8, addr: u16)
    requires Valid(m) && data % 16 != 0xA
    ensures RamInRange(WriteRomLo(m, 0x0000, data), addr)
    ensures ReadRam(WriteRomLo(m, 0x0000, data), addr) == 0
  {
  }

  /** RAM written with a RAM bank selected reads back. */
  lemma RamWriteRead(m: Mbc3, addr: u16, data: u8, now: u64)
    requires Valid(m) && RamInRange(m, addr) && m.ramRtcEnabled && m.select < 4
    ensures ReadRam(WriteRam(m, addr, data, now), addr) == data
  {
  }

  /** A clock register written reads back when the write is indexed by
      the select. */
  lemma RtcWriteRead(m: Mbc3, addr: u16, data: u8, now: u64)
    requires Valid(m) && m.ramRtcEnabled && 8 <= m.select <= 12
    ensures ReadRam(WriteRam(m, addr, data, now), addr) == data
  {
  }

  /** As written, selecting the seconds register (0x08) and writing 10
      stores into the hours register instead, so the seconds read back
      unchanged. */
  lemma RtcWriteAsWrittenMisses(m: Mbc3, addr: u16, now: u64)
    requires Valid(m) && m.ramRtcEnabled && m.select == 0x08 && m.rtc[0] != 10
    ensures ReadRam(WriteRamAsWritten(m, addr, 10, now), addr) == m.rtc[0]
    ensures WriteRamAsWritten(m, addr, 10, now).rtc[2] == 10
  {
  }
}

=== FILE: mbc5.dfy ===
/** The MBC5 bank controller (include/mbc/mbc5.h, src/mbc/mbc5.cpp). */
module Mbc5 {
  import opened Bits
  import opened Wrappers
  import SaveFile

  datatype Mbc5 = Mbc5(rom: seq<u8>, ram: seq<u8>, ramEnabled: bool,
                       romBankLo: u8, ramBank: u8, romBankHi: bool,
                       saveFile: Option<string>)

  /** The constructor: low ROM bank 1, high bit clear, RAM bank 0, RAM
      disabled. Only types 0x1B and 0x1E (with battery) have a save file;
      their RAM is restored from it, the others get `ramSize` zero bytes. */
  function Init(filename: string, cartType: u8, data: seq<u8>, ramSize: nat, saved: seq<u8>): (m: Mbc5)
    ensures m.rom == data && !m.ramEnabled && m.romBankLo == 1 && m.ramBank == 0 && !m.romBankHi
    ensures |m.ram| == ramSize
    ensures m.saveFile.Some? <==> cartType in {0x1B, 0x1E}
    ensures m.saveFile.Some? ==> m.saveFile.value == SaveFile.SaveFileName(filename)
    ensures m.saveFile.Some? ==> m.ram == SaveFile.Restore(saved, ramSize)
    ensures m.saveFile.None? ==> forall i :: 0 <= i < ramSize ==> m.ram[i] == 0
  {
    if cartType == 0x1B || cartType == 0x1E then
      Mbc5(data, SaveFile.Restore(saved, ramSize), false, 1, 0, false, Some(SaveFile.SaveFileName(filename)))
    else
      Mbc5(data, SaveFile.Zeros(ramSize), false, 1, 0, false, None)
  }

  /** `(rom_bank_hi << 8) | rom_bank_lo`: a 9-bit bank number, 0 allowed. */
  function RomBank(m: Mbc5): (bank: nat)
    ensures bank == 256 * B2I(m.romBankHi) + m.romBankLo
  {
    assert Pow2(8) == 256 && Pow2(16) == 0x1_0000;
    OrShifted(B2I(m.romBankHi), m.romBankLo, 8, 16);
    Combine(OrOp, B2I(m.romBankHi) * 256, m.romBankLo, 16)
  }

  function ReadRomLo(m: Mbc5, addr: u16): (v: u8)
    requires addr < |m.rom|
    ensures v == m.rom[addr]
  {
    m.rom[addr]
  }

  /** `readRomHi`: the selected bank, wrapped to the ROM's size. */
  function ReadRomHi(m: Mbc5, addr: u16): (v: u8)
    requires |m.rom| > 0
    ensures v == m.rom[((256 * B2I(m.romBankHi) + m.romBankLo) * 0x4000 + addr) % |m.rom|]
  {
    m.rom[(RomBank(m) * 0x4000 + addr) % |m.rom|]
  }

  /** `readRam`: 0xFF while disabled; otherwise the selected bank wrapped
      to the RAM's size, which must then not be zero. */
  function ReadRam(m: Mbc5, addr: u16): (v: u8)
    requires m.ramEnabled ==> |m.ram| > 0
    ensures !m.ramEnabled ==> v == 0xFF
    ensures m.ramEnabled ==> v == m.ram[(m.ramBank * 0x2000 + addr) % |m.ram|]
  {
    if !m.ramEnabled then 0xFF else m.ram[(m.ramBank * 0x2000 + addr) % |m.ram|]
  }

  /** `writeRomLo`: below 0x2000 the RAM enable (low nibble 0xA); up to
      0x2FFF the low ROM bank byte; above, the ninth bank bit from bit 0. */
  function WriteRomLo(m: Mbc5, addr: u16, data: u8): (r: Mbc5)
    ensures addr < 0x2000 ==> r == m.(ramEnabled := data % 16 == 0xA)
    ensures 0x2000 <= addr < 0x3000 ==> r == m.(romBankLo := data)
    ensures addr >= 0x3000 ==> r == m.(romBankHi := data % 2 == 1)
  {
    if addr < 0x2000 then m.(ramEnabled := data % 16 == 0xA)
    else if addr < 0x3000 then m.(romBankLo := data)
    else m.(romBankHi := data % 2 == 1)
  }

  /** `writeRomHi`: below offset 0x2000 the 4-bit RAM bank; above, nothing. */
  function WriteRomHi(m: Mbc5, addr: u16, data: u8): (r: Mbc5)
    ensures addr < 0x2000 ==> r == m.(ramBank := data % 16) && r.ramBank < 16
    ensures addr >= 0x2000 ==> r == m
  {
    if addr < 0x2000 then m.(ramBank := data % 16) else m
  }

  /** `writeRam`: ignored while RAM is disabled. */
  function WriteRam(m: Mbc5, addr: u16, data: u8): (r: Mbc5)
    requires m.ramEnabled ==> |m.ram| > 0
    ensures !m.ramEnabled ==> r == m
    ensures |r.ram| == |m.ram| && r == m.(ram := r.ram)
  {
    if !m.ramEnabled then m
    else m.(ram := m.ram[(m.ramBank * 0x2000 + addr) % |m.ram| := data])
  }

  // ---------------------------------------------------------------------
  // Lemmas

  /** With RAM enabled, a byte written is read back at the same address. */
  lemma RamWriteRead(m: Mbc5, addr: u16, data: u8)
    requires m.ramEnabled && |m.ram| > 0
    ensures ReadRam(WriteRam(m, addr, data), addr) == data
  {
  }

  /** Disabled RAM reads 0xFF and writes leave the controller as it was. */
  lemma DisabledRam(m: Mbc5, addr: u16, data: u8)
    requires !m.ramEnabled
    ensures ReadRam(m, addr) == 0xFF && WriteRam(m, addr, data) == m
  {
  }

  /** Unlike MBC1, writing 0 to the low bank register selects bank 0 in
      the switchable window. */
  lemma BankZeroAllowed(m: Mbc5, addr: u16)
    requires |m.rom| > 0 && !m.romBankHi && addr < 0x4000
    ensures ReadRomHi(WriteRomLo(m, 0x2000, 0), addr) == m.rom[addr % |m.rom|]
  {
  }

  /** After writing `hi` at 0x3000 and `lo` at 0x2000, the high window
      shows bank `256 * (hi & 1) + lo`. */
  lemma BankSwitchSelects(m: Mbc5, hi: u8, lo: u8, addr: u16)
    requires |m.rom| > 0 && addr < 0x4000
    ensures var m1 := WriteRomLo(WriteRomLo(m, 0x3000, hi), 0x2000, lo);
            ReadRomHi(m1, addr) == m.rom[((256 * (hi % 2) + lo) * 0x4000 + addr) % |m.rom|]
  {
  }

  /** The fixed window ignores the bank registers: no register write
      changes what it shows. */
  lemma RomLoIgnoresBanking(m: Mbc5, w: u16, data: u8, addr: u16)
    requires addr < |m.rom|
    ensures ReadRomLo(WriteRomLo(m, w, data), addr) == ReadRomLo(m, addr)
    ensures ReadRomLo(WriteRomHi(m, w, data), addr) == ReadRomLo(m, addr)
  {
  }

  /** Writing a low nibble of 0xA below 0x2000 opens the RAM; any other
      value closes it, and the RAM then reads 0xFF. */
  lemma RamEnableGates(m: Mbc5, data: u8, addr: u16)
    requires |m.ram| > 0
    ensures ReadRam(WriteRomLo(m, 0x0000, data), addr) ==
              if data % 16 == 0xA then m.ram[(m.ramBank * 0x2000 + addr) % |m.ram|] else 0xFF
  {
  }

  /** With RAM enabled, writing `b` to the RAM bank register makes RAM
      reads come from bank `b & 0x0F`; writes above offset 0x2000 select
      nothing. */
  lemma RamBankSelects(m: Mbc5, w: u16, b: u8, addr: u16)
    requires m.ramEnabled && |m.ram| > 0
    ensures w < 0x2000 ==> ReadRam(WriteRomHi(m, w, b), addr) == m.ram[((b % 16) * 0x2000 + addr) % |m.ram|]
    ensures w >= 0x2000 ==> ReadRam(WriteRomHi(m, w, b), addr) == ReadRam(m, addr)
  {
  }
}

=== FILE: ppu.dfy ===
/** The picture processing unit of src/ppu.cpp: the dot/line timing state
    machine and the interrupts it raises, the LCD register file, the CGB
    palette ports, and the pixel and palette decoding the line renderers
    use. The framebuffer itself is not modelled. */
module Ppu {
  import opened Bits
  import opened Wrappers

  /** The STAT mode numbers, in the order of the `StatMode` enum. */
  datatype Mode = HBlank | VBlank | OamSearch | Transfer

  function ModeBits(m: Mode): (r: nat)
    ensures r < 4
  {
    match m
    case HBlank => 0 case VBlank => 1 case OamSearch => 2 case Transfer => 3
  }

  /** The interrupt masks `tick` returns, which the bus ORs straight into IF:
      VBlank is IF bit 0 and STAT IF bit 1. */
  const MaskVBlank: u8 := 1
  const MaskStat: u8 := 2

  const DotsPerLine: nat := 456
  const LinesPerFrame: nat := 154
  const VisibleLines: nat := 144
  const OamDots: nat := 80
  const TransferEnd: nat := 80 + 172

  type PaletteRam = s: seq<u8> | |s| == 0x40 witness seq(0x40, _ => 0)
  type PaletteIndex = x: nat | x < 0x40
  type Vram = s: seq<u8> | |s| == 0x4000 witness seq(0x4000, _ => 0)
  type Oam = s: seq<u8> | |s| == 0xA0 witness seq(0xA0, _ => 0)

  /** The fields of `Ppu` that src/ppu.cpp reads and writes. `dots` is
      `ppu_tick_divider`, `ly` is `lcd_y`. `windowStartLine` is -1 until the
      window is first drawn in a frame. VRAM is two 0x2000-byte banks. */
  datatype PpuState = PpuState(
    cgbMode: bool,
    control: u8,
    compareInterrupt: bool, mode0Interrupt: bool, mode1Interrupt: bool,
    mode2Interrupt: bool, mode3Interrupt: bool,
    mode: Mode,
    scrollX: u8, scrollY: u8, ly: u8, lyCompare: u8, windowX: u8, windowY: u8,
    bgPalette: u8, objPalette0: u8, objPalette1: u8,
    cgbBgPalette: PaletteRam, cgbBgIndex: PaletteIndex, cgbBgAutoIncr: bool,
    cgbObjPalette: PaletteRam, cgbObjIndex: PaletteIndex, cgbObjAutoIncr: bool,
    dots: nat,
    windowStartLine: int, windowLine: int,
    vram: Vram, vramBank: nat, oam: Oam)

  /** The timing invariant: a line number in range, a dot count within the
      line, and VBlank mode on every line past the visible ones. */
  predicate Valid(p: PpuState)
  {
    p.ly < LinesPerFrame && p.dots < DotsPerLine && (p.ly >= VisibleLines ==> p.mode == VBlank)
  }

  function LcdOn(p: PpuState): bool
  {
    p.control >= 0x80
  }

  // ---------------------------------------------------------------------
  // Timing

  /** One pass of the inner loop of `tick`: a whole line of dots consumed,
      LY advanced, the LY=LYC and VBlank interrupts raised. */
  function NextLine(p: PpuState, irq: u8): (r: (PpuState, u8))
    requires p.dots >= DotsPerLine
    ensures r.0.dots == p.dots - DotsPerLine
    ensures r.0.ly == (p.ly + 1) % LinesPerFrame
    ensures irq < 4 ==> r.1 < 4
  {
    var ly := (p.ly + 1) % LinesPerFrame;
    var p1 := p.(dots := p.dots - DotsPerLine, ly := ly);
    var irq1 := LineIrq(p, ly, irq);
    if ly >= VisibleLines && p.mode != VBlank then
      (p1.(mode := VBlank, windowStartLine := -1, windowLine := 0), irq1)
    else
      (p1, irq1)
  }

  /** The interrupts raised on reaching line `ly`: STAT when it is line
      LYC and the compare interrupt is on; on entering VBlank, the VBlank
      interrupt and STAT if the mode-1 interrupt is on. */
  function LineIrq(p: PpuState, ly: nat, irq: u8): (r: u8)
    ensures irq < 4 ==> r < 4
  {
    var irq1 := if p.compareInterrupt && ly == p.lyCompare then Or8(irq, MaskStat) else irq;
    LowMask(irq, MaskStat);
    if ly >= VisibleLines && p.mode != VBlank then
      var irq2 := Or8(irq1, MaskVBlank);
      LowMask(irq1, MaskVBlank);
      LowMask(irq2, MaskStat);
      if p.mode1Interrupt then Or8(irq2, MaskStat) else irq2
    else irq1
  }

  /** The inner loop: whole lines while at least 456 dots are pending. */
  function Lines(p: PpuState, irq: u8): (r: (PpuState, u8))
    ensures r.0.dots < DotsPerLine
    ensures irq < 4 ==> r.1 < 4
    decreases p.dots
  {
    if p.dots < DotsPerLine then (p, irq)
    else
      var (p1, irq1) := NextLine(p, irq);
      Lines(p1, irq1)
  }

  /** The mode a visible line is in after `dots` dots. */
  function ModeAt(dots: nat): Mode
  {
    if dots < OamDots then OamSearch else if dots < TransferEnd then Transfer else HBlank
  }

  /** The mode update after each chunk of dots on a visible line. Entering
      Transfer draws the line; each mode change raises STAT if that mode's
      interrupt is enabled. */
  function UpdateMode(p: PpuState, irq: u8): (r: (PpuState, u8))
    ensures p.ly < VisibleLines ==> r.0.mode == ModeAt(p.dots)
    ensures p.ly >= VisibleLines ==> r == (p, irq)
    ensures r.0.ly == p.ly && r.0.dots == p.dots
    ensures irq < 4 ==> r.1 < 4
  {
    LowMask(irq, MaskStat);
    if p.ly >= VisibleLines then (p, irq)
    else
      var m := ModeAt(p.dots);
      if p.mode == m then (p, irq)
      else
        var enabled := match m
          case OamSearch => p.mode2Interrupt
          case Transfer => p.mode3Interrupt
          case _ => p.mode0Interrupt;
        var p1 := if m == Transfer then DrawWindowLine(p) else p;
        (p1.(mode := m), if enabled then Or8(irq, MaskStat) else irq)
  }

  /** One pass of the outer loop of `tick`: `delta` dots added, whole
      lines taken off, then the mode updated. */
  function Chunk(p: PpuState, delta: nat, irq: u8): (r: (PpuState, u8))
    ensures irq < 4 ==> r.1 < 4
  {
    var l := Lines(p.(dots := p.dots + delta), irq);
    UpdateMode(l.0, l.1)
  }

  /** The dots the next chunk of `tick` adds: 80, or what is left. */
  function ChunkLen(ticks: int): (delta: nat)
    requires ticks > 0
    ensures 0 < delta <= 80 && delta <= ticks
  {
    if ticks < 80 then ticks else 80
  }

  /** The outer loop of `tick`: chunks of at most 80 dots. */
  function Chunks(p: PpuState, ticks: int, irq: u8): (r: (PpuState, u8))
    ensures irq < 4 ==> r.1 < 4
    decreases ticks
  {
    if ticks <= 0 then (p, irq)
    else
      var delta := ChunkLen(ticks);
      var c := Chunk(p, delta, irq);
      Chunks(c.0, ticks - delta, c.1)
  }

  /** VRAM, its bank register and OAM, which the timing never touches. */
  predicate SameMemory(p: PpuState, q: PpuState)
  {
    p.vram == q.vram && p.vramBank == q.vramBank && p.oam == q.oam
  }

  /** `tick`: nothing happens while the LCD is off. Otherwise the timing
      invariant holds throughout, LY and the dot counter advance by exactly
      the dots ticked, and the mask returned holds only the VBlank and STAT
      bits. VRAM and OAM are never touched. */
  function Tick(p: PpuState, ticks: int): (r: (PpuState, u8))
    ensures !LcdOn(p) ==> r == (p, 0)
    ensures r.1 < 4 && SameMemory(r.0, p)
    ensures Valid(p) ==> Valid(r.0)
    ensures Valid(p) && LcdOn(p) && ticks >= 0 ==> FramePos(r.0) == (FramePos(p) + ticks) % FrameDots
  {
    if !LcdOn(p) then (p, 0)
    else
      ChunksKeepMemory(p, ticks, 0);
      ChunksTiming(p, ticks);
      Chunks(p, ticks, 0)
  }

  /** The part of `drawWinLine` that outlives the frame buffer: the first
      window line drawn in a frame is recorded and the window's own line
      counter advances once per line the window is drawn on. */
  function DrawWindowLine(p: PpuState): (r: PpuState)
    ensures r == p.(windowStartLine := r.windowStartLine, windowLine := r.windowLine)
  {
    var winEnable := (p.control / 32) % 2 == 1;
    var bgWinEnable := p.cgbMode || p.control % 2 == 1;
    if !winEnable || !bgWinEnable then p
    else if p.windowY > p.ly || p.windowX > 166 then p
    else
      var start := if p.windowStartLine == -1 then p.ly as int else p.windowStartLine;
      p.(windowStartLine := start, windowLine := p.windowLine + 1)
  }

  // ---------------------------------------------------------------------
  // Registers

  /** The STAT byte as read: LYC interrupt enable at bit 6, then the mode-2,
      mode-1 and mode-0 enables at bits 5, 4 and 3, the LY=LYC flag at bit 2
      and the mode in bits 1-0. */
  function StatByte(p: PpuState): (v: u8)
    ensures v / 64 == B2I(p.compareInterrupt)
    ensures (v / 32) % 2 == B2I(p.mode2Interrupt)
    ensures (v / 16) % 2 == B2I(p.mode1Interrupt)
    ensures (v / 8) % 2 == B2I(p.mode0Interrupt)
    ensures (v / 4) % 2 == B2I(p.ly == p.lyCompare)
    ensures v % 4 == ModeBits(p.mode)
  {
    64 * B2I(p.compareInterrupt) + 32 * B2I(p.mode2Interrupt) + 16 * B2I(p.mode1Interrupt)
      + 8 * B2I(p.mode0Interrupt) + 4 * B2I(p.ly == p.lyCompare) + ModeBits(p.mode)
  }

  /** `read`: the LCD registers and the CGB palette data ports; anything
      else reads 0. */
  function Read(p: PpuState, addr: u16): (v: u8)
    ensures addr == 0xFF40 ==> v == p.control
    ensures addr == 0xFF41 ==> v == StatByte(p)
    ensures addr == 0xFF42 ==> v == p.scrollY
    ensures addr == 0xFF43 ==> v == p.scrollX
    ensures addr == 0xFF44 ==> v == p.ly
    ensures addr == 0xFF45 ==> v == p.lyCompare
    ensures addr == 0xFF47 ==> v == p.bgPalette
    ensures addr == 0xFF48 ==> v == p.objPalette0
    ensures addr == 0xFF49 ==> v == p.objPalette1
    ensures addr == 0xFF4A ==> v == p.windowY
    ensures addr == 0xFF4B ==> v == p.windowX
    ensures addr == 0xFF69 ==> v == p.cgbBgPalette[p.cgbBgIndex]
    ensures addr == 0xFF6B ==> v == p.cgbObjPalette[p.cgbObjIndex]
    ensures !ReadableRegister(addr) ==> v == 0
  {
    match addr
    case 0xFF40 => p.control
    case 0xFF41 => StatByte(p)
    case 0xFF42 => p.scrollY
    case 0xFF43 => p.scrollX
    case 0xFF44 => p.ly
    case 0xFF45 => p.lyCompare
    case 0xFF47 => p.bgPalette
    case 0xFF48 => p.objPalette0
    case 0xFF49 => p.objPalette1
    case 0xFF4A => p.windowY
    case 0xFF4B => p.windowX
    case 0xFF69 => p.cgbBgPalette[p.cgbBgIndex]
    case 0xFF6B => p.cgbObjPalette[p.cgbObjIndex]
    case _ => 0
  }

  /** `write`. The STAT write takes the mode-0 enable from bit 5 and the
      mode-2 enable from bit 3, the reverse of where `read` reports them.
      LY is read-only. */
  function Write(p: PpuState, addr: u16, data: u8): (r: PpuState)
    ensures addr == 0xFF40 ==> r == p.(control := data)
    ensures addr == 0xFF42 ==> r == p.(scrollY := data)
    ensures addr == 0xFF43 ==> r == p.(scrollX := data)
    ensures addr == 0xFF45 ==> r == p.(lyCompare := data)
    ensures addr == 0xFF47 ==> r == p.(bgPalette := data)
    ensures addr == 0xFF48 ==> r == p.(objPalette0 := data)
    ensures addr == 0xFF49 ==> r == p.(objPalette1 := data)
    ensures addr == 0xFF4A ==> r == p.(windowY := data)
    ensures addr == 0xFF4B ==> r == p.(windowX := data)
    ensures !WritableRegister(addr) ==> r == p
    ensures addr == 0xFF41 ==> r == p.(compareInterrupt := r.compareInterrupt, mode0Interrupt := r.mode0Interrupt,
                                      mode1Interrupt := r.mode1Interrupt, mode2Interrupt := r.mode2Interrupt)
    ensures addr == 0xFF41 ==>
              && r.compareInterrupt == ((data / 64) % 2 == 1)
              && r.mode0Interrupt == ((data / 32) % 2 == 1)
              && r.mode1Interrupt == ((data / 16) % 2 == 1)
              && r.mode2Interrupt == ((data / 8) % 2 == 1)
    ensures r.ly == p.ly && r.dots == p.dots && r.mode == p.mode
    ensures r.mode3Interrupt == p.mode3Interrupt
    ensures addr == 0xFF68 ==> r.cgbBgIndex == data % 0x40 && r.cgbBgAutoIncr == (data >= 0x80)
    ensures addr == 0xFF6A ==> r.cgbObjIndex == data % 0x40 && r.cgbObjAutoIncr == (data >= 0x80)
    ensures addr == 0xFF69 ==>
              && r.cgbBgPalette == p.cgbBgPalette[p.cgbBgIndex := data]
              && r.cgbBgIndex == if p.cgbBgAutoIncr then (p.cgbBgIndex + 1) % 0x40 else p.cgbBgIndex
    ensures addr == 0xFF6B ==>
              && r.cgbObjPalette == p.cgbObjPalette[p.cgbObjIndex := data]
              && r.cgbObjIndex == if p.cgbObjAutoIncr then (p.cgbObjIndex + 1) % 0x40 else p.cgbObjIndex
  {
    match addr
    case 0xFF40 => p.(control := data)
    case 0xFF41 =>
      p.(compareInterrupt := (data / 64) % 2 == 1, mode0Interrupt := (data / 32) % 2 == 1,
         mode1Interrupt := (data / 16) % 2 == 1, mode2Interrupt := (data / 8) % 2 == 1)
    case 0xFF42 => p.(scrollY := data)
    case 0xFF43 => p.(scrollX := data)
    case 0xFF45 => p.(lyCompare := data)
    case 0xFF47 => p.(bgPalette := data)
    case 0xFF48 => p.(objPalette0 := data)
    case 0xFF49 => p.(objPalette1 := data)
    case 0xFF4A => p.(windowY := data)
    case 0xFF4B => p.(windowX := data)
    case 0xFF68 => p.(cgbBgAutoIncr := data / 0x80 == 1, cgbBgIndex := data % 0x40)
    case 0xFF69 => WriteBgData(p, data)
    case 0xFF6A => p.(cgbObjAutoIncr := data / 0x80 == 1, cgbObjIndex := data % 0x40)
    case 0xFF6B =>
      p.(cgbObjPalette := p.cgbObjPalette[p.cgbObjIndex := data],
         cgbObjIndex := if p.cgbObjAutoIncr then (p.cgbObjIndex + 1) % 0x40 else p.cgbObjIndex)
    case _ => p
  }

  /** The addresses `read` answers from the PPU's state; every other one
      reads 0. */
  predicate ReadableRegister(addr: u16)
  {
    (0xFF40 <= addr <= 0xFF4B && addr != 0xFF46) || addr == 0xFF69 || addr == 0xFF6B
  }

  /** The registers `write` handles; LY (0xFF44) is not among them. */
  predicate WritableRegister(addr: u16)
  {
    (0xFF40 <= addr <= 0xFF4B && addr != 0xFF44 && addr != 0xFF46) || 0xFF68 <= addr <= 0xFF6B
  }

  /** A write to the background palette data port 0xFF69: the byte goes
      to the current index, which then advances if auto-increment is on. */
  function WriteBgData(p: PpuState, data: u8): PpuState
  {
    p.(cgbBgPalette := p.cgbBgPalette[p.cgbBgIndex := data],
       cgbBgIndex := if p.cgbBgAutoIncr then (p.cgbBgIndex + 1) % 0x40 else p.cgbBgIndex)
  }

  /** Writes a run of bytes to the background palette data port. */
  function WriteBgPaletteRun(p: PpuState, data: seq<u8>): PpuState
    decreases |data|
  {
    if |data| == 0 then p
    else WriteBgPaletteRun(WriteBgData(p, data[0]), data[1..])
  }

  // ---------------------------------------------------------------------
  // VRAM and OAM as the bus sees them

  /** VRAM byte at `addr` (0x8000-0x9FFF) in the selected bank. */
  function ReadVram(p: PpuState, addr: u16): u8
    requires 0x8000 <= addr < 0xA000 && p.vramBank < 2
  {
    p.vram[0x2000 * p.vramBank + (addr - 0x8000)]
  }

  function WriteVram(p: PpuState, addr: u16, data: u8): (r: PpuState)
    requires 0x8000 <= addr < 0xA000 && p.vramBank < 2
    ensures r == p.(vram := r.vram)
    ensures ReadVram(r, addr) == data
  {
    p.(vram := p.vram[0x2000 * p.vramBank + (addr - 0x8000) := data])
  }

  function WriteOam(p: PpuState, addr: u16, data: u8): (r: PpuState)
    requires 0xFE00 <= addr < 0xFEA0
    ensures r.oam[addr - 0xFE00] == data
    ensures r == p.(oam := r.oam)
  {
    p.(oam := p.oam[addr - 0xFE00 := data])
  }

  // ---------------------------------------------------------------------
  // Pixel decoding

  /** The 2-bit colour number of a pixel: its bit of the high plane above
      its bit of the low plane. */
  function ColourIndex(lsb: u8, msb: u8, bit: nat): (ci: nat)
    requires bit < 8
    ensures ci < 4
    ensures ci / 2 == B2I(Bit(msb, bit)) && ci % 2 == B2I(Bit(lsb, bit))
  {
    2 * B2I(Bit(msb, bit)) + B2I(Bit(lsb, bit))
  }

  /** `(palette >> 2 * index) & 3`: the DMG shade a palette gives a colour. */
  function Shade(palette: u8, ci: nat): (shade: nat)
    requires ci < 4
    ensures shade < 4
    ensures shade == 2 * B2I(Bit(palette, 2 * ci + 1)) + B2I(Bit(palette, 2 * ci))
  {
    Field2Bits(palette, ci);
    Field2(palette, ci)
  }

  /** The DMG background/window shade of pixel `x` (0 leftmost) of a tile row. */
  function BgPixel(palette: u8, lsb: u8, msb: u8, x: nat): (shade: nat)
    requires x < 8
    ensures shade < 4
    ensures var ci := 2 * B2I(Bit(msb, 7 - x)) + B2I(Bit(lsb, 7 - x));
            shade == 2 * B2I(Bit(palette, 2 * ci + 1)) + B2I(Bit(palette, 2 * ci))
  {
    Shade(palette, ColourIndex(lsb, msb, 7 - x))
  }

  /** A sprite pixel: colour 0 is transparent, anything else takes its
      shade from the sprite's palette. */
  function ObjPixel(palette: u8, lsb: u8, msb: u8, x: nat, xFlip: bool): (shade: Option<nat>)
    requires x < 8
    ensures shade.None? <==> !Bit(lsb, if xFlip then x else 7 - x) && !Bit(msb, if xFlip then x else 7 - x)
    ensures var b := if xFlip then x else 7 - x;
            var ci := 2 * B2I(Bit(msb, b)) + B2I(Bit(lsb, b));
            shade.Some? ==> shade.value == 2 * B2I(Bit(palette, 2 * ci + 1)) + B2I(Bit(palette, 2 * ci))
  {
    var ci := ColourIndex(lsb, msb, if xFlip then x else 7 - x);
    if ci == 0 then None else Some(Shade(palette, ci))
  }

  /** The CGB colour of colour `ci` of palette `num`: a little-endian word
      of palette RAM. */
  function CgbColour(pal: PaletteRam, num: nat, ci: nat): (c: u16)
    requires num < 8 && ci < 4
    ensures c % 256 == pal[8 * num + 2 * ci] && c / 256 == pal[8 * num + 2 * ci + 1]
  {
    (pal[8 * num + 2 * ci + 1] as int) * 256 + pal[8 * num + 2 * ci]
  }

  // ---------------------------------------------------------------------
  // Lemmas

  /** Or-ing two masks below 4 stays below 4. */
  lemma LowMask(a: u8, b: u8)
    ensures a < 4 && b < 4 ==> Or8(a, b) < 4
  {
    if a < 4 && b < 4 {
      assert Pow2(2) == 4 by { assert Pow2(1) == 2; }
      CombineBelow(OrOp, a, b, 2, 8);
    }
  }

  lemma {:induction false} LinesKeepMemory(p: PpuState, irq: u8)
    ensures SameMemory(Lines(p, irq).0, p)
    decreases p.dots
  {
    if p.dots >= DotsPerLine {
      var (p1, irq1) := NextLine(p, irq);
      LinesKeepMemory(p1, irq1);
    }
  }

  lemma {:induction false} ChunksKeepMemory(p: PpuState, ticks: int, irq: u8)
    ensures SameMemory(Chunks(p, ticks, irq).0, p)
    decreases ticks
  {
    if ticks > 0 {
      var delta := ChunkLen(ticks);
      ChunkKeepsMemory(p, delta, irq);
      var c := Chunk(p, delta, irq);
      ChunksKeepMemory(c.0, ticks - delta, c.1);
      assert Chunks(p, ticks, irq) == Chunks(c.0, ticks - delta, c.1);
    }
  }

  lemma ChunkKeepsMemory(p: PpuState, delta: nat, irq: u8)
    ensures SameMemory(Chunk(p, delta, irq).0, p)
  {
    var q := p.(dots := p.dots + delta);
    var l := Lines(q, irq);
    LinesKeepMemory(q, irq);
    UpdateModeKeepsMemory(l.0, l.1);
    assert Chunk(p, delta, irq) == UpdateMode(l.0, l.1);
  }

  lemma UpdateModeKeepsMemory(p: PpuState, irq: u8)
    ensures SameMemory(UpdateMode(p, irq).0, p)
  {
    if p.ly < VisibleLines && p.mode != ModeAt(p.dots) && ModeAt(p.dots) == Transfer {
      var w := DrawWindowLine(p);
      assert SameMemory(w, p);
      assert UpdateMode(p, irq).0 == w.(mode := Transfer);
    }
  }

  /** The position in the frame, in dots from the start of line 0. */
  function FramePos(p: PpuState): nat
  {
    DotsPerLine * p.ly + p.dots
  }

  const FrameDots: nat := 456 * 154

  /** One line step keeps the timing invariant and the frame position. */
  lemma NextLineValid(p: PpuState, irq: u8, d: nat)
    requires p.ly < LinesPerFrame && DotsPerLine <= p.dots < 2 * DotsPerLine
    requires p.ly >= VisibleLines ==> p.mode == VBlank
    ensures var p1 := NextLine(p, irq).0;
      && p1.ly < LinesPerFrame && p1.dots < DotsPerLine
      && (p1.ly >= VisibleLines ==> p1.mode == VBlank)
      && FramePos(p1) == FramePos(p) % FrameDots
  {
    var p1 := NextLine(p, irq).0;
    if p.ly == 153 {
      assert p1.ly == 0;
      assert FramePos(p) == FrameDots + p.dots - DotsPerLine;
    } else {
      assert p1.ly == p.ly + 1;
    }
  }

  /** `Lines` restores the invariant after a chunk of at most 80 dots and
      keeps the frame position modulo a frame. */
  lemma LinesValid(p: PpuState, irq: u8)
    requires p.ly < LinesPerFrame && p.dots < DotsPerLine + 80
    requires p.ly >= VisibleLines ==> p.mode == VBlank
    ensures Valid(Lines(p, irq).0)
    ensures FramePos(Lines(p, irq).0) == FramePos(p) % FrameDots
  {
    if p.dots >= DotsPerLine {
      NextLineValid(p, irq, 0);
      var (p1, irq1) := NextLine(p, irq);
      assert Lines(p, irq) == Lines(p1, irq1);
    } else {
      assert FramePos(p) < FrameDots;
    }
  }

  /** One chunk of at most 80 dots keeps the timing invariant, advances
      the frame position by the chunk, and leaves a visible line in the mode
      its dot count selects. */
  lemma ChunkValid(p: PpuState, delta: nat, irq: u8)
    requires Valid(p) && 0 < delta <= 80
    ensures var p2 := Chunk(p, delta, irq).0;
      && Valid(p2)
      && FramePos(p2) == (FramePos(p) + delta) % FrameDots
      && (p2.ly < VisibleLines ==> p2.mode == ModeAt(p2.dots))
  {
    var q := p.(dots := p.dots + delta);
    LinesValid(q, irq);
    var l := Lines(q, irq);
    UpdateModeValid(l.0, l.1);
    assert Chunk(p, delta, irq) == UpdateMode(l.0, l.1);
  }

  lemma UpdateModeValid(p: PpuState, irq: u8)
    requires Valid(p)
    ensures var r := UpdateMode(p, irq).0;
      Valid(r) && FramePos(r) == FramePos(p) && (r.ly < VisibleLines ==> r.mode == ModeAt(r.dots))
  {
  }

  /** `tick` keeps the timing invariant, and on a visible line the mode
      afterwards is the one the dot count selects. */
  lemma {:induction false} ChunksValid(p: PpuState, ticks: int, irq: u8)
    requires Valid(p)
    ensures var q := Chunks(p, ticks, irq).0;
      && Valid(q)
      && (ticks > 0 && q.ly < VisibleLines ==> q.mode == ModeAt(q.dots))
    decreases ticks
  {
    if ticks > 0 {
      var delta := ChunkLen(ticks);
      ChunkValid(p, delta, irq);
      var c := Chunk(p, delta, irq);
      ChunksValid(c.0, ticks - delta, c.1);
      assert Chunks(p, ticks, irq) == Chunks(c.0, ticks - delta, c.1);
    }
  }

  /** LY and the dot counter advance exactly by the number of dots ticked:
      one line per 456 dots, the frame wrapping after 154 lines. */
  lemma {:induction false} ChunksAdvance(p: PpuState, ticks: nat, irq: u8)
    requires Valid(p)
    ensures FramePos(Chunks(p, ticks, irq).0) == (FramePos(p) + ticks) % FrameDots
    decreases ticks
  {
    if ticks > 0 {
      var delta := ChunkLen(ticks);
      ChunkValid(p, delta, irq);
      var c := Chunk(p, delta, irq);
      ChunksAdvance(c.0, ticks - delta, c.1);
      assert Chunks(p, ticks, irq) == Chunks(c.0, ticks - delta, c.1);
      FramePosAdd(FramePos(p), FramePos(c.0), FramePos(Chunks(c.0, ticks - delta, c.1).0), delta, ticks);
    } else {
      ChunksNone(p, ticks, irq);
    }
  }

  lemma ChunksNone(p: PpuState, ticks: int, irq: u8)
    requires Valid(p) && ticks <= 0
    ensures FramePos(Chunks(p, ticks, irq).0) == FramePos(p) % FrameDots
  {
    assert Chunks(p, ticks, irq).0 == p;
    FramePosSmall(p);
  }

  lemma FramePosSmall(p: PpuState)
    requires Valid(p)
    ensures FramePos(p) % FrameDots == FramePos(p)
  {
  }

  lemma FramePosAdd(pos: nat, mid: nat, end: nat, delta: nat, ticks: nat)
    requires 0 < delta <= ticks
    requires mid == (pos + delta) % FrameDots
    requires end == (mid + ticks - delta) % FrameDots
    ensures end == (pos + ticks) % FrameDots
  {
  }

  /** The timing invariant and the dot accounting for the chunks of `tick`. */
  lemma ChunksTiming(p: PpuState, ticks: int)
    ensures Valid(p) ==> Valid(Chunks(p, ticks, 0).0)
    ensures Valid(p) && ticks >= 0 ==> FramePos(Chunks(p, ticks, 0).0) == (FramePos(p) + ticks) % FrameDots
  {
    if Valid(p) {
      ChunksValid(p, ticks, 0);
      if ticks >= 0 {
        ChunksAdvance(p, ticks, 0);
      }
    }
  }

  /** Entering line LYC with the compare interrupt enabled raises STAT. */
  lemma LineCompareRaisesStat(p: PpuState, irq: u8)
    requires p.dots >= DotsPerLine
    requires p.compareInterrupt && (p.ly + 1) % LinesPerFrame == p.lyCompare
    ensures Bit(NextLine(p, irq).1, 1)
  {
    var irq1 := Or8(irq, MaskStat);
    CombineBit(OrOp, irq, MaskStat, 8, 1);
    assert Bit(irq1, 1);
    var ly := (p.ly + 1) % LinesPerFrame;
    if ly >= VisibleLines && p.mode != VBlank {
      var irq2 := Or8(irq1, MaskVBlank);
      CombineBit(OrOp, irq1, MaskVBlank, 8, 1);
      CombineBit(OrOp, irq2, MaskStat, 8, 1);
    }
  }

  /** Entering line 144 from a visible line switches to VBlank, raises the
      VBlank interrupt (and STAT if mode-1 interrupts are on), and restarts
      the window for the next frame. */
  lemma EnterVBlank(p: PpuState, irq: u8)
    requires p.dots >= DotsPerLine && p.ly == VisibleLines - 1 && p.mode != VBlank
    ensures var (p1, irq1) := NextLine(p, irq);
      && p1.mode == VBlank && p1.windowStartLine == -1 && p1.windowLine == 0
      && Bit(irq1, 0)
      && (p.mode1Interrupt ==> Bit(irq1, 1))
  {
    var ly := (p.ly + 1) % LinesPerFrame;
    var irq1 := if p.compareInterrupt && ly == p.lyCompare then Or8(irq, MaskStat) else irq;
    var irq2 := Or8(irq1, MaskVBlank);
    CombineBit(OrOp, irq1, MaskVBlank, 8, 0);
    CombineBit(OrOp, irq2, MaskStat, 8, 0);
    CombineBit(OrOp, irq2, MaskStat, 8, 1);
  }

  /** The window counters change only when Transfer is entered: staying in
      a mode draws nothing. */
  lemma StayingDrawsNothing(p: PpuState, irq: u8)
    requires p.ly < VisibleLines && p.mode == ModeAt(p.dots)
    ensures UpdateMode(p, irq) == (p, irq)
  {
  }

  /** Writing STAT and reading it back swaps the mode-0 and mode-2 enable
      bits (3 and 5); the LYC enable and mode-1 enable come back in place. */
  lemma StatWriteReadSwaps(p: PpuState, data: u8)
    ensures var v := Read(Write(p, 0xFF41, data), 0xFF41);
      && v / 64 == (data / 64) % 2
      && (v / 32) % 2 == (data / 8) % 2
      && (v / 16) % 2 == (data / 16) % 2
      && (v / 8) % 2 == (data / 32) % 2
  {
  }

  /** Every plain LCD register reads back what was written to it; LY
      ignores writes and keeps reading the current line. */
  lemma RegisterWriteRead(p: PpuState, addr: u16, data: u8)
    ensures addr in {0xFF40, 0xFF42, 0xFF43, 0xFF45, 0xFF47, 0xFF48, 0xFF49, 0xFF4A, 0xFF4B} ==>
              Read(Write(p, addr, data), addr) == data
    ensures Read(Write(p, 0xFF44, data), 0xFF44) == p.ly
  {
    var r := Write(p, addr, data);
    if addr == 0xFF40 { assert r.control == data; }
    else if addr == 0xFF42 { assert r.scrollY == data; }
    else if addr == 0xFF43 { assert r.scrollX == data; }
    else if addr == 0xFF45 { assert r.lyCompare == data; }
    else if addr == 0xFF47 { assert r.bgPalette == data; }
    else if addr == 0xFF48 { assert r.objPalette0 == data; }
    else if addr == 0xFF49 { assert r.objPalette1 == data; }
    else if addr == 0xFF4A { assert r.windowY == data; }
    else if addr == 0xFF4B { assert r.windowX == data; }
    assert Write(p, 0xFF44, data) == p;
  }

  /** A run of writes to the palette data port with auto-increment on
      fills consecutive entries, wrapping at 0x40. */
  lemma PaletteRun(p: PpuState, data: seq<u8>)
    requires p.cgbBgAutoIncr && |data| <= 0x40
    ensures var r := WriteBgPaletteRun(p, data);
      && r.cgbBgIndex == (p.cgbBgIndex + |data|) % 0x40
      && (forall j :: 0 <= j < |data| ==> r.cgbBgPalette[(p.cgbBgIndex + j) % 0x40] == data[j])
      && (forall i :: 0 <= i < 0x40 && (i - p.cgbBgIndex) % 0x40 >= |data| ==>
            r.cgbBgPalette[i] == p.cgbBgPalette[i])
      && r.cgbBgAutoIncr
  {
    PaletteRunIndex(p, data);
    PaletteRunWritten(p, data);
    PaletteRunUntouched(p, data);
  }

  /** One auto-incrementing write to the palette data port. */
  lemma PaletteStep(p: PpuState, d: u8)
    requires p.cgbBgAutoIncr
    ensures Write(p, 0xFF69, d) == WriteBgData(p, d)
    ensures var p1 := WriteBgData(p, d);
      && p1.cgbBgPalette == p.cgbBgPalette[p.cgbBgIndex := d]
      && p1.cgbBgIndex == (p.cgbBgIndex + 1) % 0x40
      && p1.cgbBgAutoIncr
  {
  }

  lemma {:induction false} PaletteRunIndex(p: PpuState, data: seq<u8>)
    requires p.cgbBgAutoIncr
    ensures var r := WriteBgPaletteRun(p, data);
      r.cgbBgIndex == (p.cgbBgIndex + |data|) % 0x40 && r.cgbBgAutoIncr
    decreases |data|
  {
    if |data| > 0 {
      var p1 := WriteBgData(p, data[0]);
      PaletteStep(p, data[0]);
      PaletteRunIndex(p1, data[1..]);
      SuccMod64(p.cgbBgIndex, |data| - 1);
    }
  }

  /** Stepping an index mod 0x40 and then adding `j` is adding `j + 1`. */
  lemma SuccMod64(a: int, j: int)
    requires 0 <= a && 0 <= j
    ensures ((a + 1) % 0x40 + j) % 0x40 == (a + 1 + j) % 0x40
  {
    var q := (a + 1) / 0x40;
    assert (a + 1) % 0x40 + j == (a + 1 + j) - 0x40 * q;
  }

  /** The palette bytes a run of auto-incrementing writes leaves, from
      index `idx` on. */
  function PaletteFill(pal: PaletteRam, idx: PaletteIndex, data: seq<u8>): PaletteRam
    decreases |data|
  {
    if |data| == 0 then pal else PaletteFill(pal[idx := data[0]], (idx + 1) % 0x40, data[1..])
  }

  /** The palette after a run of port writes is `PaletteFill` of the old one. */
  lemma {:induction false} RunIsFill(p: PpuState, data: seq<u8>)
    requires p.cgbBgAutoIncr
    ensures WriteBgPaletteRun(p, data).cgbBgPalette == PaletteFill(p.cgbBgPalette, p.cgbBgIndex, data)
    decreases |data|
  {
    if |data| > 0 {
      var p1 := WriteBgData(p, data[0]);
      PaletteStep(p, data[0]);
      RunIsFill(p1, data[1..]);
    }
  }

  lemma {:induction false} FillUntouched(pal: PaletteRam, idx: PaletteIndex, data: seq<u8>, i: nat)
    requires i < 0x40 && (i - idx) % 0x40 >= |data|
    ensures PaletteFill(pal, idx, data)[i] == pal[i]
    decreases |data|
  {
    if |data| > 0 {
      var idx1 := (idx + 1) % 0x40;
      assert i != idx;
      if idx == 0x3F {
        assert idx1 == 0 && (i - idx) % 0x40 == i + 1;
      } else if i > idx {
        assert (i - idx) % 0x40 == i - idx;
      } else {
        assert (i - idx) % 0x40 == i - idx + 0x40;
      }
      assert (i - idx1) % 0x40 >= |data[1..]|;
      FillUntouched(pal[idx := data[0]], idx1, data[1..], i);
    }
  }

  lemma {:induction false} FillWritten(pal: PaletteRam, idx: PaletteIndex, data: seq<u8>)
    requires |data| <= 0x40
    ensures forall j :: 0 <= j < |data| ==> PaletteFill(pal, idx, data)[(idx + j) % 0x40] == data[j]
    decreases |data|
  {
    if |data| > 0 {
      var idx1 := (idx + 1) % 0x40;
      var pal1 := pal[idx := data[0]];
      var r := PaletteFill(pal1, idx1, data[1..]);
      assert PaletteFill(pal, idx, data) == r;
      FillWritten(pal1, idx1, data[1..]);
      if idx == 0x3F {
        assert idx1 == 0 && (idx - idx1) % 0x40 == 0x3F;
      } else {
        assert idx1 == idx + 1 && idx - idx1 == -1;
      }
      FillUntouched(pal1, idx1, data[1..], idx);
      RunFromNext(r, idx, idx1, data);
    }
  }

  lemma PaletteRunUntouched(p: PpuState, data: seq<u8>)
    requires p.cgbBgAutoIncr
    ensures var r := WriteBgPaletteRun(p, data);
      forall i :: 0 <= i < 0x40 && (i - p.cgbBgIndex) % 0x40 >= |data| ==>
        r.cgbBgPalette[i] == p.cgbBgPalette[i]
  {
    RunIsFill(p, data);
    forall i | 0 <= i < 0x40 && (i - p.cgbBgIndex) % 0x40 >= |data|
      ensures PaletteFill(p.cgbBgPalette, p.cgbBgIndex, data)[i] == p.cgbBgPalette[i]
    {
      FillUntouched(p.cgbBgPalette, p.cgbBgIndex, data, i);
    }
  }

  lemma PaletteRunWritten(p: PpuState, data: seq<u8>)
    requires p.cgbBgAutoIncr && |data| <= 0x40
    ensures var r := WriteBgPaletteRun(p, data);
      forall j :: 0 <= j < |data| ==> r.cgbBgPalette[(p.cgbBgIndex + j) % 0x40] == data[j]
  {
    var fill := PaletteFill(p.cgbBgPalette, p.cgbBgIndex, data);
    RunIsFill(p, data);
    FillWritten(p.cgbBgPalette, p.cgbBgIndex, data);
    assert WriteBgPaletteRun(p, data).cgbBgPalette == fill;
  }

  /** The index arithmetic of one palette-run step: what the rest of the
      run wrote from the next index, plus the first byte at `i0`. */
  lemma RunFromNext(pal: seq<u8>, i0: nat, i1: nat, data: seq<u8>)
    requires |pal| == 0x40 && i0 < 0x40 && i1 == (i0 + 1) % 0x40 && |data| > 0
    requires pal[i0] == data[0]
    requires forall j :: 0 <= j < |data[1..]| ==> pal[(i1 + j) % 0x40] == data[1..][j]
    ensures forall j :: 0 <= j < |data| ==> pal[(i0 + j) % 0x40] == data[j]
  {
    forall j | 0 <= j < |data|
      ensures pal[(i0 + j) % 0x40] == data[j]
    {
      if j == 0 {
        assert (i0 + j) % 0x40 == i0;
      } else {
        SuccMod64(i0, j - 1);
        assert (i1 + (j - 1)) % 0x40 == (i0 + j) % 0x40;
        assert data[1..][j - 1] == data[j];
      }
    }
  }

  /** A palette byte packed from four shades gives each shade back. */
  lemma ShadeOfPackedPalette(s0: nat, s1: nat, s2: nat, s3: nat)
    requires s0 < 4 && s1 < 4 && s2 < 4 && s3 < 4
    ensures var pal := s0 + 4 * s1 + 16 * s2 + 64 * s3;
      Shade(pal, 0) == s0 && Shade(pal, 1) == s1 && Shade(pal, 2) == s2 && Shade(pal, 3) == s3
  {
    PackFields(s0, s1, s2, s3);
  }
}

=== FILE: savefile.dfy ===
/** The byte-level decisions around battery saves shared by the cartridge
    controllers: the save file's name and the RAM restored from it. */
module SaveFile {
  import opened Bits
  import opened Wrappers

  /** The position of the last '.' in `s` (`find_last_of('.')`). */
  function LastDot(s: string): (r: Option<nat>)
    ensures r.Some? ==> r.value < |s| && s[r.value] == '.'
    ensures r.Some? ==> forall j :: r.value < j < |s| ==> s[j] != '.'
    ensures r.None? ==> forall j :: 0 <= j < |s| ==> s[j] != '.'
  {
    if |s| == 0 then None
    else if s[|s| - 1] == '.' then Some(|s| - 1)
    else LastDot(s[..|s| - 1])
  }

  /** `Mbc::saveFileName`: everything before the last '.' (all of the name
      when it has none, as `substr(0, npos)` keeps the whole string),
      followed by ".sav". */
  function SaveFileName(filename: string): (r: string)
    ensures |r| >= 4 && r[|r| - 4..] == ".sav"
    ensures var stem := r[..|r| - 4];
            && stem <= filename
            && (|stem| < |filename| ==> filename[|stem|] == '.')
            && (forall j :: |stem| < j < |filename| ==> filename[j] != '.')
            && (|stem| == |filename| ==> forall j :: 0 <= j < |filename| ==> filename[j] != '.')
  {
    var stem := match LastDot(filename)
                case Some(k) => filename[..k]
                case None => filename;
    stem + ".sav"
  }

  /** `n` zero bytes, as `resize(n, 0)` on an empty vector gives. */
  function Zeros(n: nat): (r: seq<u8>)
    ensures |r| == n && forall i :: 0 <= i < n ==> r[i] == 0
  {
    seq(n, i => 0)
  }

  /** `restoreSaveFile` of MBC1 and MBC5: up to `capacity` bytes of the
      save file (empty when it cannot be opened), then zeros up to
      `capacity`. The vector's capacity is taken to be the size reserved. */
  function Restore(saved: seq<u8>, capacity: nat): (ram: seq<u8>)
    ensures |ram| == capacity
    ensures forall i :: 0 <= i < capacity ==> ram[i] == if i < |saved| then saved[i] else 0
  {
    if |saved| >= capacity then saved[..capacity] else saved + Zeros(capacity - |saved|)
  }

  /** A name with no dot at all just gains the extension. */
  lemma SaveFileNameWithoutDot(filename: string)
    requires forall j :: 0 <= j < |filename| ==> filename[j] != '.'
    ensures SaveFileName(filename) == filename + ".sav"
  {
    var r := SaveFileName(filename);
    var stem := r[..|r| - 4];
    assert r == stem + ".sav";
  }

  /** The extension after the last dot is replaced: "game.gbc" saves to
      "game.sav", and "a.b.gb" to "a.b.sav". */
  lemma SaveFileNameReplacesExtension(stem: string, ext: string)
    requires forall j :: 0 <= j < |ext| ==> ext[j] != '.'
    ensures SaveFileName(stem + "." + ext) == stem + ".sav"
  {
    var f := stem + "." + ext;
    assert f[|stem|] == '.';
    var r := SaveFileName(f);
    var k := |r| - 4;
    assert r == r[..k] + ".sav";
    assert k == |stem|;
    assert r[..k] == f[..|stem|] == stem;
  }
}

=== FILE: square_channel.dfy ===
/** One APU square-wave channel (src/apu/square_channel.cpp): the duty
    timer, the length counter, the volume envelope, the frequency sweep
    (square 1 only) and the NRx0-NRx4 register writes. */
module SquareChannel {
  import opened Bits

  /** `kDutyPatterns`: the 8-step waveforms for duty 12.5%, 25%, 50%, 75%. */
  const DutyPatterns: seq<u8> := [0x01, 0x81, 0x87, 0x7E]

  /** The envelope and sweep periods, timers and shift: `uint8_t` fields
      that only ever hold a 3-bit field of a register write or count down
      from one. */
  type Count3 = n: nat | n < 8

  datatype Envelope = Envelope(timer: Count3, period: Count3, sweepUp: bool,
                               volume: u8, volumeReload: u8, enable: bool)

  datatype Sweep = Sweep(shift: Count3, sweepDown: bool, period: Count3, timer: Count3,
                         enable: bool, shadowFrequency: u16)

  datatype Channel = Channel(hasSweep: bool, enable: bool, dacEnable: bool,
                             timer: u16, frequency: u16,
                             dutyIndex: u8, dutyPattern: u8,
                             length: u8, lengthEnable: bool,
                             envelope: Envelope, sweep: Sweep)

  /** A channel with every counter and register zero. */
  function Init(hasSweep: bool): (ch: Channel)
    ensures ch.hasSweep == hasSweep && !ch.enable && !ch.dacEnable
    ensures ch.dutyIndex == 0 && ch.length == 0 && ch.envelope.volume == 0
  {
    Channel(hasSweep, false, false, 0, 0, 0, 0, 0, false,
            Envelope(0, 0, false, 0, 0, false), Sweep(0, false, 0, 0, false, 0))
  }

  /** The ranges every reachable channel stays in: the duty step indexes
      the 8-step pattern, volumes are 4-bit, lengths at most 64 and the
      frequency registers 11-bit. */
  predicate Valid(ch: Channel)
  {
    && ch.dutyIndex < 8
    && ch.envelope.volume <= 15 && ch.envelope.volumeReload <= 15
    && ch.length <= 64
    && ch.frequency < 2048 && ch.sweep.shadowFrequency < 2048
  }

  /** `tickTimer`: at zero the timer reloads from the frequency and the
      duty step advances (mod 8); otherwise it counts down. */
  function TickTimer(ch: Channel): (r: Channel)
    ensures ch.timer == 0 ==> r.timer == ch.frequency && r.dutyIndex == (ch.dutyIndex + 1) % 8
    ensures ch.timer > 0 ==> r.timer == ch.timer - 1 && r.dutyIndex == ch.dutyIndex
    ensures r == ch.(timer := r.timer, dutyIndex := r.dutyIndex)
    ensures Valid(ch) ==> Valid(r)
  {
    if ch.timer == 0 then ch.(timer := ch.frequency, dutyIndex := (ch.dutyIndex + 1) % 8)
    else ch.(timer := ch.timer - 1)
  }

  /** `tickLength`: with the length counter enabled and running, one step
      down; reaching zero silences the channel. */
  function TickLength(ch: Channel): (r: Channel)
    ensures ch.lengthEnable && ch.length > 0 ==>
              r.length == ch.length - 1 && r.enable == (ch.enable && r.length != 0)
    ensures !(ch.lengthEnable && ch.length > 0) ==> r == ch
    ensures r == ch.(length := r.length, enable := r.enable)
    ensures Valid(ch) ==> Valid(r)
  {
    if ch.lengthEnable && ch.length > 0 then
      var len := ch.length - 1;
      if len == 0 then ch.(length := len, enable := false) else ch.(length := len)
    else ch
  }

  /** `tickEnvelope`. The volume steps by +1 or -1 as a byte and is kept
      only if the byte is at most 15; otherwise (16, or 255 from 0) the
      envelope switches off and the volume stays. */
  function TickEnvelope(ch: Channel): (r: Channel)
    ensures r == ch.(envelope := r.envelope)
    ensures Valid(ch) ==> Valid(r)
    ensures r.envelope.volumeReload == ch.envelope.volumeReload
    ensures r.envelope.volume <= 15 || r.envelope.volume == ch.envelope.volume
    ensures !ch.envelope.enable || ch.envelope.period == 0 ==> r == ch
    ensures var e := ch.envelope;
      e.enable && e.period != 0 && e.timer > 0 ==> r.envelope == e.(timer := e.timer - 1)
    ensures var e := ch.envelope;
      e.enable && e.period != 0 && e.timer == 0 && e.volume <= 15 ==>
        && r.envelope.timer == e.period
        && (if (e.sweepUp && e.volume < 15) || (!e.sweepUp && e.volume > 0)
            then r.envelope.volume == (if e.sweepUp then e.volume + 1 else e.volume - 1) && r.envelope.enable
            else r.envelope.volume == e.volume && !r.envelope.enable)
  {
    var e := ch.envelope;
    if !e.enable || e.period == 0 then ch
    else if e.timer == 0 then ch.(envelope := EnvelopeStep(e))
    else ch.(envelope := e.(timer := e.timer - 1))
  }

  /** The envelope's volume step when its timer has run out. */
  function EnvelopeStep(e: Envelope): (r: Envelope)
    ensures r.timer == e.period && r.volumeReload == e.volumeReload
    ensures r.volume <= 15 || r.volume == e.volume
    ensures e.enable && e.volume <= 15 ==>
      if (e.sweepUp && e.volume < 15) || (!e.sweepUp && e.volume > 0)
      then r.volume == (if e.sweepUp then e.volume + 1 else e.volume - 1) && r.enable
      else r.volume == e.volume && !r.enable
  {
    var delta := if e.sweepUp then 1 else -1;
    var newVolume := (e.volume + delta) % 256;  // static_cast<uint8_t>
    if 0 <= newVolume <= 15 then e.(timer := e.period, volume := newVolume)
    else e.(timer := e.period, enable := false)
  }

  /** The frequency the sweep unit computes from the shadow frequency:
      plus or minus itself shifted right, cast to 16 bits. */
  function SweepTarget(s: Sweep): u16
  {
    var delta: int := Shr(s.shadowFrequency, s.shift);
    (s.shadowFrequency + (if s.sweepDown then -delta else delta)) % 0x1_0000
  }

  /** `calculateSweep`: a target above 2047 silences the channel;
      otherwise, when writing back, the target becomes the frequency and
      the shadow frequency and the overflow check runs once more on it. */
  function CalculateSweep(ch: Channel, writeBack: bool): (r: Channel)
    ensures SweepTarget(ch.sweep) > 2047 ==> r == ch.(enable := false)
    ensures SweepTarget(ch.sweep) <= 2047 && !writeBack ==> r == ch
    ensures SweepTarget(ch.sweep) <= 2047 && writeBack ==>
              && r.frequency == SweepTarget(ch.sweep)
              && r.sweep == ch.sweep.(shadowFrequency := SweepTarget(ch.sweep))
              && r.enable == (ch.enable && SweepTarget(r.sweep) <= 2047)
    ensures r.enable ==> ch.enable
    ensures Valid(ch) ==> Valid(r)
    decreases writeBack
  {
    var target := SweepTarget(ch.sweep);
    if target > 2047 then ch.(enable := false)
    else if writeBack then
      var ch1 := ch.(frequency := target, sweep := ch.sweep.(shadowFrequency := target));
      CalculateSweep(ch1, false)
    else ch
  }

  /** `tickSweep` (square 1 only): at zero the sweep timer reloads and the
      overflow check runs without writing back. */
  function TickSweep(ch: Channel): (r: Channel)
    ensures !ch.hasSweep || !ch.sweep.enable || ch.sweep.period == 0 ==> r == ch
    ensures var s := ch.sweep;
      ch.hasSweep && s.enable && s.period != 0 && s.timer > 0 ==> r == ch.(sweep := s.(timer := s.timer - 1))
    ensures var s := ch.sweep;
      ch.hasSweep && s.enable && s.period != 0 && s.timer == 0 ==>
        && r.sweep == s.(timer := s.period)
        && r.enable == (ch.enable && SweepTarget(s) <= 2047)
    ensures r == ch.(enable := r.enable, sweep := r.sweep)
    ensures r.frequency == ch.frequency && r.envelope == ch.envelope && r.length == ch.length
    ensures r.enable ==> ch.enable
    ensures Valid(ch) ==> Valid(r)
  {
    var s := ch.sweep;
    if !ch.hasSweep || !s.enable || s.period == 0 then ch
    else if s.timer == 0 then CalculateSweep(ch.(sweep := s.(timer := s.period)), false)
    else ch.(sweep := s.(timer := s.timer - 1))
  }

  /** `getVolume`: the envelope volume while the duty waveform is high,
      0 while it is low or the channel or its DAC is off. */
  function GetVolume(ch: Channel): (v: nat)
    requires ch.dutyIndex < 8
    ensures !ch.enable || !ch.dacEnable ==> v == 0
    ensures v == (if Bit(ch.dutyPattern, 7 - ch.dutyIndex) && ch.enable && ch.dacEnable
                  then ch.envelope.volume else 0)
    ensures Valid(ch) ==> v <= 15
  {
    if !ch.enable || !ch.dacEnable then 0
    else ch.envelope.volume * B2I(Bit(ch.dutyPattern, 7 - ch.dutyIndex))
  }

  // ---------------------------------------------------------------------
  // Register writes

  /** NR10: shift in bits 0-2, direction in bit 3, period in bits 4-6. */
  function WriteSweep(ch: Channel, data: u8): (r: Channel)
    ensures r.sweep.shift < 8 && r.sweep.period < 8
    ensures r.sweep.shift + 8 * B2I(r.sweep.sweepDown) + 16 * r.sweep.period == data % 128
    ensures r == ch.(sweep := r.sweep)
    ensures Valid(ch) ==> Valid(r)
  {
    assert data % 8 + 8 * ((data / 8) % 2) + 16 * ((data / 16) % 8) == data % 128 by {
      var a := data / 8;
      assert data == 8 * a + data % 8;
      assert data / 16 == a / 2;
      assert a == 2 * (a / 2) + a % 2;
      assert a / 2 == 8 * (a / 16) + (a / 2) % 8;
    }
    ch.(sweep := ch.sweep.(shift := data % 8, sweepDown := (data / 8) % 2 == 1, period := (data / 16) % 8))
  }

  /** NRx1: `length = (~data & 0x3F) + 1`, the duty pattern from bits 6-7. */
  function WriteDutyLength(ch: Channel, data: u8): (r: Channel)
    ensures 1 <= r.length <= 64 && r.length + data % 64 == 64
    ensures r.dutyPattern == DutyPatterns[data / 64]
    ensures r == ch.(length := r.length, dutyPattern := r.dutyPattern)
    ensures Valid(ch) ==> Valid(r)
  {
    ch.(length := (63 - data % 64) + 1, dutyPattern := DutyPatterns[data / 64])
  }

  /** NRx2: reload volume in bits 4-7, direction in bit 3, period in bits
      0-2. A zero in bits 3-7 turns the DAC off, and with it the channel;
      turning the DAC on leaves the channel as it was. */
  function WriteEnvelope(ch: Channel, data: u8): (r: Channel)
    ensures r.envelope.volumeReload == data / 16 && r.envelope.period == data % 8
    ensures r.envelope.sweepUp == ((data / 8) % 2 == 1)
    ensures r.dacEnable == (data >= 8)
    ensures r.enable == (ch.enable && data >= 8)
    ensures r.envelope.volume == ch.envelope.volume && r.envelope.timer == ch.envelope.timer
    ensures r.envelope.enable == ch.envelope.enable
    ensures r == ch.(envelope := r.envelope, dacEnable := r.dacEnable, enable := r.enable)
    ensures Valid(ch) ==> Valid(r)
  {
    var e := ch.envelope.(volumeReload := data / 16, sweepUp := (data / 8) % 2 == 1, period := data % 8);
    if data < 8 then ch.(envelope := e, dacEnable := false, enable := false)
    else ch.(envelope := e, dacEnable := true)
  }

  /** NRx3 as written: `frequency &= 0x700; frequency |= ~data`. The
      complement is taken of the byte promoted to `int`, so every bit above
      bit 7 is set too: the 16-bit frequency becomes 0xFF00 plus the
      complement of the data byte, and the bits the mask kept are lost. */
  function WriteFreqLoAsWritten(ch: Channel, data: u8): (r: Channel)
    ensures r.frequency / 256 == 0xFF && r.frequency % 256 + data == 0xFF
    ensures r == ch.(frequency := r.frequency)
  {
    ch.(frequency := 0xFF00 + (0xFF - data))
  }

  /** NRx3 as evidently intended: the complemented data byte replaces the
      low 8 bits of the (complemented) 11-bit frequency and bits 8-10 stay. */
  function WriteFreqLo(ch: Channel, data: u8): (r: Channel)
    ensures r.frequency % 256 + data == 0xFF
    ensures ch.frequency < 2048 ==> r.frequency / 256 == ch.frequency / 256
    ensures r == ch.(frequency := r.frequency)
    ensures Valid(ch) ==> Valid(r)
  {
    ch.(frequency := (ch.frequency / 256) % 8 * 256 + (0xFF - data))
  }

  /** NRx4: frequency bits 8-10 from the complement of data bits 0-2,
      length enable from bit 6, and a trigger when bit 7 is set. */
  function WriteTrigFreqHi(ch: Channel, data: u8): (r: Channel)
    ensures data < 0x80 ==>
              && r.frequency % 256 == ch.frequency % 256
              && r.frequency / 256 + data % 8 == 7
              && r.lengthEnable == ((data / 64) % 2 == 1)
    ensures data >= 0x80 ==> (r.enable ==> r.dacEnable) && r.dacEnable == ch.dacEnable
    ensures r.lengthEnable == ((data / 64) % 2 == 1)
    ensures data >= 0x80 ==>
              && r == Trigger(ch.(frequency := FreqHi(ch.frequency, data), lengthEnable := (data / 64) % 2 == 1))
              && r.timer == FreqHi(ch.frequency, data)
    ensures Valid(ch) ==> Valid(r)
  {
    var ch1 := ch.(frequency := FreqHi(ch.frequency, data), lengthEnable := (data / 64) % 2 == 1);
    if data >= 0x80 then Trigger(ch1) else ch1
  }

  /** `(frequency & 0xFF) | ((~data & 7) << 8)`. */
  function FreqHi(frequency: u16, data: u8): (f: u16)
    ensures f % 256 == frequency % 256 && f / 256 + data % 8 == 7
  {
    frequency % 256 + 256 * (7 - data % 8)
  }

  /** `trigger`: the channel restarts as enabled as its DAC, an expired
      length reloads to 64, the envelope restarts at its reload volume,
      and square 1's sweep reloads and runs a first overflow check. */
  function Trigger(ch: Channel): (r: Channel)
    ensures r.enable ==> ch.dacEnable
    ensures r.dacEnable == ch.dacEnable
    ensures r.length == if ch.length == 0 then 64 else ch.length
    ensures r.envelope == ch.envelope.(enable := true, timer := ch.envelope.period,
                                       volume := ch.envelope.volumeReload)
    ensures r.dutyIndex == ch.dutyIndex && r.timer == ch.frequency
    ensures !ch.hasSweep ==> r.enable == ch.dacEnable && r.frequency == ch.frequency
    ensures ch.hasSweep ==> r.sweep.enable == (ch.sweep.period != 0 || ch.sweep.shift != 0)
    ensures ch.hasSweep ==> r.sweep.timer == ch.sweep.period && r.sweep.shadowFrequency == r.frequency
    ensures ch.hasSweep ==> var s0 := ch.sweep.(shadowFrequency := ch.frequency);
      && r.frequency == (if ch.sweep.shift != 0 && SweepTarget(s0) <= 2047 then SweepTarget(s0) else ch.frequency)
      && r.enable == (ch.dacEnable && (ch.sweep.shift == 0 ||
                        (SweepTarget(s0) <= 2047 && SweepTarget(s0.(shadowFrequency := SweepTarget(s0))) <= 2047)))
    ensures Valid(ch) ==> Valid(r)
  {
    var ch1 := ch.(enable := ch.dacEnable,
                   length := if ch.length == 0 then 64 else ch.length,
                   timer := ch.frequency,
                   envelope := ch.envelope.(enable := true, timer := ch.envelope.period,
                                            volume := ch.envelope.volumeReload));
    if ch.hasSweep then StartSweep(ch1) else ch1
  }

  /** The sweep part of `trigger`: the shadow frequency and timer reload,
      the unit runs if it has a period or a shift, and a shift triggers
      the first overflow check. */
  function StartSweep(ch: Channel): (r: Channel)
    ensures r == ch.(frequency := r.frequency, sweep := r.sweep, enable := r.enable)
    ensures r.sweep == ch.sweep.(shadowFrequency := r.frequency, timer := ch.sweep.period,
                                 enable := ch.sweep.period != 0 || ch.sweep.shift != 0)
    ensures var s0 := ch.sweep.(shadowFrequency := ch.frequency);
      && r.frequency == (if ch.sweep.shift != 0 && SweepTarget(s0) <= 2047 then SweepTarget(s0) else ch.frequency)
      && r.enable == (ch.enable && (ch.sweep.shift == 0 ||
                        (SweepTarget(s0) <= 2047 && SweepTarget(s0.(shadowFrequency := SweepTarget(s0))) <= 2047)))
    ensures Valid(ch) ==> Valid(r)
  {
    var s0 := ch.sweep.(shadowFrequency := ch.frequency);
    var ch2 := ch.(sweep := s0.(timer := ch.sweep.period, enable := ch.sweep.period != 0 || ch.sweep.shift != 0));
    SameTarget(ch2.sweep, s0);
    if ch.sweep.shift == 0 then ch2
    else
      var t := SweepTarget(s0);
      if t > 2047 then
        assert CalculateSweep(ch2, true) == ch2.(enable := false);
        CalculateSweep(ch2, true)
      else
        var ch3 := ch2.(frequency := t, sweep := ch2.sweep.(shadowFrequency := t));
        SameTarget(ch3.sweep, s0.(shadowFrequency := t));
        assert CalculateSweep(ch2, true) == CalculateSweep(ch3, false);
        CalculateSweep(ch3, false)
  }

  /** The sweep target depends only on the shadow frequency, the shift and
      the direction. */
  lemma SameTarget(s: Sweep, t: Sweep)
    requires s.shadowFrequency == t.shadowFrequency && s.shift == t.shift && s.sweepDown == t.sweepDown
    ensures SweepTarget(s) == SweepTarget(t)
  {
  }

  /** `k` consecutive timer ticks. */
  function TimerTicks(ch: Channel, k: nat): Channel
  {
    if k == 0 then ch else TickTimer(TimerTicks(ch, k - 1))
  }

  // ---------------------------------------------------------------------
  // Lemmas

  /** The envelope never leaves 0..15: at either end it stops instead. */
  lemma EnvelopeStopsAtEnds(ch: Channel)
    requires ch.envelope.enable && ch.envelope.period != 0 && ch.envelope.timer == 0
    requires (ch.envelope.sweepUp && ch.envelope.volume == 15) || (!ch.envelope.sweepUp && ch.envelope.volume == 0)
    ensures !TickEnvelope(ch).envelope.enable && TickEnvelope(ch).envelope.volume == ch.envelope.volume
  {
  }

  /** The as-written NRx3 write leaves an 11-bit register out of range:
      any data byte makes the frequency exceed 2047. */
  lemma FreqLoAsWrittenLeavesRange(ch: Channel, data: u8)
    ensures WriteFreqLoAsWritten(ch, data).frequency > 2047
    ensures WriteFreqLo(ch, data).frequency < 2048
  {
  }

  /** With the as-written NRx3 write, a trigger of square 1 with an upward
      sweep silences the channel at once, whatever the data was. */
  lemma FreqLoAsWrittenSilencesSweep(ch: Channel, data: u8)
    requires ch.hasSweep && !ch.sweep.sweepDown && 1 <= ch.sweep.shift <= 4
    ensures !Trigger(WriteFreqLoAsWritten(ch, data)).enable
  {
    var ch1 := WriteFreqLoAsWritten(ch, data);
    var f := ch1.frequency;
    assert f >= 0xFF00;
    var s := ch1.sweep.(shadowFrequency := f);
    var d := Shr(f, s.shift);
    assert d >= 0xFF0 by {
      assert Pow2(1) == 2 && Pow2(2) == 4 && Pow2(3) == 8 && Pow2(4) == 16;
      ShrAtLeast(f, s.shift, 0xFF0);
    }
    assert d <= f;
    assert SweepTarget(s) == f + d - 0x1_0000;
  }

  /** NRx3 then NRx4 load the complement of the 11-bit value written, so
      the timer period `frequency + 1` is `2048 - x` for register value x. */
  lemma FrequencyComplement(ch: Channel, lo: u8, hi: u8)
    requires hi < 0x80
    ensures WriteTrigFreqHi(WriteFreqLo(ch, lo), hi).frequency + 1 == 2048 - (256 * (hi % 8) + lo)
  {
  }

  /** Ticking the timer `frequency + 1` times from zero advances the duty
      step by exactly one. */
  lemma {:induction false} TimerPeriod(ch: Channel, k: nat)
    requires ch.timer == 0 && k <= ch.frequency
    ensures TimerTicks(ch, k + 1).dutyIndex == (ch.dutyIndex + 1) % 8
    ensures TimerTicks(ch, k + 1).timer == ch.frequency - k
  {
    if k > 0 {
      TimerPeriod(ch, k - 1);
    }
  }
}

=== FILE: timer.dfy ===
/** The DIV/TIMA/TMA/TAC timer of src/timer.cpp and include/timer.h. */
module Timer {
  import opened Bits

  /** `kClockStep`: CPU ticks per counter increment, by clock select. */
  const ClockSteps: seq<nat> := [1024, 16, 64, 256]

  /** `clock_select` indexes `kClockStep`. */
  type ClockSelect = x: nat | x < 4

  /** The timer registers. `cpuTickDivider` and `counterDivider` hold the
      ticks not yet turned into a divider or counter increment. */
  datatype TimerState = TimerState(divider: u8, counter: u8, modulo: u8,
                                   cpuTickDivider: nat, counterDivider: int,
                                   enable: bool, clockSelect: ClockSelect)

  /** The constructor zeroes every field it initialises. `counter_divider`
      is left out of its initialiser list, so its start value is a parameter. */
  function Init(counterDivider: int): (t: TimerState)
    ensures t.divider == 0 && t.counter == 0 && t.modulo == 0
    ensures t.cpuTickDivider == 0 && !t.enable && t.clockSelect == 0
    ensures t.counterDivider == counterDivider
  {
    TimerState(0, 0, 0, 0, counterDivider, false, 0)
  }

  /** `getClockStep`. */
  function ClockStep(t: TimerState): (step: nat)
    ensures step in {16, 64, 256, 1024}
  {
    ClockSteps[t.clockSelect]
  }

  /** The counter after `k` increments, each wrapping at 256 and reloading
      from `modulo` on overflow, and whether any increment overflowed. */
  function CountUp(counter: u8, modulo: u8, k: nat): (u8, bool)
  {
    if k == 0 then (counter, false)
    else
      var (c, overflowed) := CountUp(counter, modulo, k - 1);
      if (c + 1) % 256 == 0 then (modulo, true) else ((c + 1) % 256, overflowed)
  }

  /** How many whole steps of `step` ticks fit in `total`. */
  function Whole(total: int, step: nat): nat
    requires step > 0
  {
    if total < 0 then 0 else total / step
  }

  /** `tick`: the divider rises once per 256 ticks; when enabled, the
      counter rises once per clock step and overflow raises the timer
      interrupt. */
  method Tick(t: TimerState, ticks: nat) returns (r: TimerState, interrupt: bool)
    ensures r.cpuTickDivider == (t.cpuTickDivider + ticks) % 256
    ensures r.divider == (t.divider + (t.cpuTickDivider + ticks) / 256) % 256
    ensures r.modulo == t.modulo && r.enable == t.enable && r.clockSelect == t.clockSelect
    ensures !t.enable ==> r.counter == t.counter && r.counterDivider == t.counterDivider && !interrupt
    ensures t.enable ==>
              var k := Whole(t.counterDivider + ticks, ClockStep(t));
              && r.counterDivider == t.counterDivider + ticks - k * ClockStep(t)
              && r.counterDivider < ClockStep(t)
              && (r.counter, interrupt) == CountUp(t.counter, t.modulo, k)
  {
    interrupt := false;
    var divider: int := t.divider;
    var acc := t.cpuTickDivider + ticks;
    var n := 0;
    while acc >= 256
      invariant 0 <= acc && acc + 256 * n == t.cpuTickDivider + ticks
      invariant divider == (t.divider + n) % 256
    {
      divider := (divider + 1) % 256;
      acc := acc - 256;
      n := n + 1;
    }
    assert n == (t.cpuTickDivider + ticks) / 256;
    r := t.(divider := divider, cpuTickDivider := acc);
    if t.enable {
      var step := ClockStep(t);
      var cd := t.counterDivider + ticks;
      var counter: int := t.counter;
      var k := 0;
      while cd >= step
        invariant cd + k * step == t.counterDivider + ticks
        invariant k > 0 ==> cd >= 0
        invariant (counter, interrupt) == CountUp(t.counter, t.modulo, k)
        decreases cd
      {
        counter := (counter + 1) % 256;
        if counter == 0 {
          counter := t.modulo;
          interrupt := true;
        }
        cd := cd - step;
        k := k + 1;
      }
      WholeSteps(t.counterDivider + ticks, step, k, cd);
      r := r.(counter := counter, counterDivider := cd);
    }
  }

  /** `read`: the four registers; TAC as `enable << 2 | clock_select`;
      anything else 0. */
  function Read(t: TimerState, addr: u16): (v: u8)
    ensures addr == 0xFF04 ==> v == t.divider
    ensures addr == 0xFF05 ==> v == t.counter
    ensures addr == 0xFF06 ==> v == t.modulo
    ensures addr == 0xFF07 ==> v / 4 == B2I(t.enable) && v % 4 == t.clockSelect
    ensures !(0xFF04 <= addr <= 0xFF07) ==> v == 0
  {
    if addr == 0xFF04 then t.divider
    else if addr == 0xFF05 then t.counter
    else if addr == 0xFF06 then t.modulo
    else if addr == 0xFF07 then 4 * B2I(t.enable) + t.clockSelect
    else 0
  }

  /** `write` as the source has it. The switch has no `break`, so each case
      falls through into the ones after it: DIV also loads TIMA, TMA and
      TAC, TIMA also loads TMA and TAC, TMA also loads TAC. The TAC case
      only masks its local copy of the data, so `clock_select` is never
      written. */
  function WriteAsWritten(t: TimerState, addr: u16, data: u8): (r: TimerState)
    ensures r.clockSelect == t.clockSelect
    ensures r.cpuTickDivider == t.cpuTickDivider && r.counterDivider == t.counterDivider
    ensures r.divider == if addr == 0xFF04 then 0 else t.divider
    ensures r.counter == if 0xFF04 <= addr <= 0xFF05 then data else t.counter
    ensures r.modulo == if 0xFF04 <= addr <= 0xFF06 then data else t.modulo
    ensures r.enable == if 0xFF04 <= addr <= 0xFF07 then Bit(data, 2) else t.enable
  {
    var t1 := if addr == 0xFF04 then t.(divider := 0) else t;
    var t2 := if 0xFF04 <= addr <= 0xFF05 then t1.(counter := data) else t1;
    var t3 := if 0xFF04 <= addr <= 0xFF06 then t2.(modulo := data) else t2;
    assert Bit(data, 2) == ((data / 4) % 2 == 1) by {
      assert Bit(data, 2) == Bit(data / 2, 1) == Bit(data / 2 / 2, 0);
      assert data / 2 / 2 == data / 4;
    }
    if 0xFF04 <= addr <= 0xFF07 then t3.(enable := (data / 4) % 2 == 1) else t3
  }

  /** `write` as it is evidently meant: each register on its own, and a TAC
      write taking the enable from bit 2 and the clock select from bits 0-1.
      This is the write the bus uses. */
  function Write(t: TimerState, addr: u16, data: u8): (r: TimerState)
    ensures r.cpuTickDivider == t.cpuTickDivider && r.counterDivider == t.counterDivider
    ensures addr == 0xFF07 ==> r.enable == Bit(data, 2) && ClockStep(r) == ClockSteps[data % 4]
    ensures !(0xFF04 <= addr <= 0xFF07) ==> r == t
  {
    assert Bit(data, 2) == ((data / 4) % 2 == 1) by {
      assert Bit(data, 2) == Bit(data / 2, 1) == Bit(data / 2 / 2, 0);
      assert data / 2 / 2 == data / 4;
    }
    if addr == 0xFF04 then t.(divider := 0)
    else if addr == 0xFF05 then t.(counter := data)
    else if addr == 0xFF06 then t.(modulo := data)
    else if addr == 0xFF07 then t.(enable := (data / 4) % 2 == 1, clockSelect := data % 4)
    else t
  }

  // ---------------------------------------------------------------------
  // Lemmas

  lemma WholeSteps(total: int, step: nat, k: nat, rest: int)
    requires step > 0 && rest < step && rest + k * step == total
    requires k > 0 ==> rest >= 0
    ensures k == Whole(total, step)
  {
    if total >= 0 {
      var q, r := total / step, total % step;
      assert (q - k) * step == rest - r;
      if k > 0 {
        MultipleInRange(q - k, step, rest - r);
      } else {
        assert 0 <= total < step;
      }
    }
  }

  /** The only multiple of `step` strictly between `-step` and `step` is 0. */
  lemma MultipleInRange(d: int, step: nat, e: int)
    requires step > 0 && d * step == e && -(step as int) < e < step
    ensures d == 0
  {
  }

  /** Fewer increments than it takes to wrap just add, and raise nothing. */
  lemma {:induction false} CountUpWithoutOverflow(counter: u8, modulo: u8, k: nat)
    requires counter + k < 256
    ensures CountUp(counter, modulo, k) == (counter + k, false)
  {
    if k > 0 {
      CountUpWithoutOverflow(counter, modulo, k - 1);
    }
  }

  /** The increment that wraps the counter reloads it from the modulo and
      raises the interrupt. */
  lemma CountUpOverflow(counter: u8, modulo: u8)
    ensures CountUp(counter, modulo, 256 - counter) == (modulo, true)
  {
    CountUpWithoutOverflow(counter, modulo, 255 - counter);
  }

  /** Once it has overflowed, the interrupt stays raised however many more
      increments follow. */
  lemma {:induction false} CountUpKeepsInterrupt(counter: u8, modulo: u8, k: nat, j: nat)
    requires k <= j && CountUp(counter, modulo, k).1
    ensures CountUp(counter, modulo, j).1
  {
    if k < j {
      CountUpKeepsInterrupt(counter, modulo, k, j - 1);
    }
  }

  /** As written, a write to DIV (0xFF04) zeroes the divider and, by
      falling through, loads TIMA and TMA with the data and TAC's enable
      with its bit 2. */
  lemma DivWriteFallsThrough(t: TimerState, data: u8)
    ensures Read(WriteAsWritten(t, 0xFF04, data), 0xFF04) == 0
    ensures Read(WriteAsWritten(t, 0xFF04, data), 0xFF05) == data
    ensures Read(WriteAsWritten(t, 0xFF04, data), 0xFF06) == data
    ensures WriteAsWritten(t, 0xFF04, data).enable == Bit(data, 2)
  {
  }

  /** As written, writing TAC changes the enable bit only: reading TAC back
      gives the enable bit and the clock select the timer had before. */
  lemma TacWriteKeepsClockSelect(t: TimerState, data: u8)
    ensures Read(WriteAsWritten(t, 0xFF07, data), 0xFF07) == 4 * B2I(Bit(data, 2)) + t.clockSelect
  {
  }

  /** As written, the constructor never selects any clock but 1024 ticks,
      and no write changes that. */
  lemma ClockStepAlways1024(counterDivider: int, addr: u16, data: u8)
    ensures ClockStep(Init(counterDivider)) == 1024
    ensures ClockStep(WriteAsWritten(Init(counterDivider), addr, data)) == 1024
  {
  }

  /** A concrete case: TAC written with 0x05 (enabled, 16-tick clock) reads
      back 0x04 as written and 0x05 with the corrected write. */
  lemma TacWriteDiscrepancy(counterDivider: int)
    ensures Read(WriteAsWritten(Init(counterDivider), 0xFF07, 0x05), 0xFF07) == 0x04
    ensures Read(Write(Init(counterDivider), 0xFF07, 0x05), 0xFF07) == 0x05
  {
    assert Bit(0x05, 2) by { assert 0x05 / 2 / 2 == 1; }
  }

  /** With the corrected write, a timer register reads back what was
      written (DIV resets to 0, TAC keeps its three low bits), and the other
      three registers read as before. */
  lemma WriteReadBack(t: TimerState, addr: u16, data: u8, other: u16)
    requires 0xFF04 <= addr <= 0xFF07
    ensures Read(Write(t, addr, data), addr)
              == if addr == 0xFF04 then 0 else if addr == 0xFF07 then data % 8 else data
    ensures other != addr ==> Read(Write(t, addr, data), other) == Read(t, other)
  {
    if addr == 0xFF07 {
      var q := data / 4;
      assert data == 4 * q + data % 4;
      assert data % 8 == 4 * (q % 2) + data % 4;
    }
  }
}

=== FILE: wrappers.dfy ===
/** The optional value used wherever a lookup in the emulator can miss. */
module Wrappers {
  datatype Option<T> = None | Some(value: T)
}
